=== FILE: README.md ===
# tweet-audits, modelled in Dafny

The model covers the batch-audit pipeline of tweet-audits. The pipeline reads an X (Twitter) archive, asks the Gemini API whether each original post breaks a set of alignment criteria, and writes a CSV report of the posts flagged for deletion or that could not be evaluated. It has these parts:

- **Scheduler** (`TweetAuditService.run`). It skips the posts an earlier checkpoint already covers and splits the rest into batches. It evaluates every post, turning each failure into an error result. After each batch it saves a checkpoint and pauses 60 s, but never after the last batch. At the end it writes the report and deletes the checkpoint.
- **Gemini client** (`GeminiClient.evaluateTweet`). Each call runs in a fixed order:
  1. check the daily quota;
  2. wait out the adaptive governor's delay;
  3. send the request;
  4. parse the answer;
  5. count the request only once steps 3 and 4 have succeeded.
  The HTTP outcome feeds the governor. The declared retry policy is modelled as a function.
- **Adaptive rate limiter**: a delay that stays between 200 and 10 000 ms and moves according to response times, HTTP 429 and 5xx responses.
- **Daily quota tracker**: a `(date, count)` ledger with lazy day rollover and a safety threshold.
- **Checkpoint manager**: a store with a single slot.
- **CSV writer**: filtering, row rendering and quoting.
- **Archive parser**: unwrapping the JavaScript assignment and filtering out retweets.
- **Config validator**: ordered checks where the first failure is the one reported.

Module layout: one module per source class.

| Module | Source class |
|---|---|
| `Wrappers` | Option and Result |
| `JavaString` | the few `java.lang.String` operations used |
| `Model` | `Tweet`, `TweetEvaluationResult`, `AlignmentCriteria`, `ProcessingCheckpoint` |
| `AdaptiveRateLimiter` | `AdaptiveRateLimiter` |
| `DailyQuotaTracker` | `DailyQuotaTracker` |
| `CheckpointManager` | `CheckpointManager` |
| `GeminiClient` | `GeminiClient` |
| `CsvWriter` | `CSVWriter` |
| `ArchiveParser` | `ArchiveParser` |
| `ConfigValidator` | `ConfigValidator` |
| `TweetAuditService` | the scheduler |
| `AuditPipeline` | the scheduler driving the Gemini client |

Everything the code takes from the outside world becomes a parameter. This covers:
- today's date, the clock reading stamped on a checkpoint, and the HTTP outcome of each call;
- whether a file exists, can be read or can be written;
- the decoded JSON of the archive.

Sleeps are returned as durations. A process exit becomes a value (`Exhausted`, `Halted`, `QuotaShutdown`). Java `null` becomes `Option.None`.

The scheduler takes its evaluator as a parameter, a step `(S, Tweet) -> (S, Evaluation)` over a state `S` of the evaluator's own. `AuditPipeline` instantiates it with the Gemini client, whose rate limiter and quota ledger carry over from one post to the next.

## Model

| member | source | states |
|---|---|---|
| JavaString.IndexOf | src/main/java/com/ridwan/tweetaudit/parser/ArchiveParser.java:59 | `indexOf` is -1 exactly when the character is absent; otherwise it is the first position holding it |
| JavaString.Trim | src/main/java/com/ridwan/tweetaudit/validation/ConfigValidator.java:32 | `trim()` returns the input without a prefix and a suffix made only of characters up to the space, and what remains neither starts nor ends with such a character |
| JavaString.BlankIffAllTrimmable | src/main/java/com/ridwan/tweetaudit/validation/ConfigValidator.java:32 | `trim().isEmpty()` holds exactly when every character is one `trim()` removes |
| JavaString.DoubleQuotes | src/main/java/com/ridwan/tweetaudit/output/CSVWriter.java:115 | `replace("\"", "\"\"")` never shortens a string and introduces no new character |
| JavaString.Join | src/main/java/com/ridwan/tweetaudit/output/CSVWriter.java:90 | `String.join` gives nothing for no parts, a single part unchanged without the separator, and otherwise begins with the first part followed by the separator and is at least as long as the first two parts with one separator |
| JavaString.Length | src/main/java/com/ridwan/tweetaudit/validation/ConfigValidator.java:39 | `length()` counts UTF-16 code units: between the number of characters and twice that, and equal to it exactly when no character lies outside the Basic Multilingual Plane |
| Model.IsRetweet | src/main/java/com/ridwan/tweetaudit/model/Tweet.java:68-70 | a post is a retweet exactly when its text is present and starts with the case-sensitive "RT @"; a null, empty or shorter text is not |
| Model.NormaliseCriteria | src/main/java/com/ridwan/tweetaudit/model/TweetEvaluationResult.java:28-33 | a null criteria list becomes the empty list; any other list is kept as given |
| Model.DefaultResult | src/main/java/com/ridwan/tweetaudit/model/TweetEvaluationResult.java:24-26 | a default-constructed result has an empty, non-null criteria list and no id, reason or error |
| Model.NewResult | src/main/java/com/ridwan/tweetaudit/model/TweetEvaluationResult.java:28-33 | the four-argument constructor keeps id, verdict and reason, and always yields a non-null criteria list equal to the given one when that was non-null |
| Model.SetMatchedCriteria | src/main/java/com/ridwan/tweetaudit/model/TweetEvaluationResult.java:63-65 | the setter normalises null to empty and changes no other field |
| Model.ValidityNeedsOnlyReason | src/main/java/com/ridwan/tweetaudit/model/TweetEvaluationResult.java:67-69 | after the constructor or the setter, `isValid` reduces to the reason being non-null; a default result is never valid |
| AdaptiveRateLimiter.NewLimiter | src/main/java/com/ridwan/tweetaudit/ratelimit/AdaptiveRateLimiter.java:25-40 | a new limiter starts at 1000 ms, inside the 200..10 000 ms bounds |
| AdaptiveRateLimiter.RecordSuccess | src/main/java/com/ridwan/tweetaudit/ratelimit/AdaptiveRateLimiter.java:59-84 | under 500 ms the delay drops by 100 but not below 200; over 3000 ms it rises by 500 but not above 10 000; from 500 to 3000 inclusive nothing changes; the bounds are kept |
| AdaptiveRateLimiter.RecordRateLimitHit | src/main/java/com/ridwan/tweetaudit/ratelimit/AdaptiveRateLimiter.java:89-99 | a 429 doubles the delay up to 10 000, never lowers it, and keeps the bounds |
| AdaptiveRateLimiter.RecordServerError | src/main/java/com/ridwan/tweetaudit/ratelimit/AdaptiveRateLimiter.java:104-114 | a server error adds 500 up to 10 000, never lowers the delay, and keeps the bounds |
| AdaptiveRateLimiter.Reset | src/main/java/com/ridwan/tweetaudit/ratelimit/AdaptiveRateLimiter.java:119-122 | from any state, reset gives back exactly the initial 1000 ms limiter |
| AdaptiveRateLimiter.WaitBeforeNextCall | src/main/java/com/ridwan/tweetaudit/ratelimit/AdaptiveRateLimiter.java:47-52 | the wait is the current delay when it is positive and nothing otherwise, so a valid limiter waits 200..10 000 ms |
| AdaptiveRateLimiter.ApplyAll | src/main/java/com/ridwan/tweetaudit/ratelimit/AdaptiveRateLimiter.java:25-26 | any history of signals keeps the delay within 200..10 000 ms |
| AdaptiveRateLimiter.ApplyAllMonotone | src/main/java/com/ridwan/tweetaudit/ratelimit/AdaptiveRateLimiter.java:59-114 | the same history of signals never reverses the order of two delays |
| AdaptiveRateLimiter.FastAnswersFloor | src/main/java/com/ridwan/tweetaudit/ratelimit/AdaptiveRateLimiter.java:64-66 | n fast answers lower the delay by 100 each, stopping at 200 |
| AdaptiveRateLimiter.SlowAnswersCap | src/main/java/com/ridwan/tweetaudit/ratelimit/AdaptiveRateLimiter.java:73-75 | n slow answers raise the delay by 500 each, stopping at 10 000 |
| AdaptiveRateLimiter.TwentyFastAnswersReachFloor | src/test/java/com/ridwan/tweetaudit/ratelimit/AdaptiveRateLimiterTest.java:47-55 | from 1000 ms, 20 fast answers reach the 200 ms floor |
| AdaptiveRateLimiter.FiftySlowAnswersReachCap | src/test/java/com/ridwan/tweetaudit/ratelimit/AdaptiveRateLimiterTest.java:57-64 | from 1000 ms, 50 slow answers reach the 10 000 ms cap |
| AdaptiveRateLimiter.MixedHistory | src/test/java/com/ridwan/tweetaudit/ratelimit/AdaptiveRateLimiterTest.java:122-139 | fast, fast, 429, slow, fast from 1000 ms give 900, 800, 1600, 2100, 2000 |
| DailyQuotaTracker.Save | src/main/java/com/ridwan/tweetaudit/ratelimit/DailyQuotaTracker.java:114-128 | a save that fails is swallowed and leaves the old record; otherwise the record is the state |
| DailyQuotaTracker.LoadOrCreate | src/main/java/com/ridwan/tweetaudit/ratelimit/DailyQuotaTracker.java:82-109 | a readable record is taken as stored, even from an earlier day; a missing or unreadable one gives a zero count for today |
| DailyQuotaTracker.NewTracker | src/main/java/com/ridwan/tweetaudit/ratelimit/DailyQuotaTracker.java:63-80 | construction keeps the configured limits and loads the state without ever failing |
| DailyQuotaTracker.ResetIfNewDay | src/main/java/com/ridwan/tweetaudit/ratelimit/DailyQuotaTracker.java:142-155 | afterwards the date is today; on the same day nothing changes; on a new day the count is zero and the record is saved |
| DailyQuotaTracker.RolloverIdempotent | src/main/java/com/ridwan/tweetaudit/ratelimit/DailyQuotaTracker.java:142-155 | a second rollover on the same day changes nothing |
| DailyQuotaTracker.CheckQuota | src/main/java/com/ridwan/tweetaudit/ratelimit/DailyQuotaTracker.java:169-195 | the check rolls over first, then signals exhaustion exactly when the count has reached the safety threshold |
| DailyQuotaTracker.VerdictIgnoresDailyLimit | src/main/java/com/ridwan/tweetaudit/ratelimit/DailyQuotaTracker.java:169-195 | the daily limit never changes the verdict; it is only logged |
| DailyQuotaTracker.CountOne | src/main/java/com/ridwan/tweetaudit/ratelimit/DailyQuotaTracker.java:211-215 | the counting step rolls over first, then adds exactly one with today's date; it is saved when the store accepts writes and otherwise advances only in memory |
| DailyQuotaTracker.IncrementRequestCount | src/main/java/com/ridwan/tweetaudit/ratelimit/DailyQuotaTracker.java:211-224 | when the remaining-quota lookup after the save happens on the same day, the result is exactly the counting step; when the day has changed by then, the state is the new day with a count of zero; the stored record always matches the state when writable and is untouched otherwise |
| DailyQuotaTracker.MidnightAfterIncrementForgetsIt | src/main/java/com/ridwan/tweetaudit/ratelimit/DailyQuotaTracker.java:211-233 | a day boundary between the save and the remaining-quota lookup leaves a count of zero for the new day, although the counting step had charged the request to the old day |
| DailyQuotaTracker.GetRemainingQuota | src/main/java/com/ridwan/tweetaudit/ratelimit/DailyQuotaTracker.java:231-234 | after the rollover the remaining count is threshold minus count, floored at zero, and zero exactly when the check would signal exhaustion |
| DailyQuotaTracker.Reset | src/main/java/com/ridwan/tweetaudit/ratelimit/DailyQuotaTracker.java:280-283 | reset sets today's date with a zero count and saves it |
| DailyQuotaTracker.IncrementsAccumulate | src/main/java/com/ridwan/tweetaudit/ratelimit/DailyQuotaTracker.java:211-224 | n increments on one day add exactly n and leave the record saved |
| DailyQuotaTracker.ThresholdBoundary | src/main/java/com/ridwan/tweetaudit/ratelimit/DailyQuotaTracker.java:169-195 | with a limit of 1000 and a threshold of 950, 949 requests still proceed and 950 exhaust the quota |
| DailyQuotaTracker.RemainingFloorsAtZero | src/test/java/com/ridwan/tweetaudit/ratelimit/DailyQuotaTrackerTest.java:184-199 | counting past the threshold leaves zero remaining, never a negative number |
| DailyQuotaTracker.StaleStateResetOnFirstAccess | src/main/java/com/ridwan/tweetaudit/ratelimit/DailyQuotaTracker.java:82-98 | a stored state from an earlier day survives construction, is reset to zero on first access, and then leaves the full threshold remaining |
| CheckpointManager.SaveCheckpoint | src/main/java/com/ridwan/tweetaudit/checkpoint/CheckpointManager.java:27-41 | a writable store ends up holding the checkpoint stamped with the current clock reading, whatever it held before; a write failure throws to the caller |
| CheckpointManager.LoadCheckpoint | src/main/java/com/ridwan/tweetaudit/checkpoint/CheckpointManager.java:43-61 | loading gives none exactly when there is no record, fails exactly when the record is corrupt, and otherwise gives the stored checkpoint |
| CheckpointManager.CheckpointExists | src/main/java/com/ridwan/tweetaudit/checkpoint/CheckpointManager.java:63-65 | a checkpoint exists exactly when some record, even an unreadable one, is on disk |
| CheckpointManager.DeleteCheckpoint | src/main/java/com/ridwan/tweetaudit/checkpoint/CheckpointManager.java:67-73 | a delete fails exactly when a record exists and the filesystem refuses to remove it; otherwise no record remains and loading gives none |
| CheckpointManager.DeleteIdempotent | src/main/java/com/ridwan/tweetaudit/checkpoint/CheckpointManager.java:67-73 | once the record is deleted, a second delete cannot fail and leaves the store as it is |
| CheckpointManager.SaveThenLoad | src/main/java/com/ridwan/tweetaudit/checkpoint/CheckpointManager.java:27-61 | a successful save loads back exactly, stamped with the save's clock reading |
| CheckpointManager.SaveOverwrites | src/main/java/com/ridwan/tweetaudit/checkpoint/CheckpointManager.java:27-41 | a save's outcome does not depend on what was stored before, so nothing is merged or appended |
| GeminiClient.GovernorSignals | src/main/java/com/ridwan/tweetaudit/client/GeminiClient.java:123-154 | an answer sends one success signal with its elapsed time; a 429 sends only a rate-limit signal; another 5xx sends only a server-error signal; any other failure sends nothing |
| GeminiClient.CallGeminiApi | src/main/java/com/ridwan/tweetaudit/client/GeminiClient.java:123-154 | the call succeeds exactly when an answer came back; every HTTP error is rethrown with its status; the governor moves only by the signals above and keeps its bounds |
| GeminiClient.ParseResponse | src/main/java/com/ridwan/tweetaudit/client/GeminiClient.java:156-181 | a null answer or one with no candidates is rejected; parsing succeeds exactly when the first part of the first candidate decodes to a verdict, and the result is that verdict's delete flag, reason and criteria under the post's id, with no error |
| GeminiClient.ParseRecoversPayload | src/main/java/com/ridwan/tweetaudit/client/GeminiClient.java:156-181 | a well-formed answer parses back to exactly its verdict, reason and criteria |
| GeminiClient.FirstCandidateDecides | src/main/java/com/ridwan/tweetaudit/client/GeminiClient.java:165-171 | a first candidate without content or without parts is rejected, whatever candidates follow it |
| GeminiClient.LaterCandidatesIgnored | src/main/java/com/ridwan/tweetaudit/client/GeminiClient.java:165-166 | candidates after the first never change the outcome of parsing |
| GeminiClient.LaterPartsIgnored | src/main/java/com/ridwan/tweetaudit/client/GeminiClient.java:168-173 | parts after the first never change the outcome of parsing |
| GeminiClient.EvaluateTweet | src/main/java/com/ridwan/tweetaudit/client/GeminiClient.java:190-222 | each call runs quota check, wait, request, parse, count, in that order, and stops at the first failure; the call shuts down exactly when the quota is exhausted; an interrupted wait fails with "Rate limiter interrupted: " and the id, before any request and leaving the governor as it was; otherwise a call returns a result exactly when the API answers and the answer parses, and that result is the parsed verdict; the count rises only after both request and parse succeed; every other failure is "Failed to evaluate tweet: " and the id |
| GeminiClient.InterruptedWaitFails | src/main/java/com/ridwan/tweetaudit/client/GeminiClient.java:196-217 | with a valid governor the wait always sleeps, so an interrupt fails the call with the interruption message, sends no request and counts nothing |
| GeminiClient.CallKeepsCountWithinThreshold | src/main/java/com/ridwan/tweetaudit/client/GeminiClient.java:195-205 | a call never takes the day's count past the safety threshold, even across midnight |
| GeminiClient.DecideRetry | src/main/java/com/ridwan/tweetaudit/client/GeminiClient.java:183-189 | only 429 and 503 are retried, and only before the third attempt, after 1000·2^(k-1) ms |
| GeminiClient.BackoffsBounded | src/main/java/com/ridwan/tweetaudit/client/GeminiClient.java:183-189 | any run of failures waits at most twice, 1000 ms then 2000 ms |
| GeminiClient.PersistentUnavailability | src/main/java/com/ridwan/tweetaudit/client/GeminiClient.java:183-189 | three 503s in a row wait 1000 and 2000 ms and then give up |
| GeminiClient.NonRetryableGivesUp | src/main/java/com/ridwan/tweetaudit/client/GeminiClient.java:183-189 | a status other than 429 or 503 gives up at once |
| CsvWriter.FlaggedOrError | src/main/java/com/ridwan/tweetaudit/output/CSVWriter.java:32-35 | the filter keeps only results flagged for deletion or carrying an error, and never adds any |
| CsvWriter.FlaggedOrErrorMembers | src/main/java/com/ridwan/tweetaudit/output/CSVWriter.java:32-35 | a result is kept exactly when it is in the input and is flagged or failed |
| CsvWriter.FlaggedOrErrorAppend | src/main/java/com/ridwan/tweetaudit/output/CSVWriter.java:32-35 | the filter distributes over concatenation, so the input order is kept |
| CsvWriter.Status | src/main/java/com/ridwan/tweetaudit/output/CSVWriter.java:84 | the status is ERROR exactly when there is an error message, even for a result flagged for deletion |
| CsvWriter.TweetUrl | src/main/java/com/ridwan/tweetaudit/output/CSVWriter.java:103-108 | a null id gives an empty URL; otherwise the URL is the status prefix followed by the id |
| CsvWriter.EscapeCsv | src/main/java/com/ridwan/tweetaudit/output/CSVWriter.java:110-118 | null gives ""; a value without a comma, quote or newline is kept; any other value is wrapped in quotes |
| CsvWriter.Cells | src/main/java/com/ridwan/tweetaudit/output/CSVWriter.java:83-101 | a row has five cells; an error row has empty criteria and the error message as its reason; otherwise the reason cell is the reason, with null printed as empty |
| CsvWriter.Row | src/main/java/com/ridwan/tweetaudit/output/CSVWriter.java:83-101 | rendering fails exactly for a result with no error and a null criteria list, where `String.join` throws |
| CsvWriter.Rows | src/main/java/com/ridwan/tweetaudit/output/CSVWriter.java:46-48 | the rows render exactly when every result renders; no results give no text, and one result gives its record followed by a line end |
| CsvWriter.RowsAppend | src/main/java/com/ridwan/tweetaudit/output/CSVWriter.java:46-48 | the rows of two lists are the rows of each, one after the other |
| CsvWriter.RowsFailIffUnrenderable | src/main/java/com/ridwan/tweetaudit/output/CSVWriter.java:46-48 | writing rows fails exactly when some result cannot be rendered |
| CsvWriter.WriteResults | src/main/java/com/ridwan/tweetaudit/output/CSVWriter.java:29-52 | the file starts with the exact header line, and writing succeeds exactly when every kept result renders |
| CsvWriter.CleanResultsIgnored | src/test/java/com/ridwan/tweetaudit/output/CSVWriterTest.java:106-123 | a clean result changes nothing in the report; a report of clean results alone is the header line |
| CsvWriter.AppendResults | src/main/java/com/ridwan/tweetaudit/output/CSVWriter.java:54-81 | nothing happens when no result is kept; the header is written only when it was not written and there is no file; the kept rows are appended after the existing content |
| CsvWriter.AppendAllMatchesWriteResults | src/main/java/com/ridwan/tweetaudit/output/CSVWriter.java:29-81 | appending batch after batch to a fresh file gives the same file as writing all results at once |
| CsvWriter.AppendAllInvariant | src/main/java/com/ridwan/tweetaudit/output/CSVWriter.java:54-81 | once the header is out, every append adds exactly the rows of its kept results |
| CsvWriter.UndoubleDoubleQuotes | src/main/java/com/ridwan/tweetaudit/output/CSVWriter.java:115 | undoubling the quotes of a value with doubled quotes gives back the value |
| CsvWriter.EscapeRoundTrip | src/main/java/com/ridwan/tweetaudit/output/CSVWriter.java:110-118 | a CSV reader's unquoting gives back exactly the escaped value |
| CsvWriter.RowRoundTrip | src/main/java/com/ridwan/tweetaudit/output/CSVWriter.java:83-118 | for an id without commas or quotes, a CSV reader splits a row back into five fields that unquote to exactly its cells |
| CsvWriter.DoubleQuotesPaired | src/main/java/com/ridwan/tweetaudit/output/CSVWriter.java:115 | after doubling, every quote in the value stands in a pair |
| CsvWriter.EscapeGivesRfcField | src/main/java/com/ridwan/tweetaudit/output/CSVWriter.java:110-118 | a value without a carriage return escapes to a field that follows the grammar of section 2 of RFC 4180 |
| CsvWriter.BareCarriageReturnLeftUnquoted | src/main/java/com/ridwan/tweetaudit/output/CSVWriter.java:114 | a value holding a bare carriage return is not quoted and so is not an RFC 4180 field |
| CsvWriter.QuotedValueExample | src/test/java/com/ridwan/tweetaudit/output/CSVWriterTest.java:85-104 | a value with a comma and a quote is wrapped in quotes with the inner quote doubled |
| CsvWriter.DoubleQuotesSplit | src/main/java/com/ridwan/tweetaudit/output/CSVWriter.java:115 | doubling quotes distributes over concatenation |
| ArchiveParser.StripJavaScriptWrapper | src/main/java/com/ridwan/tweetaudit/parser/ArchiveParser.java:52-64 | null or empty content fails as empty; content without `[` fails as array-not-found; otherwise the result is the suffix from the first `[`, and the dropped prefix holds no `[` |
| ArchiveParser.StripIdempotent | src/main/java/com/ridwan/tweetaudit/parser/ArchiveParser.java:59-63 | stripping an already stripped text returns it unchanged |
| ArchiveParser.StripDropsAssignment | src/main/java/com/ridwan/tweetaudit/parser/ArchiveParser.java:59-63 | any prefix without `[` before a JSON array is dropped, leaving exactly the array |
| ArchiveParser.CountRetweets | src/main/java/com/ridwan/tweetaudit/parser/ArchiveParser.java:79-88 | the retweets among present posts and the kept originals together number at most the wrappers, and the count is zero exactly when no present post is a retweet |
| ArchiveParser.RemovedAreRetweets | src/main/java/com/ridwan/tweetaudit/parser/ArchiveParser.java:85-88 | when every wrapper holds a post, the logged number of removed posts, wrappers minus kept posts, is exactly the number of retweets |
| ArchiveParser.ExtractAndFilter | src/main/java/com/ridwan/tweetaudit/parser/ArchiveParser.java:71-91 | extraction fails exactly when some wrapper has no post; otherwise the result is the original posts in archive order, none of them a retweet |
| ArchiveParser.OriginalsMembers | src/main/java/com/ridwan/tweetaudit/parser/ArchiveParser.java:71-91 | a post is extracted exactly when it is wrapped in the archive and is not a retweet |
| ArchiveParser.OriginalsAppend | src/main/java/com/ridwan/tweetaudit/parser/ArchiveParser.java:71-91 | filtering distributes over concatenation |
| ArchiveParser.ParseTweets | src/main/java/com/ridwan/tweetaudit/parser/ArchiveParser.java:31-45 | the steps run as read, strip, decode, filter: a read failure, a strip failure and a decode failure each pass on their own error; when all steps succeed the result is the original posts of the decoded array, and a wrapper without a post fails the parse |
| ArchiveParser.OneRetweetDropped | src/test/java/com/ridwan/tweetaudit/parser/ArchiveParserTest.java:57-68 | from one original post and one retweet, only the original is kept |
| ConfigValidator.ValidateApiKey | src/main/java/com/ridwan/tweetaudit/validation/ConfigValidator.java:31-51 | a null or blank key is not set; otherwise a key shorter than 30 UTF-16 code units (`length()`) is too short and reports that length; any other key passes |
| ConfigValidator.ValidateArchivePath | src/main/java/com/ridwan/tweetaudit/validation/ConfigValidator.java:53-93 | the checks run as blank, then missing, then unreadable, then empty or unreadable content, which is reported as a read failure; a name not ending in `.js` only warns |
| ConfigValidator.ValidateOutputPath | src/main/java/com/ridwan/tweetaudit/validation/ConfigValidator.java:95-111 | a blank path fails; an existing parent that is not writable fails; a missing parent passes |
| ConfigValidator.ValidateAlignmentCriteria | src/main/java/com/ridwan/tweetaudit/validation/ConfigValidator.java:113-136 | a null or empty forbidden-word list fails first, then an unset context, then an unset desired tone; the criteria pass exactly when the list is non-empty and context and tone are set |
| ConfigValidator.ValidateBatchSize | src/main/java/com/ridwan/tweetaudit/validation/ConfigValidator.java:138-155 | a size of zero or less fails; a size over 100 only warns |
| ConfigValidator.ValidateConfiguration | src/main/java/com/ridwan/tweetaudit/validation/ConfigValidator.java:17-29 | a failing API key is the reported error, whatever else is wrong |
| ConfigValidator.UnsetIffNoVisibleChar | src/main/java/com/ridwan/tweetaudit/validation/ConfigValidator.java:32 | a value is unset exactly when it is null or holds no character above the space |
| ConfigValidator.ValidationPassesIffAcceptable | src/main/java/com/ridwan/tweetaudit/validation/ConfigValidator.java:17-155 | validation passes exactly when every rule holds, the key length counted in UTF-16 code units, and the warnings are those of the archive and then the batch size |
| ConfigValidator.FirstFailureReported | src/main/java/com/ridwan/tweetaudit/validation/ConfigValidator.java:17-29 | the checks run as key, archive, output, criteria, batch size, and the first failure is the one reported |
| ConfigValidator.ApiKeyBoundaries | src/main/java/com/ridwan/tweetaudit/validation/ConfigValidator.java:31-51 | a blank key of any length is not set, a key of 29 code units is too short, and one of 30 passes |
| ConfigValidator.SupplementaryKeyCountsDouble | src/main/java/com/ridwan/tweetaudit/validation/ConfigValidator.java:39-45 | fifteen characters outside the Basic Multilingual Plane make a key of 30 code units, which passes |
| ConfigValidator.SupplementaryLength | src/main/java/com/ridwan/tweetaudit/validation/ConfigValidator.java:39 | a string of supplementary characters has twice as many code units as characters |
| TweetAuditService.ErrorResult | src/main/java/com/ridwan/tweetaudit/service/TweetAuditService.java:114-125 | a post whose evaluation threw gets a result not flagged for deletion, with an empty reason and "Evaluation failed: " before the message, reported as an ERROR row |
| TweetAuditService.StartProgress | src/main/java/com/ridwan/tweetaudit/service/TweetAuditService.java:61-75 | a run resumes the processed ids and counts from the checkpoint, or starts from nothing, and always starts with no results |
| TweetAuditService.Remaining | src/main/java/com/ridwan/tweetaudit/service/TweetAuditService.java:77-79 | no remaining post has a processed id |
| TweetAuditService.RemainingMembers | src/main/java/com/ridwan/tweetaudit/service/TweetAuditService.java:77-79 | a post remains exactly when it is in the archive and its id was not processed |
| TweetAuditService.RemainingAppend | src/main/java/com/ridwan/tweetaudit/service/TweetAuditService.java:77-79 | skipping distributes over concatenation, so archive order is kept |
| TweetAuditService.CeilDivIsCeiling | src/main/java/com/ridwan/tweetaudit/service/TweetAuditService.java:91 | the batch count is the least k with n ≤ k·size |
| TweetAuditService.BatchCountMatchesJava | src/main/java/com/ridwan/tweetaudit/service/TweetAuditService.java:91 | for a positive size, `(int) Math.ceil((double) n / size)` is the least k with n ≤ k·size, and is positive for a non-empty list |
| TweetAuditService.TotalBatches | src/main/java/com/ridwan/tweetaudit/service/TweetAuditService.java:91 | `(int) Math.ceil((double) n / batchSize)`: zero for no posts, the ceiling for a positive size, `Integer.MAX_VALUE` for size zero, and zero or less for a negative size |
| TweetAuditService.Batches | src/main/java/com/ridwan/tweetaudit/service/TweetAuditService.java:91-101 | there are ⌈n / size⌉ batches, each holding 1 to size posts |
| TweetAuditService.Plan | src/main/java/com/ridwan/tweetaudit/service/TweetAuditService.java:91-101 | the batches the loop visits: ⌈n / size⌉ batches of 1 to size posts for a positive size, one empty batch for size zero (its lookup throws), and none for a negative size |
| TweetAuditService.BatchesFlatten | src/main/java/com/ridwan/tweetaudit/service/TweetAuditService.java:98-101 | the batches, joined in order, are exactly the remaining posts: none dropped, repeated or reordered |
| TweetAuditService.BatchesAreSlices | src/main/java/com/ridwan/tweetaudit/service/TweetAuditService.java:98-101 | batch k is the slice from k·size to the lesser of k·size + size and the end |
| TweetAuditService.Record | src/main/java/com/ridwan/tweetaudit/service/TweetAuditService.java:105-127 | every attempted post adds one result and its id; a returned result raises the flagged count exactly when it asks for deletion; a thrown one raises only the error count |
| TweetAuditService.EvalAll | src/main/java/com/ridwan/tweetaudit/service/TweetAuditService.java:105-127 | a pass keeps earlier results, adds one result per post, and stops short exactly at the quota shutdown |
| TweetAuditService.EvalAllAppend | src/main/java/com/ridwan/tweetaudit/service/TweetAuditService.java:98-127 | evaluating two lists one after the other is evaluating their concatenation |
| TweetAuditService.EvalAllAccounting | src/main/java/com/ridwan/tweetaudit/service/TweetAuditService.java:105-127 | after a pass every post's id is processed, and the flagged and error counts rose by exactly the flagged and failed results it added |
| TweetAuditService.EvalAllProcessed | src/main/java/com/ridwan/tweetaudit/service/TweetAuditService.java:109-124 | a finished pass marks exactly the ids of its posts |
| TweetAuditService.BuildCheckpoint | src/main/java/com/ridwan/tweetaudit/service/TweetAuditService.java:129-137 | the checkpoint holds the batch's last id, every processed id with their count, the archive size and the current counts |
| TweetAuditService.RunBatches | src/main/java/com/ridwan/tweetaudit/service/TweetAuditService.java:98-145 | a loop over b batches that runs to the end has 2b - 1 effects |
| TweetAuditService.LoopStoreIsReplay | src/main/java/com/ridwan/tweetaudit/service/TweetAuditService.java:129-139 | during the loop the store holds what the checkpoint saves left in it, and nothing is deleted |
| TweetAuditService.LoopIsOnePass | src/main/java/com/ridwan/tweetaudit/service/TweetAuditService.java:98-145 | batching is transparent: a loop that ran to its end or hit the quota left everything as one pass over all its posts would |
| TweetAuditService.SavesAndPauses | src/main/java/com/ridwan/tweetaudit/service/TweetAuditService.java:139-144 | a loop over b batches saves b checkpoints, pauses b - 1 times, and ends with a save rather than a pause |
| TweetAuditService.SavedCheckpointsWellFormed | src/main/java/com/ridwan/tweetaudit/service/TweetAuditService.java:129-139 | every saved checkpoint is stamped, counts exactly its ids, names the archive size, and keeps every id processed before |
| TweetAuditService.SavedCheckpointsCoverWholeBatches | src/main/java/com/ridwan/tweetaudit/service/TweetAuditService.java:105-139 | every saved checkpoint marks the starting ids plus the posts of a whole number of batches from the start, never part of a batch |
| TweetAuditService.Run | src/main/java/com/ridwan/tweetaudit/service/TweetAuditService.java:54-160 | an archive failure or an unreadable checkpoint aborts the run with no effect; a report is written exactly when the run completes or fails only at deleting the checkpoint; a completed run leaves no checkpoint, and a failed delete leaves it in place |
| TweetAuditService.RunStoreIsReplay | src/main/java/com/ridwan/tweetaudit/service/TweetAuditService.java:139-150 | a run's store is what its effects left, and only a completed run deletes the checkpoint |
| TweetAuditService.AlreadyDoneIffAllProcessed | src/main/java/com/ridwan/tweetaudit/service/TweetAuditService.java:81-84 | a run returns early exactly when the checkpoint covers every post, and then writes, saves and deletes nothing |
| TweetAuditService.CompletedRunIsOnePass | src/main/java/com/ridwan/tweetaudit/service/TweetAuditService.java:98-150 | a completed run evaluated every remaining post once, in order, and its report is built from exactly those results |
| TweetAuditService.CompletedRunSavesPerBatch | src/main/java/com/ridwan/tweetaudit/service/TweetAuditService.java:129-150 | a completed run saved as many checkpoints as the Java batch count and paused one time fewer; its last two effects are writing the report and deleting the checkpoint |
| TweetAuditService.QuotaShutdownStopsEarly | src/main/java/com/ridwan/tweetaudit/service/TweetAuditService.java:105-139 | a quota shutdown stops before the last remaining post, writes no report, deletes nothing, and leaves the last saved checkpoint in place |
| TweetAuditService.ZeroBatchSizeCrashes | src/main/java/com/ridwan/tweetaudit/service/TweetAuditService.java:91-131 | with a batch size of zero the Java count is `Integer.MAX_VALUE` and the first batch is empty; looking up its last post throws before anything is evaluated or saved |
| TweetAuditService.NegativeBatchSizeWritesHeaderOnly | src/main/java/com/ridwan/tweetaudit/service/TweetAuditService.java:91-150 | a negative batch size gives no batches, so nothing is evaluated, a header-only report is written and the checkpoint is deleted |
| TweetAuditService.Start | src/main/java/com/ridwan/tweetaudit/service/TweetAuditService.java:61-75 | a readable store starts the run from its checkpoint's ids, or from none |
| TweetAuditService.UnfailingPass | src/main/java/com/ridwan/tweetaudit/service/TweetAuditService.java:105-127 | an evaluator that never shuts down is never cut short, and all its results render |
| TweetAuditService.UnfailingLoopRunsToEnd | src/main/java/com/ridwan/tweetaudit/service/TweetAuditService.java:98-145 | with such an evaluator and writable checkpoints, the loop reaches its end |
| TweetAuditService.RenderableReportWrites | src/main/java/com/ridwan/tweetaudit/output/CSVWriter.java:29-52 | when every result carries an error or a criteria list, writing the report cannot fail |
| TweetAuditService.UnfailingRunCompletes | src/test/java/com/ridwan/tweetaudit/service/TweetAuditServiceTest.java:131-145 | when evaluations never shut down and every write succeeds, the run completes even if every evaluation throws |
| TweetAuditService.RunKeeps | src/main/java/com/ridwan/tweetaudit/service/TweetAuditService.java:105-127 | an invariant of the evaluator's own state that each step keeps still holds when the run ends, however it ends |
| AuditPipeline.AsEvaluation | src/main/java/com/ridwan/tweetaudit/service/TweetAuditService.java:106-126 | the service halts exactly on the quota shutdown and records a result exactly when the client returned one |
| AuditPipeline.Evaluate | src/main/java/com/ridwan/tweetaudit/client/GeminiClient.java:190-222 | each evaluation is one more call; it keeps the threshold; a returned result carries the post's id, criteria and no error |
| AuditPipeline.GeminiResultsAreClean | src/main/java/com/ridwan/tweetaudit/client/GeminiClient.java:156-181 | every result the Gemini client returns carries no error and renders in the report |
| AuditPipeline.RunStaysWithinQuota | src/main/java/com/ridwan/tweetaudit/ratelimit/DailyQuotaTracker.java:169-224 | however a run ends and whatever the API answers, the day's count never passes the safety threshold and the governor keeps its bounds |
| AuditPipeline.CleanCall | src/main/java/com/ridwan/tweetaudit/client/GeminiClient.java:190-209 | a clean answer below the threshold gives its verdict and raises the count by one |
| AuditPipeline.ExhaustedCall | src/main/java/com/ridwan/tweetaudit/client/GeminiClient.java:192-193 | a call once the count has reached the threshold shuts the process down |
| AuditPipeline.ThirdPostShutsDown | src/main/java/com/ridwan/tweetaudit/client/GeminiClient.java:190-209 | from a fresh session with a threshold of two, two clean calls succeed and the third ends the process |
| AuditPipeline.ShutdownInsideFirstBatchSavesNothing | src/main/java/com/ridwan/tweetaudit/service/TweetAuditService.java:105-139 | with a threshold of two and one batch of three posts, the third post shuts the process down before any checkpoint is saved, after two evaluations |

## Behaviour worth knowing

- **Quota shutdown inside a batch.** `checkQuota` ends the process from inside `evaluateTweet`, and the loop saves checkpoints only after a whole batch (TweetAuditService.java:129-139). The evaluations of an unfinished batch are therefore lost. `AuditPipeline.ShutdownInsideFirstBatchSavesNothing` exhibits this, and `TweetAuditService.SavedCheckpointsCoverWholeBatches` states it in general.
- **Unreachable quota handler.** `checkQuota` declares `QuotaExceededException` but never throws it; it exits the process instead (DailyQuotaTracker.java:169-224). The "Daily quota exceeded: " handler in `evaluateTweet` (GeminiClient.java:211-213) therefore never runs, and the model has no such outcome.
- **Unreadable checkpoint.** `CheckpointManager.loadCheckpoint` rethrows a decoding failure (CheckpointManager.java:52), so the run fails (`Crashed(CheckpointUnreadable)`). An unreadable quota file, by contrast, falls back to a fresh ledger.
- **Failed checkpoint delete.** `deleteCheckpoint` can throw after the report is written (TweetAuditService.java:148-150). The run then fails with the report on disk and the last checkpoint still in place (`Crashed(CheckpointDeleteFailed)`).
- **Batch size.** The service does not check the batch size. A size of zero crashes the run. A negative size completes it with an empty report. Only `ConfigValidator` rejects such sizes, and the model keeps that check separate.
- **Error field.** `TweetEvaluationResult` has no error-message field in the class text, but `CSVWriter` and `TweetAuditService` use one. The model adds `errorMessage: Option<string>`. It takes the service's error results to carry an empty, non-null criteria list, as built through the normalising constructor.
- **Resumed report.** A resumed run restores the processed ids and the flagged and error counts from the checkpoint, but its result list starts empty (TweetAuditService.java:63-75; `TweetAuditService.StartProgress`). The report of a resumed run therefore omits the posts flagged before the interruption, while the counts it logs include them.
- **Midnight during a call.** `incrementRequestCount` reads the date again when it logs the remaining quota (DailyQuotaTracker.java:217, 231-233). If the day changed after the save, the tracker rolls over once more and the request just made is counted on neither day (`DailyQuotaTracker.MidnightAfterIncrementForgetsIt`).
- **Carriage returns in CSV.** `escapeCsv` quotes only values that contain a comma, a quote or a line feed. A bare carriage return is written unquoted, which section 2 of RFC 4180 does not allow (`CsvWriter.BareCarriageReturnLeftUnquoted`).

## Left out

- Sleeps. `waitBeforeNextCall` and the 60 s pause are returned as durations and effects; no time passes.
- Process exit. `System.exit` and `SpringApplication.exit` in `checkQuota`/`performShutdown` become the `Exhausted` verdict, the `ShutDown` call outcome and the `QuotaShutdown` status.
- The Pacific-time date, `getQuotaResetTime` and `logQuotaStatus`. They are clock, time-zone and floating-point logging; today's date is an input string.
- The 90 % usage warning in `checkQuota`. It is logging only.
- `ProgressTracker`. It keeps wall-clock instants and floating-point rates for logging only.
- The prompt text, the JSON schema, `buildRequest` and the WebClient wiring. The HTTP exchange is an `HttpOutcome` value, and the response body is an already-decoded `Response`.
- Jackson. JSON decoding of the archive is a function parameter of `ParseTweets`, and checkpoint and quota files are abstract slots.
- File contents of the report. A report that fails part-way is modelled as not written (`None`); the partial file a Java writer may leave behind is not modelled.
- Exception messages. The model uses error variants (`ParseError`, `ConfigError`, `Crash`) rather than the exact message strings. The exceptions are `GeminiClient`'s two failure messages, "Failed to evaluate tweet: " and "Rate limiter interrupted: ", each followed by the id.
- The restored interrupt flag. After an interrupted wait `evaluateTweet` sets the thread's interrupt flag again, so later sleeps, including the 60 s pause between batches, would throw at once. The model takes each call's interruption from its `CallEnv`, so a world can interrupt every later call, but the pause between batches is never interrupted.
- End-to-end retrying. Only the declared `@Retryable` policy is modelled (`GeminiClient.DecideRetry`), and `AuditPipeline.Evaluate` makes one call per post. The program likely makes up to three attempts on a 429 or 503, since the retry policy looks through the `RuntimeException` that `evaluateTweet` wraps around the cause. Each extra attempt re-runs the quota check and the governor's wait, and feeds the governor again; the model leaves those extra attempts and limiter updates out.
- 32-bit overflow. Counters, `batchNum * batchSize` and the quota count are unbounded integers. Overflow needs more than two billion posts or requests.
- The platform line separator. `newLine()` is modelled as `"\n"`.
- Failed checkpoint writes. A failed save is assumed to leave the previous record in place, and the run stops with `Crashed(CheckpointWriteFailed)`.
- The stale tests. The one-argument `DailyQuotaTracker` constructor in its tests and the ten-argument `TweetAuditService` constructor in its tests do not match the main code. Properties are taken from the main code.
- CsvWriter.RowRoundTrip: covers ids without commas or quotes only, because the id column is written unescaped.
- ConfigValidator.ValidateConfiguration: its own contract states only the first check. The full ordering and the pass condition are the lemmas `FirstFailureReported` and `ValidationPassesIffAcceptable`.
- CsvWriter.EscapeGivesRfcField: excludes values with a carriage return; see `BareCarriageReturnLeftUnquoted`.

=== FILE: archive.dfy ===
/**
 * `ArchiveParser`: turns the archive export (a JavaScript assignment around a JSON array)
 * into the list of original posts, reposts dropped.
 */
module ArchiveParser {
  import opened Wrappers
  import opened Model
  import JavaString

  /** One element of the archive array: `{"tweet": {...}}`, where the post may be missing. */
  datatype TweetWrapper = TweetWrapper(tweet: Option<Tweet>)

  /**
   * Why parsing stops: the I/O failure's message, an empty archive, no JSON array, the decoder's
   * message, or a wrapper without a post (the source's `NullPointerException`).
   */
  datatype ParseError =
    | ReadFailed(cause: string)
    | EmptyArchive
    | ArrayNotFound
    | JsonInvalid(cause: string)
    | MissingTweet

  /**
   * `stripJavaScriptWrapper`: drops everything before the first '['. Absent or empty content
   * and content without any '[' are rejected.
   */
  function StripJavaScriptWrapper(content: Option<string>): (r: Result<string, ParseError>)
    ensures content.None? || content.value == [] ==> r == Err(EmptyArchive)
    ensures content.Some? && content.value != [] && '[' !in content.value ==> r == Err(ArrayNotFound)
    ensures r.Ok? ==> content.Some? && |r.value| >= 1 && r.value[0] == '['
    ensures r.Ok? ==> var k := |content.value| - |r.value|;
                      0 <= k && content.value[k..] == r.value && '[' !in content.value[..k]
  {
    match content
    case None => Err(EmptyArchive)
    case Some(s) =>
      if s == [] then Err(EmptyArchive)
      else
        var start := JavaString.IndexOf(s, '[');
        if start == -1 then Err(ArrayNotFound) else Ok(s[start..])
  }

  /** Stripping an already stripped text changes nothing. */
  lemma StripIdempotent(content: Option<string>)
    requires StripJavaScriptWrapper(content).Ok?
    ensures StripJavaScriptWrapper(Some(StripJavaScriptWrapper(content).value)) == StripJavaScriptWrapper(content)
  {
    var s := StripJavaScriptWrapper(content).value;
    assert JavaString.IndexOf(s, '[') == 0;
  }

  /** The export's own shape: a variable assignment in front of the array is cut off. */
  lemma StripDropsAssignment(prefix: string, body: string)
    requires '[' !in prefix
    requires body != [] && body[0] == '['
    ensures StripJavaScriptWrapper(Some(prefix + body)) == Ok(body)
  {
    var s := prefix + body;
    assert s[|prefix|] == '[';
    var start := JavaString.IndexOf(s, '[');
    assert start == |prefix| by {
      assert s[..|prefix|] == prefix;
    }
    assert s[start..] == body;
  }

  /** The number of reposts among present posts: what the source logs as the reposts removed. */
  function CountRetweets(ws: seq<TweetWrapper>): (n: nat)
    ensures n + |Originals(ws)| <= |ws|
    ensures n == 0 <==> forall i :: 0 <= i < |ws| && ws[i].tweet.Some? ==> !IsRetweet(ws[i].tweet.value)
    decreases |ws|
  {
    if ws == [] then 0
    else (if ws[0].tweet.Some? && IsRetweet(ws[0].tweet.value) then 1 else 0) + CountRetweets(ws[1..])
  }

  /** The present posts that are not reposts, in archive order. */
  function Originals(ws: seq<TweetWrapper>): seq<Tweet> {
    if ws == [] then []
    else (if ws[0].tweet.Some? && !IsRetweet(ws[0].tweet.value) then [ws[0].tweet.value] else []) + Originals(ws[1..])
  }

  /**
   * `extractAndFilter`: the posts that are not reposts, in order. A wrapper without a post
   * fails, since the repost test is called on it.
   */
  function ExtractAndFilter(ws: seq<TweetWrapper>): (r: Result<seq<Tweet>, ParseError>)
    ensures r.Err? <==> exists i :: 0 <= i < |ws| && ws[i].tweet.None?
    ensures r.Err? ==> r.error == MissingTweet
    ensures r.Ok? ==> r.value == Originals(ws)
    ensures r.Ok? ==> |r.value| == |ws| - CountRetweets(ws)
    ensures r.Ok? ==> forall i :: 0 <= i < |r.value| ==> !IsRetweet(r.value[i])
    decreases |ws|
  {
    if ws == [] then Ok([])
    else if ws[0].tweet.None? then Err(MissingTweet)
    else
      match ExtractAndFilter(ws[1..])
      case Err(e) =>
        assert exists i :: 0 <= i < |ws| && ws[i].tweet.None? by {
          var j :| 0 <= j < |ws[1..]| && ws[1..][j].tweet.None?;
          assert ws[j + 1] == ws[1..][j];
        }
        Err(e)
      case Ok(rest) =>
        assert forall i :: 0 <= i < |ws| ==> ws[i].tweet.Some? by {
          forall i | 0 <= i < |ws| ensures ws[i].tweet.Some? {
            if i > 0 {
              assert ws[i] == ws[1..][i - 1];
            }
          }
        }
        var t := ws[0].tweet.value;
        Ok((if IsRetweet(t) then [] else [t]) + rest)
  }

  /**
   * When every wrapper holds a post, the number the source logs as removed, the wrappers minus
   * the kept posts, is exactly the number of reposts.
   */
  lemma {:induction false} RemovedAreRetweets(ws: seq<TweetWrapper>)
    requires forall i :: 0 <= i < |ws| ==> ws[i].tweet.Some?
    ensures |ws| - |Originals(ws)| == CountRetweets(ws)
    decreases |ws|
  {
    if ws != [] {
      assert forall i :: 0 <= i < |ws[1..]| ==> ws[1..][i].tweet.Some? by {
        forall i | 0 <= i < |ws[1..]| ensures ws[1..][i].tweet.Some? {
          assert ws[1..][i] == ws[i + 1];
        }
      }
      RemovedAreRetweets(ws[1..]);
    }
  }

  /** A post survives exactly when it is in the archive and is not a repost. */
  lemma {:induction false} OriginalsMembers(ws: seq<TweetWrapper>, t: Tweet)
    ensures t in Originals(ws) <==> TweetWrapper(Some(t)) in ws && !IsRetweet(t)
    decreases |ws|
  {
    if ws != [] {
      OriginalsMembers(ws[1..], t);
      assert ws == [ws[0]] + ws[1..];
    }
  }

  /** Extraction is compositional: the originals of two archives joined are joined originals. */
  lemma {:induction false} OriginalsAppend(a: seq<TweetWrapper>, b: seq<TweetWrapper>)
    ensures Originals(a + b) == Originals(a) + Originals(b)
    decreases |a|
  {
    if a == [] {
      assert a + b == b;
    } else {
      assert (a + b)[0] == a[0] && (a + b)[1..] == a[1..] + b;
      OriginalsAppend(a[1..], b);
    }
  }

  /**
   * `parseTweets`: read, strip the wrapper, decode the JSON array, then filter. The file read and
   * the JSON decoder are given: `read` is the content or the I/O failure, `decode` the decoder.
   */
  function ParseTweets(read: Result<string, string>, decode: string -> Result<seq<TweetWrapper>, string>)
    : (r: Result<seq<Tweet>, ParseError>)
    ensures read.Err? ==> r == Err(ReadFailed(read.error))
    ensures read.Ok? && read.value == [] ==> r == Err(EmptyArchive)
    ensures r.Ok? ==> read.Ok? && StripJavaScriptWrapper(Some(read.value)).Ok?
    ensures r.Ok? ==> decode(StripJavaScriptWrapper(Some(read.value)).value).Ok?
    ensures r.Ok? ==> r.value == Originals(decode(StripJavaScriptWrapper(Some(read.value)).value).value)
    ensures read.Ok? && StripJavaScriptWrapper(Some(read.value)).Err? ==> r == Err(StripJavaScriptWrapper(Some(read.value)).error)
    ensures read.Ok? && StripJavaScriptWrapper(Some(read.value)).Ok? ==>
              var decoded := decode(StripJavaScriptWrapper(Some(read.value)).value);
              && (decoded.Err? ==> r == Err(JsonInvalid(decoded.error)))
              && (decoded.Ok? && ExtractAndFilter(decoded.value).Ok? ==> r == Ok(Originals(decoded.value)))
              && (decoded.Ok? && ExtractAndFilter(decoded.value).Err? ==> r == Err(MissingTweet))
  {
    match read
    case Err(cause) => Err(ReadFailed(cause))
    case Ok(content) =>
      match StripJavaScriptWrapper(Some(content))
      case Err(e) => Err(e)
      case Ok(json) =>
        match decode(json)
        case Err(cause) => Err(JsonInvalid(cause))
        case Ok(ws) => ExtractAndFilter(ws)
  }

  /** The archive fixture with two posts, one of them a repost: only the original is kept. */
  lemma OneRetweetDropped(a: Tweet, b: Tweet)
    requires !IsRetweet(a) && IsRetweet(b)
    ensures ExtractAndFilter([TweetWrapper(Some(a)), TweetWrapper(Some(b))]) == Ok([a])
  {
    var ws := [TweetWrapper(Some(a)), TweetWrapper(Some(b))];
    assert ws[1..] == [TweetWrapper(Some(b))];
    assert ws[1..][1..] == [];
    assert ExtractAndFilter(ws[1..][1..]) == Ok([]);
    assert ExtractAndFilter(ws[1..]) == Ok([]);
    assert [a] + [] == [a];
  }
}

=== FILE: checkpoint.dfy ===
/**
 * `CheckpointManager`: a store holding at most one checkpoint record. Every save is a full
 * overwrite; the clock reading used to stamp it and whether the write succeeds are inputs.
 */
module CheckpointManager {
  import opened Wrappers
  import opened Model

  /** The record on disk: none, one that does not decode, or a decoded checkpoint. */
  datatype CheckpointFile = Absent | Corrupt | Present(checkpoint: ProcessingCheckpoint)

  /** What a failing store operation throws. */
  datatype StoreError = WriteFailed | ReadFailed | DeleteFailed

  /**
   * `saveCheckpoint`: stamp the checkpoint with `now`, then overwrite the record. A write
   * that fails throws to the caller (the previous record is assumed to stay in place).
   */
  function SaveCheckpoint(file: CheckpointFile, cp: ProcessingCheckpoint, now: int, writable: bool)
    : (r: Result<CheckpointFile, StoreError>)
    ensures writable ==> r == Ok(Present(cp.(timestamp := Some(now))))
    ensures !writable ==> r == Err(WriteFailed)
  {
    if writable then Ok(Present(cp.(timestamp := Some(now)))) else Err(WriteFailed)
  }

  /** `loadCheckpoint`: none when there is no record; an undecodable record is an error, not a fresh start. */
  function LoadCheckpoint(file: CheckpointFile): (r: Result<Option<ProcessingCheckpoint>, StoreError>)
    ensures r == Ok(None) <==> file.Absent?
    ensures r.Err? <==> file.Corrupt?
    ensures file.Present? ==> r == Ok(Some(file.checkpoint))
  {
    match file
    case Absent => Ok(None)
    case Corrupt => Err(ReadFailed)
    case Present(cp) => Ok(Some(cp))
  }

  /** `checkpointExists`: a record is on disk, decodable or not. */
  predicate CheckpointExists(file: CheckpointFile)
    ensures CheckpointExists(file) <==> file != Absent
  {
    !file.Absent?
  }

  /**
   * `deleteCheckpoint`: remove the record if there is one; on an absent record nothing happens.
   * Whether the filesystem lets the record be removed is an input; a refusal throws to the caller.
   */
  function DeleteCheckpoint(file: CheckpointFile, deletable: bool): (r: Result<CheckpointFile, StoreError>)
    ensures r.Err? <==> CheckpointExists(file) && !deletable
    ensures r.Err? ==> r.error == DeleteFailed
    ensures r.Ok? ==> !CheckpointExists(r.value) && LoadCheckpoint(r.value) == Ok(None)
  {
    if file.Absent? then Ok(Absent)
    else if deletable then Ok(Absent)
    else Err(DeleteFailed)
  }

  /** A saved checkpoint loads back exactly as saved, with the stamp it was given. */
  lemma SaveThenLoad(file: CheckpointFile, cp: ProcessingCheckpoint, now: int)
    ensures SaveCheckpoint(file, cp, now, true).Ok?
    ensures LoadCheckpoint(SaveCheckpoint(file, cp, now, true).value) == Ok(Some(cp.(timestamp := Some(now))))
    ensures CheckpointExists(SaveCheckpoint(file, cp, now, true).value)
  {
  }

  /** A save replaces whatever was there: the outcome does not depend on the previous record. */
  lemma SaveOverwrites(f1: CheckpointFile, f2: CheckpointFile, cp: ProcessingCheckpoint, now: int, writable: bool)
    ensures SaveCheckpoint(f1, cp, now, writable) == SaveCheckpoint(f2, cp, now, writable)
  {
  }

  /** Deleting twice is the same as deleting once: once the record is gone, a second delete cannot fail. */
  lemma DeleteIdempotent(file: CheckpointFile, again: bool)
    requires DeleteCheckpoint(file, true).Ok?
    ensures DeleteCheckpoint(DeleteCheckpoint(file, true).value, again) == DeleteCheckpoint(file, true)
  {
  }
}

=== FILE: config.dfy ===
/**
 * `ConfigValidator`: checks the settings before a run. What the filesystem says about the
 * archive file and the output directory is given as facts rather than looked up.
 */
module ConfigValidator {
  import opened Wrappers
  import opened Model
  import JavaString

  const MinApiKeyLength: int := 30
  const MaxBatchSize: int := 100

  /** What the filesystem reports about the archive path; `size` is absent when reading the size failed. */
  datatype ArchiveFacts = ArchiveFacts(present: bool, readable: bool, size: Option<int>)

  /** The output path's parent directory, if the path has one. */
  datatype OutputParent = NoParent | Parent(present: bool, writable: bool)

  /** The first rule a configuration breaks; each stands for one of the source's exception messages. */
  datatype ConfigError =
    | ApiKeyNotSet
    | ApiKeyTooShort(length: int)
    | ArchivePathNotConfigured
    | ArchiveNotFound(path: string)
    | ArchiveNotReadable(path: string)
    | ArchiveReadFailed(path: string)
    | OutputPathNotConfigured
    | OutputDirNotWritable
    | ForbiddenWordsEmpty
    | ContextNotSet
    | DesiredToneNotSet
    | BatchSizeNotPositive(batchSize: int)

  /** Something logged as a warning that does not stop the run. */
  datatype ConfigWarning = ArchiveNotJs(path: string) | BatchSizeLarge(batchSize: int)

  /** A value the source treats as missing: null or nothing but whitespace after `trim()`. */
  predicate Unset(v: Option<string>) {
    v.None? || JavaString.IsBlank(v.value)
  }

  /**
   * `validateApiKey`: the key must be set, then be at least 30 UTF-16 code units long (Java's
   * `length()`), whitespace included.
   */
  function ValidateApiKey(key: Option<string>): (r: Result<(), ConfigError>)
    ensures r == Err(ApiKeyNotSet) <==> Unset(key)
    ensures r.Err? && r.error.ApiKeyTooShort? <==> !Unset(key) && JavaString.Length(key.value) < MinApiKeyLength
    ensures r.Err? && r.error.ApiKeyTooShort? ==> r.error.length == JavaString.Length(key.value)
    ensures r.Ok? <==> !Unset(key) && JavaString.Length(key.value) >= MinApiKeyLength
  {
    if Unset(key) then Err(ApiKeyNotSet)
    else if JavaString.Length(key.value) < MinApiKeyLength then Err(ApiKeyTooShort(JavaString.Length(key.value)))
    else Ok(())
  }

  /**
   * `validateArchivePath`: configured, existing, readable, and of non-zero size. A missing ".js"
   * extension only warns. An empty file is reported as a read failure, because the source's
   * `catch (Exception)` wraps its own "empty" exception.
   */
  function ValidateArchivePath(path: Option<string>, fs: ArchiveFacts): (r: Result<seq<ConfigWarning>, ConfigError>)
    ensures Unset(path) <==> r == Err(ArchivePathNotConfigured)
    ensures !Unset(path) ==> (r == Err(ArchiveNotFound(path.value)) <==> !fs.present)
    ensures !Unset(path) && fs.present ==> (r == Err(ArchiveNotReadable(path.value)) <==> !fs.readable)
    ensures !Unset(path) && fs.present && fs.readable ==>
              (r == Err(ArchiveReadFailed(path.value)) <==> fs.size.None? || fs.size.value == 0)
    ensures r.Ok? ==> r.value == (if JavaString.EndsWith(path.value, ".js") then [] else [ArchiveNotJs(path.value)])
  {
    if Unset(path) then Err(ArchivePathNotConfigured)
    else
      var p := path.value;
      if !fs.present then Err(ArchiveNotFound(p))
      else if !fs.readable then Err(ArchiveNotReadable(p))
      else
        var warnings := if JavaString.EndsWith(p, ".js") then [] else [ArchiveNotJs(p)];
        if fs.size.None? || fs.size.value == 0 then Err(ArchiveReadFailed(p))
        else Ok(warnings)
  }

  /** `validateOutputPath`: configured; a parent directory that exists must be writable, a missing one is fine. */
  function ValidateOutputPath(path: Option<string>, parent: OutputParent): (r: Result<(), ConfigError>)
    ensures r == Err(OutputPathNotConfigured) <==> Unset(path)
    ensures r == Err(OutputDirNotWritable) <==> !Unset(path) && parent.Parent? && parent.present && !parent.writable
  {
    if Unset(path) then Err(OutputPathNotConfigured)
    else if parent.Parent? && parent.present && !parent.writable then Err(OutputDirNotWritable)
    else Ok(())
  }

  /** `validateAlignmentCriteria`: a non-empty forbidden-word list, then a context, then a tone. */
  function ValidateAlignmentCriteria(c: AlignmentCriteria): (r: Result<(), ConfigError>)
    ensures r == Err(ForbiddenWordsEmpty) <==> c.forbiddenWords.None? || c.forbiddenWords.value == []
    ensures c.forbiddenWords.Some? && c.forbiddenWords.value != [] && Unset(c.context) ==> r == Err(ContextNotSet)
    ensures c.forbiddenWords.Some? && c.forbiddenWords.value != [] && !Unset(c.context) && Unset(c.desiredTone)
            ==> r == Err(DesiredToneNotSet)
    ensures r.Ok? <==> c.forbiddenWords.Some? && c.forbiddenWords.value != [] && !Unset(c.context) && !Unset(c.desiredTone)
  {
    if c.forbiddenWords.None? || c.forbiddenWords.value == [] then Err(ForbiddenWordsEmpty)
    else if Unset(c.context) then Err(ContextNotSet)
    else if Unset(c.desiredTone) then Err(DesiredToneNotSet)
    else Ok(())
  }

  /** `validateBatchSize`: positive; above 100 it only warns. */
  function ValidateBatchSize(batchSize: int): (r: Result<seq<ConfigWarning>, ConfigError>)
    ensures r.Err? <==> batchSize <= 0
    ensures r.Ok? ==> (r.value == [BatchSizeLarge(batchSize)] <==> batchSize > MaxBatchSize)
    ensures r.Ok? ==> (r.value == [] <==> batchSize <= MaxBatchSize)
  {
    if batchSize <= 0 then Err(BatchSizeNotPositive(batchSize))
    else if batchSize > MaxBatchSize then Ok([BatchSizeLarge(batchSize)])
    else Ok([])
  }

  /** Everything `validateConfiguration` receives, with the filesystem facts it would look up. */
  datatype Settings = Settings(
    apiKey: Option<string>,
    archivePath: Option<string>,
    archive: ArchiveFacts,
    outputPath: Option<string>,
    outputParent: OutputParent,
    criteria: AlignmentCriteria,
    batchSize: int)

  /**
   * `validateConfiguration`: the five checks in order, stopping at the first failure; on
   * success, the warnings the checks logged.
   */
  function ValidateConfiguration(s: Settings): (r: Result<seq<ConfigWarning>, ConfigError>)
    ensures ValidateApiKey(s.apiKey).Err? ==> r == Err(ValidateApiKey(s.apiKey).error)
  {
    match ValidateApiKey(s.apiKey)
    case Err(e) => Err(e)
    case Ok(_) =>
      match ValidateArchivePath(s.archivePath, s.archive)
      case Err(e) => Err(e)
      case Ok(archiveWarnings) =>
        match ValidateOutputPath(s.outputPath, s.outputParent)
        case Err(e) => Err(e)
        case Ok(_) =>
          match ValidateAlignmentCriteria(s.criteria)
          case Err(e) => Err(e)
          case Ok(_) =>
            match ValidateBatchSize(s.batchSize)
            case Err(e) => Err(e)
            case Ok(batchWarnings) => Ok(archiveWarnings + batchWarnings)
  }

  /** A character-level description of a character that makes a value set. */
  predicate HasVisibleChar(v: string) {
    exists i :: 0 <= i < |v| && !JavaString.IsTrimmable(v[i])
  }

  /** Unset, stated without `trim()`: absent, or every character at most a space. */
  lemma UnsetIffNoVisibleChar(v: Option<string>)
    ensures Unset(v) <==> v.None? || !HasVisibleChar(v.value)
  {
    if v.Some? {
      JavaString.BlankIffAllTrimmable(v.value);
    }
  }

  /** The rules a configuration must meet, stated independently of the order they are checked in. */
  predicate Acceptable(s: Settings) {
    s.apiKey.Some? && HasVisibleChar(s.apiKey.value) && JavaString.Length(s.apiKey.value) >= MinApiKeyLength
    && s.archivePath.Some? && HasVisibleChar(s.archivePath.value)
    && s.archive.present && s.archive.readable && s.archive.size.Some? && s.archive.size.value != 0
    && s.outputPath.Some? && HasVisibleChar(s.outputPath.value)
    && !(s.outputParent.Parent? && s.outputParent.present && !s.outputParent.writable)
    && s.criteria.forbiddenWords.Some? && s.criteria.forbiddenWords.value != []
    && s.criteria.context.Some? && HasVisibleChar(s.criteria.context.value)
    && s.criteria.desiredTone.Some? && HasVisibleChar(s.criteria.desiredTone.value)
    && s.batchSize > 0
  }

  /** Validation passes exactly for acceptable settings, and then warns only about the extension and a large batch. */
  lemma ValidationPassesIffAcceptable(s: Settings)
    ensures ValidateConfiguration(s).Ok? <==> Acceptable(s)
    ensures ValidateConfiguration(s).Ok? ==>
              (ArchiveNotJs(s.archivePath.value) in ValidateConfiguration(s).value <==>
                 !JavaString.EndsWith(s.archivePath.value, ".js"))
              && (BatchSizeLarge(s.batchSize) in ValidateConfiguration(s).value <==> s.batchSize > MaxBatchSize)
  {
    ValidationOkIffEachOk(s);
    UnsetIffNoVisibleChar(s.apiKey);
    UnsetIffNoVisibleChar(s.archivePath);
    UnsetIffNoVisibleChar(s.outputPath);
    UnsetIffNoVisibleChar(s.criteria.context);
    UnsetIffNoVisibleChar(s.criteria.desiredTone);
  }

  /** Validation passes exactly when each of the five checks passes, and then collects their warnings in order. */
  lemma ValidationOkIffEachOk(s: Settings)
    ensures ValidateConfiguration(s).Ok? <==>
              ValidateApiKey(s.apiKey).Ok? && ValidateArchivePath(s.archivePath, s.archive).Ok?
              && ValidateOutputPath(s.outputPath, s.outputParent).Ok?
              && ValidateAlignmentCriteria(s.criteria).Ok? && ValidateBatchSize(s.batchSize).Ok?
    ensures ValidateConfiguration(s).Ok? ==>
              ValidateConfiguration(s).value
                == ValidateArchivePath(s.archivePath, s.archive).value + ValidateBatchSize(s.batchSize).value
  {
  }

  /** The first failing check is the one reported: a later check's failure surfaces only when every earlier one passed. */
  lemma FirstFailureReported(s: Settings)
    ensures ValidateApiKey(s.apiKey).Ok? && ValidateArchivePath(s.archivePath, s.archive).Err? ==>
              ValidateConfiguration(s) == Err(ValidateArchivePath(s.archivePath, s.archive).error)
    ensures ValidateApiKey(s.apiKey).Ok? && ValidateArchivePath(s.archivePath, s.archive).Ok?
              && ValidateOutputPath(s.outputPath, s.outputParent).Err? ==>
              ValidateConfiguration(s) == Err(ValidateOutputPath(s.outputPath, s.outputParent).error)
    ensures ValidateApiKey(s.apiKey).Ok? && ValidateArchivePath(s.archivePath, s.archive).Ok?
              && ValidateOutputPath(s.outputPath, s.outputParent).Ok?
              && ValidateAlignmentCriteria(s.criteria).Err? ==>
              ValidateConfiguration(s) == Err(ValidateAlignmentCriteria(s.criteria).error)
    ensures ValidateConfiguration(s) == Err(BatchSizeNotPositive(s.batchSize)) <==>
              ValidateApiKey(s.apiKey).Ok? && ValidateArchivePath(s.archivePath, s.archive).Ok?
              && ValidateOutputPath(s.outputPath, s.outputParent).Ok?
              && ValidateAlignmentCriteria(s.criteria).Ok? && s.batchSize <= 0
  {
  }

  /** A whitespace-only key is "not set" even when it is long; a key of 29 code units is too short, one of 30 passes. */
  lemma ApiKeyBoundaries(blank: string, short: string, ok: string)
    requires |blank| >= MinApiKeyLength && forall i :: 0 <= i < |blank| ==> blank[i] == ' '
    requires |short| > 0 && JavaString.Length(short) == MinApiKeyLength - 1 && short[0] == 'k'
    requires |ok| > 0 && JavaString.Length(ok) == MinApiKeyLength && ok[0] == 'k'
    ensures ValidateApiKey(Some(blank)) == Err(ApiKeyNotSet)
    ensures ValidateApiKey(Some(short)) == Err(ApiKeyTooShort(29))
    ensures ValidateApiKey(Some(ok)) == Ok(())
  {
    UnsetIffNoVisibleChar(Some(blank));
    UnsetIffNoVisibleChar(Some(short));
    UnsetIffNoVisibleChar(Some(ok));
    assert !JavaString.IsTrimmable(short[0]);
    assert !JavaString.IsTrimmable(ok[0]);
  }

  /**
   * Length is counted in UTF-16 code units: fifteen characters outside the Basic Multilingual
   * Plane make a 30-unit key, which passes although it holds only fifteen characters.
   */
  lemma SupplementaryKeyCountsDouble()
    ensures var key := seq(15, i => '\U{1F600}');
            |key| == 15 && JavaString.Length(key) == MinApiKeyLength && ValidateApiKey(Some(key)) == Ok(())
  {
    var key := seq(15, i => '\U{1F600}');
    assert forall i :: 0 <= i < |key| ==> JavaString.IsSupplementary(key[i]);
    SupplementaryLength(key);
    UnsetIffNoVisibleChar(Some(key));
    assert !JavaString.IsTrimmable(key[0]);
  }

  /** A string made only of supplementary characters is twice as long in code units. */
  lemma {:induction false} SupplementaryLength(s: string)
    requires forall i :: 0 <= i < |s| ==> JavaString.IsSupplementary(s[i])
    ensures JavaString.Length(s) == 2 * |s|
  {
    if s != [] {
      assert forall i :: 0 <= i < |s[1..]| ==> JavaString.IsSupplementary(s[1..][i]) by {
        forall i | 0 <= i < |s[1..]| ensures JavaString.IsSupplementary(s[1..][i]) {
          assert s[1..][i] == s[i + 1];
        }
      }
      SupplementaryLength(s[1..]);
    }
  }
}

=== FILE: csv.dfy ===
/**
 * `CSVWriter`: renders flagged and failed evaluations as comma-separated records, quoting
 * fields the way section 2 of RFC 4180 describes. A line ends with "\n".
 */
module CsvWriter {
  import opened Wrappers
  import opened Model
  import JavaString

  const Header: string := "tweetUrl,tweetId,status,matchedCriteria,reason"
  const UrlPrefix: string := "https://x.com/i/status/"
  const Newline: string := "\n"

  /** What rendering throws: a flagged result whose criteria list is null makes `String.join` fail. */
  datatype RenderError = NullCriteria

  /** A result is written when it is flagged for deletion or carries an error. */
  predicate Kept(r: EvaluationResult) {
    r.shouldDelete || r.errorMessage.Some?
  }

  /** The filter both writers apply: the kept results, in their original order. */
  function FlaggedOrError(rs: seq<EvaluationResult>): (out: seq<EvaluationResult>)
    ensures |out| <= |rs|
    ensures forall i :: 0 <= i < |out| ==> Kept(out[i])
  {
    if rs == [] then []
    else (if Kept(rs[0]) then [rs[0]] else []) + FlaggedOrError(rs[1..])
  }

  /** Exactly the kept results survive the filter. */
  lemma {:induction false} FlaggedOrErrorMembers(rs: seq<EvaluationResult>, r: EvaluationResult)
    ensures r in FlaggedOrError(rs) <==> r in rs && Kept(r)
  {
    if rs != [] {
      FlaggedOrErrorMembers(rs[1..], r);
      assert rs == [rs[0]] + rs[1..];
    }
  }

  /** Filtering commutes with concatenation, so the kept results keep their relative order. */
  lemma {:induction false} FlaggedOrErrorAppend(a: seq<EvaluationResult>, b: seq<EvaluationResult>)
    ensures FlaggedOrError(a + b) == FlaggedOrError(a) + FlaggedOrError(b)
  {
    if a == [] {
      assert a + b == b;
    } else {
      assert (a + b)[0] == a[0];
      assert (a + b)[1..] == a[1..] + b;
      FlaggedOrErrorAppend(a[1..], b);
      var head := if Kept(a[0]) then [a[0]] else [];
      calc {
        FlaggedOrError(a + b);
        head + FlaggedOrError(a[1..] + b);
        head + (FlaggedOrError(a[1..]) + FlaggedOrError(b));
        (head + FlaggedOrError(a[1..])) + FlaggedOrError(b);
        FlaggedOrError(a) + FlaggedOrError(b);
      }
    }
  }

  /** The status column: an error wins over a deletion verdict. */
  datatype RowStatus = Flagged | Error {
    function Text(): string {
      match this
      case Flagged => "FLAGGED"
      case Error => "ERROR"
    }
  }

  function Status(r: EvaluationResult): (s: RowStatus)
    ensures s == Error <==> r.errorMessage.Some?
  {
    if r.errorMessage.Some? then Error else Flagged
  }

  /** `tweetUrl`: the permalink of a post, or nothing for a missing id. */
  function TweetUrl(id: Option<string>): (u: string)
    ensures id.None? ==> u == ""
    ensures id.Some? ==> JavaString.StartsWith(u, UrlPrefix) && u[|UrlPrefix|..] == id.value
  {
    match id
    case None => ""
    case Some(s) => UrlPrefix + s
  }

  /** The id column, formatted with `%s`: a missing id prints as "null". */
  function IdCell(id: Option<string>): string {
    match id
    case None => "null"
    case Some(s) => s
  }

  /** A value that must be quoted because it holds a comma, a double quote or a line feed. */
  predicate NeedsQuoting(v: string) {
    ',' in v || '"' in v || '\n' in v
  }

  /** `escapeCsv`: null prints as nothing; a value needing quotes is quoted with its quotes doubled. */
  function EscapeCsv(v: Option<string>): (e: string)
    ensures v.None? ==> e == ""
    ensures v.Some? && !NeedsQuoting(v.value) ==> e == v.value
    ensures v.Some? && NeedsQuoting(v.value) ==> |e| >= |v.value| + 2 && e[0] == '"' && e[|e| - 1] == '"'
  {
    match v
    case None => ""
    case Some(s) =>
      if NeedsQuoting(s) then "\"" + JavaString.DoubleQuotes(s) + "\"" else s
  }

  /** The reason column's text: the error message for a failure, the verdict's reason otherwise. */
  function ReasonText(r: EvaluationResult): string {
    if r.errorMessage.Some? then r.errorMessage.value else r.reason.GetOr("")
  }

  /** The criteria column's text: empty for a failure, the criteria joined with "|" otherwise. */
  function CriteriaText(r: EvaluationResult): string
    requires r.errorMessage.Some? || r.matchedCriteria.Some?
  {
    if r.errorMessage.Some? then "" else JavaString.Join("|", r.matchedCriteria.value)
  }

  /** The five values a record stands for, before any quoting. */
  function Cells(r: EvaluationResult): (cells: seq<string>)
    requires r.errorMessage.Some? || r.matchedCriteria.Some?
    ensures |cells| == 5
    ensures cells[2] == "ERROR" <==> r.errorMessage.Some?
    ensures r.errorMessage.Some? ==> cells[3] == "" && cells[4] == r.errorMessage.value
    ensures r.errorMessage.None? ==> cells[4] == r.reason.GetOr("")
  {
    [TweetUrl(r.tweetId), IdCell(r.tweetId), Status(r).Text(), CriteriaText(r), ReasonText(r)]
  }

  /** `writeRow`, without its line end: url and id as they are, status, then the two escaped text columns. */
  function Row(r: EvaluationResult): (row: Result<string, RenderError>)
    ensures row.Err? <==> r.errorMessage.None? && r.matchedCriteria.None?
  {
    if r.errorMessage.None? && r.matchedCriteria.None? then Err(NullCriteria)
    else
      var reason := if r.errorMessage.Some? then r.errorMessage else r.reason;
      Ok(TweetUrl(r.tweetId) + "," + IdCell(r.tweetId) + "," + Status(r).Text() + ","
         + EscapeCsv(Some(CriteriaText(r))) + "," + EscapeCsv(reason))
  }

  /**
   * Every given result rendered as a record followed by a line end. With `RowsAppend`, the rows
   * of a list are its results' records in order; one unrenderable result fails them all.
   */
  function Rows(rs: seq<EvaluationResult>): (r: Result<string, RenderError>)
    ensures r.Ok? <==> forall i :: 0 <= i < |rs| ==> Row(rs[i]).Ok?
    ensures rs == [] ==> r == Ok("")
    ensures |rs| == 1 && r.Ok? ==> r.value == Row(rs[0]).value + Newline
  {
    if rs == [] then Ok("")
    else
      match Row(rs[0])
      case Err(e) => Err(e)
      case Ok(first) =>
        match Rows(rs[1..])
        case Err(e) => Err(e)
        case Ok(rest) => Ok(first + Newline + rest)
  }

  /** Rendering a concatenation renders each part and concatenates them. */
  lemma {:induction false} RowsAppend(a: seq<EvaluationResult>, b: seq<EvaluationResult>)
    requires Rows(a + b).Ok?
    ensures Rows(a).Ok? && Rows(b).Ok?
    ensures Rows(a + b).value == Rows(a).value + Rows(b).value
  {
    if a == [] {
      assert a + b == b;
    } else {
      assert (a + b)[1..] == a[1..] + b;
      assert (a + b)[0] == a[0];
      RowsAppend(a[1..], b);
    }
  }

  /** Rendering fails exactly when some result has neither an error nor a criteria list. */
  lemma {:induction false} RowsFailIffUnrenderable(rs: seq<EvaluationResult>)
    ensures Rows(rs).Err? <==> exists i :: 0 <= i < |rs| && rs[i].errorMessage.None? && rs[i].matchedCriteria.None?
  {
    if rs != [] {
      RowsFailIffUnrenderable(rs[1..]);
      if Row(rs[0]).Ok? {
        forall i | 0 <= i < |rs| && rs[i].errorMessage.None? && rs[i].matchedCriteria.None?
          ensures exists j :: 0 <= j < |rs[1..]| && rs[1..][j].errorMessage.None? && rs[1..][j].matchedCriteria.None?
        {
          assert rs[1..][i - 1] == rs[i];
        }
        if Rows(rs[1..]).Err? {
          var j :| 0 <= j < |rs[1..]| && rs[1..][j].errorMessage.None? && rs[1..][j].matchedCriteria.None?;
          assert rs[j + 1] == rs[1..][j];
        }
      }
    }
  }

  /** `writeResults`: the header line, then one record per kept result, in order. */
  function WriteResults(rs: seq<EvaluationResult>): (out: Result<string, RenderError>)
    ensures out.Ok? ==> JavaString.StartsWith(out.value, Header + Newline)
    ensures out.Ok? <==> Rows(FlaggedOrError(rs)).Ok?
  {
    match Rows(FlaggedOrError(rs))
    case Err(e) => Err(e)
    case Ok(body) => Ok(Header + Newline + body)
  }

  /** Clean results never influence the output: only flagged and failed ones are written. */
  lemma CleanResultsIgnored(rs: seq<EvaluationResult>, clean: EvaluationResult)
    requires !Kept(clean)
    ensures WriteResults(rs + [clean]) == WriteResults(rs)
    ensures WriteResults([clean]) == Ok(Header + Newline)
  {
    assert [clean][1..] == [];
    assert FlaggedOrError([clean]) == [];
    FlaggedOrErrorAppend(rs, [clean]);
    assert FlaggedOrError(rs + [clean]) == FlaggedOrError(rs) + [] == FlaggedOrError(rs);
    assert Rows([]) == Ok("");
    assert Header + Newline + "" == Header + Newline;
  }

  /** The output file `appendResults` works on: whether this writer wrote a header, and the file's text if it exists. */
  datatype OutputFile = OutputFile(headerWritten: bool, content: Option<string>)

  /**
   * `appendResults`: nothing at all when no result is kept; otherwise a header first if this
   * writer has not written one and the file does not exist, then the records appended.
   */
  function AppendResults(f: OutputFile, rs: seq<EvaluationResult>): (r: Result<OutputFile, RenderError>)
    ensures FlaggedOrError(rs) == [] ==> r == Ok(f)
    ensures FlaggedOrError(rs) != [] ==> (r.Ok? <==> Rows(FlaggedOrError(rs)).Ok?)
    ensures r.Ok? && FlaggedOrError(rs) != [] ==> r.value.content.Some?
    ensures r.Ok? && FlaggedOrError(rs) != [] && (f.headerWritten || f.content.Some?) ==>
              r.value.headerWritten == f.headerWritten &&
              r.value.content == Some(f.content.GetOr("") + Rows(FlaggedOrError(rs)).value)
    ensures r.Ok? && FlaggedOrError(rs) != [] && !f.headerWritten && f.content.None? ==>
              r.value == OutputFile(true, Some(Header + Newline + Rows(FlaggedOrError(rs)).value))
  {
    var kept := FlaggedOrError(rs);
    if kept == [] then Ok(f)
    else
      var withHeader := if !f.headerWritten && f.content.None? then OutputFile(true, Some(Header + Newline)) else f;
      match Rows(kept)
      case Err(e) => Err(e)
      case Ok(body) => Ok(withHeader.(content := Some(withHeader.content.GetOr("") + body)))
  }

  /** Appending batch after batch to a fresh file; a batch that fails to render stops the sequence. */
  function AppendAll(f: OutputFile, batches: seq<seq<EvaluationResult>>): Result<OutputFile, RenderError>
    decreases |batches|
  {
    if batches == [] then Ok(f)
    else
      match AppendResults(f, batches[0])
      case Err(e) => Err(e)
      case Ok(f') => AppendAll(f', batches[1..])
  }

  function Concat(batches: seq<seq<EvaluationResult>>): seq<EvaluationResult> {
    if batches == [] then [] else batches[0] + Concat(batches[1..])
  }

  /**
   * Appending the batches one by one to an absent file yields exactly what `writeResults`
   * writes for all of them at once, as soon as at least one result is kept.
   */
  lemma AppendAllMatchesWriteResults(batches: seq<seq<EvaluationResult>>)
    requires FlaggedOrError(Concat(batches)) != []
    requires WriteResults(Concat(batches)).Ok?
    ensures AppendAll(OutputFile(false, None), batches).Ok?
    ensures AppendAll(OutputFile(false, None), batches).value.content == Some(WriteResults(Concat(batches)).value)
  {
    assert [] + FlaggedOrError(Concat(batches)) == FlaggedOrError(Concat(batches));
    AppendAllInvariant(OutputFile(false, None), [], batches);
  }

  /** The file once the records of `kept` have been appended to an absent file. */
  predicate Holds(f: OutputFile, kept: seq<EvaluationResult>)
    requires Rows(kept).Ok?
  {
    if kept == [] then f == OutputFile(false, None)
    else f == OutputFile(true, Some(Header + Newline + Rows(kept).value))
  }

  /** One append moves the file from holding `kept` to holding `kept` and the kept part of `b`. */
  lemma AppendStep(f: OutputFile, kept: seq<EvaluationResult>, b: seq<EvaluationResult>)
    requires Rows(kept + FlaggedOrError(b)).Ok?
    requires Rows(kept).Ok? && Holds(f, kept)
    ensures AppendResults(f, b).Ok?
    ensures Holds(AppendResults(f, b).value, kept + FlaggedOrError(b))
  {
    var kb := FlaggedOrError(b);
    if kb == [] {
      assert kept + kb == kept;
    } else if kept == [] {
      assert kept + kb == kb;
    } else {
      RowsAppend(kept, kb);
      AppendToStarted(Header + Newline, Rows(kept).value, Rows(kb).value, Rows(kept + kb).value);
    }
  }

  lemma AppendToStarted(h: string, x: string, y: string, z: string)
    requires z == x + y
    ensures h + x + y == h + z
  {
  }

  /** The kept results of all batches are those of the first batch, then those of the rest. */
  lemma KeptOfFirstBatch(kept: seq<EvaluationResult>, batches: seq<seq<EvaluationResult>>)
    requires batches != []
    ensures kept + FlaggedOrError(Concat(batches))
            == (kept + FlaggedOrError(batches[0])) + FlaggedOrError(Concat(batches[1..]))
  {
    assert Concat(batches) == batches[0] + Concat(batches[1..]);
    FlaggedOrErrorAppend(batches[0], Concat(batches[1..]));
  }

  lemma {:induction false} AppendAllInvariant(f: OutputFile, kept: seq<EvaluationResult>, batches: seq<seq<EvaluationResult>>)
    requires Rows(kept + FlaggedOrError(Concat(batches))).Ok?
    requires Rows(kept).Ok? && Holds(f, kept)
    requires kept + FlaggedOrError(Concat(batches)) != []
    ensures AppendAll(f, batches).Ok?
    ensures AppendAll(f, batches).value.content
            == Some(Header + Newline + Rows(kept + FlaggedOrError(Concat(batches))).value)
    decreases |batches|
  {
    if batches == [] {
      assert kept + FlaggedOrError(Concat(batches)) == kept;
    } else {
      var b, rest := batches[0], batches[1..];
      var kept' := kept + FlaggedOrError(b);
      KeptOfFirstBatch(kept, batches);
      RowsAppend(kept', FlaggedOrError(Concat(rest)));
      AppendStep(f, kept, b);
      var f' := AppendResults(f, b).value;
      assert AppendAll(f, batches) == AppendAll(f', rest);
      AppendAllInvariant(f', kept', rest);
    }
  }

  // Reading a record back: the partner of the rendering above.

  /** Undoes `DoubleQuotes`: every doubled quote becomes one. */
  function Undouble(s: string): string {
    if s == [] then []
    else if |s| >= 2 && s[0] == '"' && s[1] == '"' then "\"" + Undouble(s[2..])
    else [s[0]] + Undouble(s[1..])
  }

  lemma {:induction false} UndoubleDoubleQuotes(v: string)
    ensures Undouble(JavaString.DoubleQuotes(v)) == v
  {
    if v != [] {
      var rest := JavaString.DoubleQuotes(v[1..]);
      UndoubleDoubleQuotes(v[1..]);
      if v[0] == '"' {
        assert JavaString.DoubleQuotes(v) == "\"\"" + rest;
        assert (JavaString.DoubleQuotes(v))[2..] == rest;
      } else {
        assert JavaString.DoubleQuotes(v) == [v[0]] + rest;
        assert (JavaString.DoubleQuotes(v))[1..] == rest;
      }
      assert v == [v[0]] + v[1..];
    }
  }

  /** A field's value: the inside of a quoted field with its quotes undoubled, any other field as it is. */
  function Unescape(f: string): string {
    if |f| >= 2 && f[0] == '"' && f[|f| - 1] == '"' then Undouble(f[1..|f| - 1]) else f
  }

  /** Escaping then unescaping gives back every value. */
  lemma EscapeRoundTrip(v: string)
    ensures Unescape(EscapeCsv(Some(v))) == v
  {
    if NeedsQuoting(v) {
      var e := EscapeCsv(Some(v));
      assert e[1..|e| - 1] == JavaString.DoubleQuotes(v);
      UndoubleDoubleQuotes(v);
    } else if |v| >= 2 {
      assert v[0] != '"';
    }
  }

  /**
   * Splits a record at the commas that lie outside quotes, keeping each field as written;
   * `cur` is the field read so far and `quoted` whether an opening quote is still open.
   */
  function SplitFrom(s: string, cur: string, quoted: bool): (fields: seq<string>)
    ensures |fields| >= 1
    decreases |s|
  {
    if s == [] then [cur]
    else if s[0] == ',' && !quoted then [cur] + SplitFrom(s[1..], "", false)
    else SplitFrom(s[1..], cur + [s[0]], if s[0] == '"' then !quoted else quoted)
  }

  function SplitRecord(s: string): seq<string> {
    SplitFrom(s, "", false)
  }

  /** A field with neither comma nor quote is read through as it stands. */
  lemma {:induction false} SplitPlain(x: string, t: string, cur: string)
    requires ',' !in x && '"' !in x
    ensures SplitFrom(x + t, cur, false) == SplitFrom(t, cur + x, false)
    decreases |x|
  {
    if x == [] {
      assert x + t == t && cur + x == cur;
    } else {
      assert x[0] in x;
      assert (x + t)[0] == x[0] && (x + t)[1..] == x[1..] + t;
      assert SplitFrom(x + t, cur, false) == SplitFrom(x[1..] + t, cur + [x[0]], false);
      assert ',' !in x[1..] && '"' !in x[1..] by {
        forall c | c in x[1..] ensures c in x { }
      }
      SplitPlain(x[1..], t, cur + [x[0]]);
      assert cur + [x[0]] + x[1..] == cur + x;
    }
  }

  /** Inside quotes, one character other than a quote is read into the field. */
  lemma SplitQuotedChar(c: char, t: string, cur: string)
    requires c != '"'
    ensures SplitFrom([c] + t, cur, true) == SplitFrom(t, cur + [c], true)
  {
    assert ([c] + t)[1..] == t;
  }

  /** Inside quotes, a doubled quote is read into the field and the field stays quoted. */
  lemma SplitQuotedPair(t: string, cur: string)
    ensures SplitFrom(['"', '"'] + t, cur, true) == SplitFrom(t, cur + ['"', '"'], true)
  {
    assert (['"', '"'] + t)[1..] == ['"'] + t;
    assert (['"'] + t)[1..] == t;
    assert cur + ['"'] + ['"'] == cur + ['"', '"'];
  }

  /** Inside quotes, a doubled-quote text is read through whole, commas included. */
  lemma {:induction false} SplitDoubled(v: string, t: string, cur: string)
    ensures SplitFrom(JavaString.DoubleQuotes(v) + t, cur, true) == SplitFrom(t, cur + JavaString.DoubleQuotes(v), true)
    decreases |v|
  {
    var d := JavaString.DoubleQuotes(v);
    if v == [] {
      assert d + t == t && cur + d == cur;
    } else {
      var rest := JavaString.DoubleQuotes(v[1..]);
      var piece := if v[0] == '"' then ['"', '"'] else [v[0]];
      assert d == piece + rest;
      assert d + t == piece + (rest + t);
      if v[0] == '"' {
        SplitQuotedPair(rest + t, cur);
      } else {
        SplitQuotedChar(v[0], rest + t, cur);
      }
      SplitDoubled(v[1..], t, cur + piece);
      assert cur + piece + rest == cur + d;
    }
  }

  /** Every escaped value is read through as one field, whatever it holds. */
  lemma SplitEscaped(v: string, t: string, cur: string)
    ensures SplitFrom(EscapeCsv(Some(v)) + t, cur, false) == SplitFrom(t, cur + EscapeCsv(Some(v)), false)
  {
    var e := EscapeCsv(Some(v));
    if NeedsQuoting(v) {
      var d := JavaString.DoubleQuotes(v);
      assert e + t == ['"'] + (d + (['"'] + t));
      assert (['"'] + (d + (['"'] + t)))[1..] == d + (['"'] + t);
      SplitDoubled(v, ['"'] + t, cur + ['"']);
      assert (['"'] + t)[1..] == t;
      assert cur + ['"'] + d + ['"'] == cur + e;
    } else {
      SplitPlain(v, t, cur);
    }
  }

  lemma SplitComma(t: string, cur: string)
    ensures SplitFrom([','] + t, cur, false) == [cur] + SplitFrom(t, "", false)
  {
    assert ([','] + t)[1..] == t;
  }

  lemma UrlPrefixPlain()
    ensures ',' !in UrlPrefix && '"' !in UrlPrefix
  {
  }

  /** The text of an id: no comma and no quote, so the unescaped url and id columns stay one field each. */
  predicate PlainId(id: Option<string>) {
    id.Some? ==> ',' !in id.value && '"' !in id.value
  }

  /** A plain field and its comma are read as that field, and reading starts afresh after them. */
  lemma SplitPlainField(x: string, t: string)
    requires ',' !in x && '"' !in x
    ensures SplitFrom(x + ([','] + t), "", false) == [x] + SplitFrom(t, "", false)
  {
    SplitPlain(x, [','] + t, "");
    assert "" + x == x;
    SplitComma(t, x);
  }

  /** Five fields joined by commas, regrouped from the right. */
  lemma JoinFive(a: string, b: string, c: string, d: string, e: string)
    ensures a + "," + b + "," + c + "," + d + "," + e
            == a + ([','] + (b + ([','] + (c + ([','] + (d + ([','] + e)))))))
  {
  }

  /** Three plain fields followed by two fields that each read through whole split back into those five. */
  lemma SplitFive(u: string, id: string, st: string, e1: string, e2: string)
    requires ',' !in u && '"' !in u && ',' !in id && '"' !in id && ',' !in st && '"' !in st
    requires SplitFrom(e1 + ([','] + e2), "", false) == SplitFrom([','] + e2, e1, false)
    requires SplitFrom(e2, "", false) == [e2]
    ensures SplitRecord(u + "," + id + "," + st + "," + e1 + "," + e2) == [u, id, st, e1, e2]
  {
    var t3 := e1 + ([','] + e2);
    var t2 := st + ([','] + t3);
    var t1 := id + ([','] + t2);
    JoinFive(u, id, st, e1, e2);
    SplitPlainField(u, t1);
    SplitPlainField(id, t2);
    SplitPlainField(st, t3);
    SplitComma(e2, e1);
    assert SplitFrom(t3, "", false) == [e1, e2];
  }

  /** An escaped value followed by more fields, or by nothing, is read as one field. */
  lemma SplitEscapedPair(c: string, why: string)
    ensures SplitFrom(EscapeCsv(Some(c)) + ([','] + EscapeCsv(Some(why))), "", false)
            == SplitFrom([','] + EscapeCsv(Some(why)), EscapeCsv(Some(c)), false)
    ensures SplitFrom(EscapeCsv(Some(why)), "", false) == [EscapeCsv(Some(why))]
  {
    SplitEscaped(c, [','] + EscapeCsv(Some(why)), "");
    assert "" + EscapeCsv(Some(c)) == EscapeCsv(Some(c));
    assert EscapeCsv(Some(why)) + [] == EscapeCsv(Some(why));
    SplitEscaped(why, [], "");
    assert "" + EscapeCsv(Some(why)) == EscapeCsv(Some(why));
  }

  /** A value with no quote is its own unescaping. */
  lemma UnescapePlain(x: string)
    requires '"' !in x
    ensures Unescape(x) == x
  {
    if |x| >= 2 {
      assert x[0] in x;
    }
  }

  /**
   * A rendered record splits back into its five fields, and unescaping them gives the values
   * the record stands for: the url, the id, the status, the criteria and the reason.
   */
  lemma RowRoundTrip(r: EvaluationResult)
    requires Row(r).Ok?
    requires PlainId(r.tweetId)
    ensures var fields := SplitRecord(Row(r).value);
            |fields| == 5 &&
            forall i :: 0 <= i < 5 ==> Unescape(fields[i]) == Cells(r)[i]
  {
    RowSplitsIntoFields(r);
    var u, id, st := TweetUrl(r.tweetId), IdCell(r.tweetId), Status(r).Text();
    EscapeRoundTrip(CriteriaText(r));
    EscapeRoundTrip(ReasonText(r));
    UnescapePlain(u);
    UnescapePlain(id);
    UnescapePlain(st);
  }

  /** A rendered record splits into the url, id and status as they are, then the two escaped texts. */
  lemma RowSplitsIntoFields(r: EvaluationResult)
    requires Row(r).Ok?
    requires PlainId(r.tweetId)
    ensures ',' !in TweetUrl(r.tweetId) && '"' !in TweetUrl(r.tweetId)
    ensures ',' !in IdCell(r.tweetId) && '"' !in IdCell(r.tweetId)
    ensures '"' !in Status(r).Text()
    ensures SplitRecord(Row(r).value)
            == [TweetUrl(r.tweetId), IdCell(r.tweetId), Status(r).Text(),
                EscapeCsv(Some(CriteriaText(r))), EscapeCsv(Some(ReasonText(r)))]
  {
    var u, id, st := TweetUrl(r.tweetId), IdCell(r.tweetId), Status(r).Text();
    UrlPrefixPlain();
    assert ',' !in u && '"' !in u by {
      if r.tweetId.Some? {
        assert u == UrlPrefix + r.tweetId.value;
      }
    }
    assert ',' !in st && '"' !in st;
    assert Row(r).value == u + "," + id + "," + st + "," + EscapeCsv(Some(CriteriaText(r))) + "," + EscapeCsv(Some(ReasonText(r)));
    SplitEscapedPair(CriteriaText(r), ReasonText(r));
    SplitFive(u, id, st, EscapeCsv(Some(CriteriaText(r))), EscapeCsv(Some(ReasonText(r))));
  }

  // The field shapes of section 2 of RFC 4180.

  /** A text in which every double quote is one half of a doubled pair. */
  predicate Paired(d: string)
    decreases |d|
  {
    if d == [] then true
    else if d[0] == '"' then |d| >= 2 && d[1] == '"' && Paired(d[2..])
    else Paired(d[1..])
  }

  /**
   * A field as section 2 of RFC 4180 allows it, with TEXTDATA widened to any character: bare text
   * without comma, quote, CR or LF, or quoted with inner quotes doubled.
   */
  predicate RfcField(f: string) {
    (',' !in f && '"' !in f && '\r' !in f && '\n' !in f)
    || (|f| >= 2 && f[0] == '"' && f[|f| - 1] == '"' && Paired(f[1..|f| - 1]))
  }

  lemma {:induction false} DoubleQuotesPaired(v: string)
    ensures Paired(JavaString.DoubleQuotes(v))
  {
    if v != [] {
      var rest := JavaString.DoubleQuotes(v[1..]);
      DoubleQuotesPaired(v[1..]);
      if v[0] == '"' {
        assert JavaString.DoubleQuotes(v) == "\"\"" + rest;
        assert (JavaString.DoubleQuotes(v))[2..] == rest;
      } else {
        assert JavaString.DoubleQuotes(v) == [v[0]] + rest;
        assert (JavaString.DoubleQuotes(v))[1..] == rest;
      }
    }
  }

  /** Every escaped value without a carriage return is a well-formed field. */
  lemma EscapeGivesRfcField(v: string)
    requires '\r' !in v
    ensures RfcField(EscapeCsv(Some(v)))
  {
    if NeedsQuoting(v) {
      var e := EscapeCsv(Some(v));
      assert e[1..|e| - 1] == JavaString.DoubleQuotes(v);
      DoubleQuotesPaired(v);
    }
  }

  /**
   * The quoting test looks for a line feed but not for a carriage return, so a value holding
   * a bare carriage return is written unquoted, which section 2 of RFC 4180 does not allow.
   */
  lemma BareCarriageReturnLeftUnquoted()
    ensures EscapeCsv(Some("a\rb")) == "a\rb"
    ensures !RfcField(EscapeCsv(Some("a\rb")))
  {
    var v := "a\rb";
    assert v[1] == '\r';
    assert !NeedsQuoting(v) by {
      assert v == ['a', '\r', 'b'];
    }
    assert v[0] != '"';
  }

  // Worked records.

  /** A value with a quote and a comma is quoted, its quote doubled. */
  lemma QuotedValueExample()
    ensures EscapeCsv(Some(['a', ',', '"', 'b'])) == ['"', 'a', ',', '"', '"', 'b', '"']
  {
    var v := ['a', ',', '"', 'b'];
    assert v[1] == ',';
    assert JavaString.DoubleQuotes(['b']) == ['b'] by {
      assert ['b'][1..] == [];
    }
    assert JavaString.DoubleQuotes(['"', 'b']) == ['"', '"', 'b'] by {
      assert ['"', 'b'][1..] == ['b'];
    }
    assert JavaString.DoubleQuotes([',', '"', 'b']) == [',', '"', '"', 'b'] by {
      assert [',', '"', 'b'][1..] == ['"', 'b'];
    }
    assert JavaString.DoubleQuotes(v) == ['a', ',', '"', '"', 'b'] by {
      assert v[1..] == [',', '"', 'b'];
    }
  }

  /** A value with none of comma, quote or line feed is written as it is. */
  lemma PlainValueExample()
    ensures EscapeCsv(Some(['o', 'k', ' ', '|'])) == ['o', 'k', ' ', '|']
  {
  }

  /** Doubling quotes distributes over concatenation. */
  lemma {:induction false} DoubleQuotesSplit(a: string, b: string)
    ensures JavaString.DoubleQuotes(a + b) == JavaString.DoubleQuotes(a) + JavaString.DoubleQuotes(b)
  {
    if a == [] {
      assert a + b == b;
    } else {
      assert (a + b)[0] == a[0] && (a + b)[1..] == a[1..] + b;
      DoubleQuotesSplit(a[1..], b);
    }
  }
}

=== FILE: gemini.dfy ===
/**
 * `GeminiClient`: one evaluation call. The HTTP exchange is an input outcome; the governor
 * and the quota ledger are threaded through explicitly; the prompt and schema are not modelled.
 */
module GeminiClient {
  import opened Wrappers
  import opened Model
  import L = AdaptiveRateLimiter
  import Q = DailyQuotaTracker

  /** The decoded verdict inside the provider's answer (`should_delete`, `reason`, `matched_criteria`). */
  datatype Payload = Payload(shouldDelete: bool, reason: Option<string>, matchedCriteria: seq<string>)

  /** The text of a part: JSON that decodes to a verdict, or text that does not. */
  datatype PartText = Decodes(payload: Payload) | Undecodable

  /** The response shape: candidates, each with content made of parts; any level may be null. */
  datatype Part = Part(text: Option<PartText>)
  datatype Content = Content(parts: Option<seq<Part>>)
  datatype Candidate = Candidate(content: Option<Content>)
  datatype Response = Response(candidates: Option<seq<Candidate>>)

  /**
   * How the HTTP exchange ended: an answer after `elapsedMs` (its body possibly empty), an error
   * status (`WebClientResponseException`), or a failure below HTTP (timeout, refused connection).
   */
  datatype HttpOutcome = Answered(elapsedMs: int, body: Option<Response>) | StatusError(status: int) | TransportFailure

  /** What `callGeminiApi` rethrows. */
  datatype CallError = HttpStatus(status: int) | Transport

  predicate IsServerError(status: int) {
    500 <= status <= 599
  }

  /**
   * The governor feedback one exchange produces: one latency report for an answer, a rate-limit
   * hit for 429, a server error for any other 5xx, and nothing otherwise.
   */
  function GovernorSignals(http: HttpOutcome): (signals: seq<L.Signal>)
    ensures |signals| <= 1
    ensures http.Answered? ==> signals == [L.Success(http.elapsedMs)]
    ensures http.StatusError? && http.status == 429 ==> signals == [L.RateLimitHit]
    ensures http.StatusError? && IsServerError(http.status) ==> signals == [L.ServerError]
    ensures signals == [] <==> http.TransportFailure? || (http.StatusError? && http.status != 429 && !IsServerError(http.status))
  {
    match http
    case Answered(elapsed, _) => [L.Success(elapsed)]
    case StatusError(status) =>
      if status == 429 then [L.RateLimitHit]
      else if IsServerError(status) then [L.ServerError]
      else []
    case TransportFailure => []
  }

  /**
   * `callGeminiApi`: feed the governor the exchange's signal, then hand back the body or
   * rethrow the error unchanged.
   */
  function CallGeminiApi(l: L.Limiter, http: HttpOutcome): (r: (L.Limiter, Result<Option<Response>, CallError>))
    ensures r.0 == L.ApplyAll(l, GovernorSignals(http))
    ensures r.1.Ok? <==> http.Answered?
    ensures http.Answered? ==> r.1 == Ok(http.body)
    ensures http.StatusError? ==> r.1 == Err(HttpStatus(http.status))
    ensures L.Valid(l) ==> L.Valid(r.0)
  {
    match http
    case Answered(elapsed, body) => (L.RecordSuccess(l, elapsed), Ok(body))
    case StatusError(status) =>
      if status == 429 then (L.RecordRateLimitHit(l), Err(HttpStatus(status)))
      else if IsServerError(status) then (L.RecordServerError(l), Err(HttpStatus(status)))
      else (l, Err(HttpStatus(status)))
    case TransportFailure => (l, Err(Transport))
  }

  /** Why `parseResponse` threw: a null it dereferenced, a missing list, or text that is not a verdict. */
  datatype ParseError = NullResponse | NoCandidates | NullContent | NoParts | TextNotDecodable

  /**
   * The verdict the first part of the first candidate decodes to, when every level down to it
   * is present and the text decodes; nothing otherwise.
   */
  function FirstPayload(resp: Option<Response>): Option<Payload> {
    if resp.None? || resp.value.candidates.None? || resp.value.candidates.value == [] then None
    else
      var content := resp.value.candidates.value[0].content;
      if content.None? || content.value.parts.None? || content.value.parts.value == [] then None
      else
        match content.value.parts.value[0].text
        case Some(Decodes(p)) => Some(p)
        case _ => None
  }

  /**
   * `parseResponse`: the first part of the first candidate must decode to a verdict; the result
   * carries the post's id and the verdict's fields.
   */
  function ParseResponse(resp: Option<Response>, tweetId: Option<string>): (r: Result<EvaluationResult, ParseError>)
    ensures resp.None? ==> r == Err(NullResponse)
    ensures resp.Some? && (resp.value.candidates.None? || resp.value.candidates.value == []) ==> r == Err(NoCandidates)
    ensures r.Ok? ==> r.value.tweetId == tweetId && r.value.errorMessage.None? && r.value.matchedCriteria.Some?
    ensures r.Ok? ==> resp.Some? && resp.value.candidates.Some? && |resp.value.candidates.value| > 0
    ensures r.Ok? <==> FirstPayload(resp).Some?
    ensures FirstPayload(resp).Some? ==>
              var p := FirstPayload(resp).value;
              r == Ok(EvaluationResult(tweetId, p.shouldDelete, p.reason, Some(p.matchedCriteria), None))
  {
    if resp.None? then Err(NullResponse)
    else if resp.value.candidates.None? || |resp.value.candidates.value| == 0 then Err(NoCandidates)
    else
      var candidate := resp.value.candidates.value[0];
      if candidate.content.None? then Err(NullContent)
      else if candidate.content.value.parts.None? || |candidate.content.value.parts.value| == 0 then Err(NoParts)
      else
        match candidate.content.value.parts.value[0].text
        case Some(Decodes(p)) => Ok(NewResult(tweetId, p.shouldDelete, p.reason, Some(p.matchedCriteria)))
        case _ => Err(TextNotDecodable)
  }

  /** The well-formed answer carrying one verdict: one candidate with one part. */
  function ResponseOf(p: Payload): Response {
    Response(Some([Candidate(Some(Content(Some([Part(Some(Decodes(p)))]))))]))
  }

  /** A well-formed answer parses back to exactly its verdict, attributed to the post. */
  lemma ParseRecoversPayload(p: Payload, tweetId: Option<string>)
    ensures ParseResponse(Some(ResponseOf(p)), tweetId)
            == Ok(EvaluationResult(tweetId, p.shouldDelete, p.reason, Some(p.matchedCriteria), None))
  {
  }

  /**
   * A first candidate without content, or whose content has no parts, is rejected whatever
   * candidates follow it.
   */
  lemma FirstCandidateDecides(content: Option<Content>, rest: seq<Candidate>, tweetId: Option<string>)
    requires content.None? || content.value.parts.None? || content.value.parts.value == []
    ensures ParseResponse(Some(Response(Some([Candidate(content)] + rest))), tweetId)
            == (if content.None? then Err(NullContent) else Err(NoParts))
  {
  }

  /** Candidates after the first never change the outcome. */
  lemma LaterCandidatesIgnored(first: Candidate, rest: seq<Candidate>, tweetId: Option<string>)
    ensures ParseResponse(Some(Response(Some([first] + rest))), tweetId)
            == ParseResponse(Some(Response(Some([first]))), tweetId)
  {
  }

  /** Parts after the first never change the outcome. */
  lemma LaterPartsIgnored(first: Part, rest: seq<Part>, tweetId: Option<string>)
    ensures ParseResponse(Some(Response(Some([Candidate(Some(Content(Some([first] + rest))))]))), tweetId)
            == ParseResponse(Some(Response(Some([Candidate(Some(Content(Some([first]))))]))), tweetId)
  {
  }

  /** The governor and the ledger the client owns. */
  datatype Client = Client(limiter: L.Limiter, quota: Q.Tracker)

  /**
   * What the world supplies to one call: the date at the quota check, the HTTP outcome, the date
   * at the increment and the date when the increment logs the remaining quota (a call can
   * straddle midnight), whether the quota store accepts writes, and whether the thread is
   * interrupted while it sleeps before the request.
   */
  datatype CallEnv = CallEnv(checkDate: string, http: HttpOutcome, countDate: string, logDate: string,
                             quotaWritable: bool, interrupted: bool)

  /** The observable steps of one call, in the order they happen. */
  datatype Step = QuotaChecked | Waited(ms: nat) | Requested | Parsed | Counted

  /** How `evaluateTweet` ends: a result, a thrown `RuntimeException`, or the quota shutdown. */
  datatype CallOutcome = Evaluated(result: EvaluationResult) | Failed(message: string) | ShutDown

  datatype Call = Call(client: Client, outcome: CallOutcome, steps: seq<Step>)

  const FailurePrefix: string := "Failed to evaluate tweet: "
  const InterruptedPrefix: string := "Rate limiter interrupted: "

  /** `Thread.sleep` throws `InterruptedException` only when the governor actually sleeps. */
  predicate WaitInterrupted(c: Client, env: CallEnv) {
    env.interrupted && L.WaitBeforeNextCall(c.limiter) > 0
  }

  /** Java string concatenation of a possibly null id. */
  function IdText(id: Option<string>): string {
    match id
    case Some(s) => s
    case None => "null"
  }

  /** The complete protocol of a call that succeeds. */
  function Protocol(waitMs: nat): seq<Step> {
    [QuotaChecked, Waited(waitMs), Requested, Parsed, Counted]
  }

  /**
   * `evaluateTweet`: check the quota, wait out the governor's delay, call, parse, and only then
   * count the request. An interrupted wait fails with its own message before any request;
   * every later failure surfaces as one fixed message.
   */
  function EvaluateTweet(c: Client, t: Tweet, env: CallEnv): (r: Call)
    ensures 1 <= |r.steps| <= 5
    ensures r.steps == Protocol(L.WaitBeforeNextCall(c.limiter))[..|r.steps|]
    ensures r.outcome.Evaluated? <==> Counted in r.steps
    ensures r.outcome.ShutDown? <==> Q.CheckQuota(c.quota, env.checkDate, env.quotaWritable).1 == Q.Exhausted
    ensures r.outcome.ShutDown? ==> r.steps == [QuotaChecked] && r.client.limiter == c.limiter
    ensures !r.outcome.ShutDown? && WaitInterrupted(c, env) ==>
              r.outcome == Failed(InterruptedPrefix + IdText(t.idStr)) && r.steps == [QuotaChecked]
              && r.client.limiter == c.limiter
    ensures !r.outcome.ShutDown? && !WaitInterrupted(c, env) ==> r.client.limiter == CallGeminiApi(c.limiter, env.http).0
    ensures r.outcome.Evaluated? ==>
              r.client.quota == Q.IncrementRequestCount(Q.CheckQuota(c.quota, env.checkDate, env.quotaWritable).0,
                                                        env.countDate, env.logDate, env.quotaWritable)
    ensures !r.outcome.Evaluated? ==> r.client.quota == Q.CheckQuota(c.quota, env.checkDate, env.quotaWritable).0
    ensures r.outcome.Failed? ==>
              r.outcome.message == (if WaitInterrupted(c, env) then InterruptedPrefix else FailurePrefix) + IdText(t.idStr)
    ensures r.outcome.Evaluated? ==>
              r.outcome.result.tweetId == t.idStr && r.outcome.result.errorMessage.None? &&
              r.outcome.result.matchedCriteria.Some?
    ensures !r.outcome.ShutDown? && !WaitInterrupted(c, env) ==>
              var answer := CallGeminiApi(c.limiter, env.http).1;
              (r.outcome.Evaluated? <==> answer.Ok? && ParseResponse(answer.value, t.idStr).Ok?)
    ensures r.outcome.Evaluated? ==>
              var answer := CallGeminiApi(c.limiter, env.http).1;
              answer.Ok? && r.outcome.result == ParseResponse(answer.value, t.idStr).value
  {
    var (quota, verdict) := Q.CheckQuota(c.quota, env.checkDate, env.quotaWritable);
    if verdict == Q.Exhausted then
      Call(c.(quota := quota), ShutDown, [QuotaChecked])
    else if WaitInterrupted(c, env) then
      Call(c.(quota := quota), Failed(InterruptedPrefix + IdText(t.idStr)), [QuotaChecked])
    else
      var waited := L.WaitBeforeNextCall(c.limiter);
      var (limiter, answer) := CallGeminiApi(c.limiter, env.http);
      var c' := Client(limiter, quota);
      var failed := Failed(FailurePrefix + IdText(t.idStr));
      if answer.Err? then
        Call(c', failed, [QuotaChecked, Waited(waited), Requested])
      else
        match ParseResponse(answer.value, t.idStr)
        case Err(_) => Call(c', failed, [QuotaChecked, Waited(waited), Requested])
        case Ok(result) =>
          var quota' := Q.IncrementRequestCount(quota, env.countDate, env.logDate, env.quotaWritable);
          Call(c'.(quota := quota'), Evaluated(result), Protocol(waited))
  }

  /**
   * With a valid governor the wait always sleeps, so an interrupt during it fails the call with
   * the interruption message: no request is sent, the governor is untouched, nothing is counted.
   */
  lemma InterruptedWaitFails(c: Client, t: Tweet, env: CallEnv)
    requires L.Valid(c.limiter) && env.interrupted
    requires Q.CheckQuota(c.quota, env.checkDate, env.quotaWritable).1 != Q.Exhausted
    ensures var r := EvaluateTweet(c, t, env);
            && r.outcome == Failed(InterruptedPrefix + IdText(t.idStr))
            && Requested !in r.steps && r.client.limiter == c.limiter
            && r.client.quota == Q.CheckQuota(c.quota, env.checkDate, env.quotaWritable).0
  {
  }

  /**
   * The ledger never passes the safety threshold because of a call: a count at or below the
   * threshold is still at or below it afterwards, even when the call straddles midnight.
   */
  lemma CallKeepsCountWithinThreshold(c: Client, t: Tweet, env: CallEnv)
    requires 0 <= c.quota.state.requestCount <= c.quota.safetyThreshold
    ensures 0 <= EvaluateTweet(c, t, env).client.quota.state.requestCount <= c.quota.safetyThreshold
    ensures EvaluateTweet(c, t, env).client.quota.safetyThreshold == c.quota.safetyThreshold
  {
  }

  const MaxAttempts: nat := 3
  const InitialBackoffMs: nat := 1000
  const BackoffMultiplier: nat := 2

  /** The exception classes the retry annotation names: 429 Too Many Requests and 503 Service Unavailable. */
  predicate RetryableStatus(status: int) {
    status == 429 || status == 503
  }

  datatype RetryDecision = RetryAfter(delayMs: nat) | GiveUp

  function Pow(base: nat, n: nat): nat {
    if n == 0 then 1 else base * Pow(base, n - 1)
  }

  /**
   * The declared retry policy after attempt number `attempt` (counting from 1) failed with `status`:
   * retry 429 and 503 while fewer than three attempts were made, after 1000·2^(attempt-1) ms.
   */
  function DecideRetry(status: int, attempt: nat): (d: RetryDecision)
    requires attempt >= 1
    ensures d.RetryAfter? <==> RetryableStatus(status) && attempt < 3
    ensures d.RetryAfter? ==> d.delayMs == 1000 * Pow(2, attempt - 1)
  {
    if RetryableStatus(status) && attempt < MaxAttempts then
      RetryAfter(InitialBackoffMs * Pow(BackoffMultiplier, attempt - 1))
    else
      GiveUp
  }

  /** The delays slept when successive attempts, from `attempt` on, fail with `failures`. */
  function Backoffs(failures: seq<int>, attempt: nat): seq<nat>
    requires attempt >= 1
    decreases |failures|
  {
    if failures == [] then []
    else
      match DecideRetry(failures[0], attempt)
      case GiveUp => []
      case RetryAfter(d) => [d] + Backoffs(failures[1..], attempt + 1)
  }

  /** Whatever the failures, at most two retries (three attempts) are made, the first after 1 s and the second after 2 s. */
  lemma {:induction false} BackoffsBounded(failures: seq<int>)
    ensures |Backoffs(failures, 1)| <= MaxAttempts - 1
    ensures forall k :: 0 <= k < |Backoffs(failures, 1)| ==> Backoffs(failures, 1)[k] == 1000 * Pow(2, k)
  {
    if failures != [] && RetryableStatus(failures[0]) {
      var rest := failures[1..];
      if rest != [] && RetryableStatus(rest[0]) {
        var rest2 := rest[1..];
        if rest2 != [] {
          assert DecideRetry(rest2[0], 3) == GiveUp;
        }
        assert Backoffs(rest2, 3) == [];
      }
    }
  }

  /** A persistently unavailable provider is retried twice, after 1 s and then 2 s. */
  lemma PersistentUnavailability()
    ensures Backoffs([503, 503, 503], 1) == [1000, 2000]
  {
    assert [503, 503, 503][1..] == [503, 503];
    assert [503, 503][1..] == [503];
  }

  /** A status outside 429 and 503 is never retried. */
  lemma NonRetryableGivesUp(status: int, rest: seq<int>, attempt: nat)
    requires attempt >= 1
    requires !RetryableStatus(status)
    ensures Backoffs([status] + rest, attempt) == []
  {
  }
}

=== FILE: javastring.dfy ===
/** The few `java.lang.String` operations the audit pipeline relies on, over `seq<char>`. */
module JavaString {

  /** Whether a character lies outside the Basic Multilingual Plane, where Java stores it as a surrogate pair. */
  predicate IsSupplementary(c: char) {
    c as int > 0xFFFF
  }

  /** `s.length()`: the number of UTF-16 code units, two for each supplementary character. */
  function Length(s: string): (n: nat)
    ensures |s| <= n <= 2 * |s|
    ensures n == |s| <==> forall i :: 0 <= i < |s| ==> !IsSupplementary(s[i])
  {
    if s == [] then 0
    else
      var rest := Length(s[1..]);
      assert (forall i :: 0 <= i < |s| ==> !IsSupplementary(s[i]))
             <==> !IsSupplementary(s[0]) && forall i :: 0 <= i < |s[1..]| ==> !IsSupplementary(s[1..][i]) by {
        if forall i :: 0 <= i < |s[1..]| ==> !IsSupplementary(s[1..][i]) {
          forall i | 1 <= i < |s| ensures !IsSupplementary(s[i]) {
            assert s[i] == s[1..][i - 1];
          }
        }
      }
      (if IsSupplementary(s[0]) then 2 else 1) + rest
  }

  /** `s.startsWith(prefix)`. */
  predicate StartsWith(s: string, prefix: string) {
    |prefix| <= |s| && s[..|prefix|] == prefix
  }

  /** `s.endsWith(suffix)`. */
  predicate EndsWith(s: string, suffix: string) {
    |suffix| <= |s| && s[|s| - |suffix|..] == suffix
  }

  /** `s.indexOf(c)`: the first position of `c`, or -1 when `c` does not occur. */
  function IndexOf(s: string, c: char): (r: int)
    ensures r == -1 <==> c !in s
    ensures r != -1 ==> 0 <= r < |s| && s[r] == c && c !in s[..r]
  {
    if |s| == 0 then -1
    else if s[0] == c then 0
    else
      var k := IndexOf(s[1..], c);
      if k == -1 then -1 else k + 1
  }

  /** The characters `String.trim()` removes: every code point up to and including the space. */
  predicate IsTrimmable(c: char) {
    c <= ' '
  }

  /** Number of leading characters `trim()` removes. */
  function LeadingTrimmable(s: string): (n: nat)
    ensures n <= |s|
    ensures forall i :: 0 <= i < n ==> IsTrimmable(s[i])
    ensures n < |s| ==> !IsTrimmable(s[n])
  {
    if |s| == 0 || !IsTrimmable(s[0]) then 0 else 1 + LeadingTrimmable(s[1..])
  }

  /** Length of `s` once `trim()` has removed its trailing characters. */
  function TrailingKept(s: string): (n: nat)
    ensures n <= |s|
    ensures forall i :: n <= i < |s| ==> IsTrimmable(s[i])
    ensures n > 0 ==> !IsTrimmable(s[n - 1])
  {
    if |s| == 0 || !IsTrimmable(s[|s| - 1]) then |s| else TrailingKept(s[..|s| - 1])
  }

  /** `s[i..j]` is `s` without a prefix and a suffix made only of characters `trim()` removes. */
  predicate TrimmableOutside(s: string, i: int, j: int) {
    0 <= i <= j <= |s|
    && (forall k :: 0 <= k < i ==> IsTrimmable(s[k]))
    && (forall k :: j <= k < |s| ==> IsTrimmable(s[k]))
  }

  /** `s.trim()`: `s` without its leading and trailing characters up to the space. */
  function Trim(s: string): (r: string)
    ensures |r| <= |s|
    ensures r == [] || (!IsTrimmable(r[0]) && !IsTrimmable(r[|r| - 1]))
    ensures exists i, j :: TrimmableOutside(s, i, j) && r == s[i..j]
  {
    var st := LeadingTrimmable(s);
    var rest := s[st..];
    var r := rest[..TrailingKept(rest)];
    assert r == s[st..st + |r|];
    assert forall k :: st + |r| <= k < |s| ==> IsTrimmable(s[k]) by {
      forall k | st + |r| <= k < |s| ensures IsTrimmable(s[k]) {
        assert s[k] == rest[k - st];
      }
    }
    assert TrimmableOutside(s, st, st + |r|);
    r
  }

  /** `s.trim().isEmpty()`. */
  predicate IsBlank(s: string) {
    Trim(s) == []
  }

  /** A string is blank exactly when every one of its characters is one `trim()` removes. */
  lemma BlankIffAllTrimmable(s: string)
    ensures IsBlank(s) <==> forall i :: 0 <= i < |s| ==> IsTrimmable(s[i])
  {
    var st := LeadingTrimmable(s);
    if st < |s| {
      var rest := s[st..];
      assert rest[0] == s[st];
      assert TrailingKept(rest) > 0;
    }
  }

  /** `s.contains(String.valueOf(c))`. */
  predicate Contains(s: string, c: char) {
    c in s
  }

  /** `s.replace("\"", "\"\"")`: every double quote doubled. */
  function DoubleQuotes(s: string): (r: string)
    ensures |r| >= |s|
    ensures forall c :: c in r <==> c in s
  {
    if s == [] then []
    else (if s[0] == '"' then "\"\"" else [s[0]]) + DoubleQuotes(s[1..])
  }

  /**
   * `String.join(sep, parts)`: nothing for no parts, a single part unchanged (no separator), and
   * otherwise the first part followed by the separator.
   */
  function Join(sep: string, parts: seq<string>): (r: string)
    ensures |parts| == 0 ==> r == ""
    ensures |parts| == 1 ==> r == parts[0]
    ensures |parts| >= 2 ==> parts[0] + sep <= r
    ensures |parts| >= 2 ==> |r| >= |parts[0]| + |sep| + |parts[1]|
  {
    if |parts| == 0 then ""
    else if |parts| == 1 then parts[0]
    else parts[0] + sep + Join(sep, parts[1..])
  }
}

=== FILE: model.dfy ===
/** The records the pipeline passes around: archive posts, evaluation results, criteria and checkpoints. */
module Model {
  import opened Wrappers
  import JavaString

  /**
   * A post from the archive export. Every field is optional because the JSON decoder
   * leaves a missing property as `null`; the count fields are kept as the text they are in the export.
   */
  datatype Tweet = Tweet(
    idStr: Option<string>,
    fullText: Option<string>,
    createdAt: Option<string>,
    favoriteCount: Option<string>,
    retweetCount: Option<string>)

  /** The case-sensitive marker of a repost. */
  const RetweetPrefix: string := "RT @"

  /** `Tweet.isRetweet`: the text is present and starts with the repost marker. */
  predicate IsRetweet(t: Tweet)
    ensures IsRetweet(t) <==>
      t.fullText.Some? && |t.fullText.value| >= 4 &&
      t.fullText.value[0] == 'R' && t.fullText.value[1] == 'T' &&
      t.fullText.value[2] == ' ' && t.fullText.value[3] == '@'
  {
    t.fullText.Some? && JavaString.StartsWith(t.fullText.value, RetweetPrefix)
  }

  /**
   * `TweetEvaluationResult`: the verdict on one post. `errorMessage` is present only for a
   * post whose evaluation failed; `matchedCriteria` is `None` only when it was never normalised.
   */
  datatype EvaluationResult = EvaluationResult(
    tweetId: Option<string>,
    shouldDelete: bool,
    reason: Option<string>,
    matchedCriteria: Option<seq<string>>,
    errorMessage: Option<string>)

  /** The null-to-empty normalisation shared by the four-argument constructor and the setter. */
  function NormaliseCriteria(criteria: Option<seq<string>>): (r: seq<string>)
    ensures criteria.Some? ==> r == criteria.value
    ensures criteria.None? ==> r == []
  {
    criteria.GetOr([])
  }

  /** The no-argument constructor: nothing set, but an empty (non-null) criteria list. */
  function DefaultResult(): (r: EvaluationResult)
    ensures r.matchedCriteria == Some([])
    ensures r.tweetId.None? && r.reason.None? && r.errorMessage.None? && !r.shouldDelete
  {
    EvaluationResult(None, false, None, Some([]), None)
  }

  /** The four-argument constructor; it never leaves the criteria list null. */
  function NewResult(tweetId: Option<string>, shouldDelete: bool, reason: Option<string>,
                     matchedCriteria: Option<seq<string>>): (r: EvaluationResult)
    ensures r.tweetId == tweetId && r.shouldDelete == shouldDelete && r.reason == reason
    ensures r.matchedCriteria.Some?
    ensures matchedCriteria.Some? ==> r.matchedCriteria == matchedCriteria
    ensures r.errorMessage.None?
  {
    EvaluationResult(tweetId, shouldDelete, reason, Some(NormaliseCriteria(matchedCriteria)), None)
  }

  /** `setMatchedCriteria`: replaces the list, mapping null to the empty list; nothing else changes. */
  function SetMatchedCriteria(r: EvaluationResult, criteria: Option<seq<string>>): (r': EvaluationResult)
    ensures r'.matchedCriteria.Some?
    ensures criteria.Some? ==> r'.matchedCriteria == criteria
    ensures r' == r.(matchedCriteria := r'.matchedCriteria)
  {
    r.(matchedCriteria := Some(NormaliseCriteria(criteria)))
  }

  /** `isValid`: both the reason and the criteria list are non-null. */
  predicate IsValid(r: EvaluationResult) {
    r.reason.Some? && r.matchedCriteria.Some?
  }

  /** Once a result went through the constructor or the setter, validity only asks for a reason. */
  lemma ValidityNeedsOnlyReason(id: Option<string>, del: bool, reason: Option<string>,
                                criteria: Option<seq<string>>, r: EvaluationResult)
    ensures IsValid(NewResult(id, del, reason, criteria)) <==> reason.Some?
    ensures IsValid(SetMatchedCriteria(r, criteria)) <==> r.reason.Some?
    ensures !IsValid(DefaultResult())
  {
  }

  /** `AlignmentCriteria`: the configured rules the evaluator judges posts against. */
  datatype AlignmentCriteria = AlignmentCriteria(
    forbiddenWords: Option<seq<string>>,
    checkProfessionalism: bool,
    context: Option<string>,
    desiredTone: Option<string>)

  /**
   * `ProcessingCheckpoint`: the resumable progress of a run. `timestamp` is an opaque instant,
   * absent until the checkpoint store stamps it.
   */
  datatype ProcessingCheckpoint = ProcessingCheckpoint(
    lastProcessedTweetId: Option<string>,
    processedTweetIds: set<Option<string>>,
    timestamp: Option<int>,
    totalProcessed: int,
    totalTweets: int,
    flaggedCount: int,
    errorCount: int)
}

=== FILE: pipeline.dfy ===
/**
 * The audit as the application wires it: the scheduler of `TweetAuditService` driving the
 * Gemini client, whose rate governor and daily quota ledger carry over from post to post.
 *
 * The world answers the n-th call with a `CallEnv` (dates, HTTP outcome, whether the quota
 * store accepts writes, whether the wait is interrupted); nothing else about the world is assumed.
 */
module AuditPipeline {
  import opened Wrappers
  import opened Model
  import G = GeminiClient
  import L = AdaptiveRateLimiter
  import Q = DailyQuotaTracker
  import CM = CheckpointManager
  import T = TweetAuditService
  import AP = ArchiveParser

  /** The evaluator's state: the client, and how many calls it has made so far. */
  datatype Session = Session(client: G.Client, calls: nat)

  /** How the service sees a call: a result, a caught exception, or the process ending. */
  function AsEvaluation(o: G.CallOutcome): (e: T.Evaluation)
    ensures e.Halted? <==> o.ShutDown?
    ensures o.Evaluated? <==> e.Returned?
  {
    match o
    case Evaluated(r) => T.Returned(r)
    case Failed(m) => T.Threw(m)
    case ShutDown => T.Halted
  }

  /** One evaluation: the next call of the client, answered by the world's next environment. */
  function Evaluate(world: nat -> G.CallEnv, ss: Session, t: Tweet): (r: (Session, T.Evaluation))
    ensures r.0.calls == ss.calls + 1
    ensures r.0.client.quota.safetyThreshold == ss.client.quota.safetyThreshold
    ensures r.1.Returned? ==>
              r.1.result.tweetId == t.idStr && r.1.result.errorMessage.None? && r.1.result.matchedCriteria.Some?
  {
    var call := G.EvaluateTweet(ss.client, t, world(ss.calls));
    (Session(call.client, ss.calls + 1), AsEvaluation(call.outcome))
  }

  /** The evaluator handed to the scheduler. */
  function Evaluator(world: nat -> G.CallEnv): (Session, Tweet) -> (Session, T.Evaluation) {
    (ss, t) => Evaluate(world, ss, t)
  }

  /** A run with the Gemini client: every result it returns renders and carries no error. */
  lemma GeminiResultsAreClean(world: nat -> G.CallEnv)
    ensures T.ReturnsNoErrors(Evaluator(world))
    ensures forall ss: Session, t: Tweet ::
              Evaluator(world)(ss, t).1.Returned? ==> T.Renderable(Evaluator(world)(ss, t).1.result)
  {
    forall ss: Session, t: Tweet
      ensures Evaluator(world)(ss, t).1.Returned? ==> Evaluator(world)(ss, t).1.result.errorMessage.None?
      ensures Evaluator(world)(ss, t).1.Returned? ==> T.Renderable(Evaluator(world)(ss, t).1.result)
    {
      assert Evaluator(world)(ss, t) == Evaluate(world, ss, t);
    }
  }

  /** The session's ledger is at or below the safety threshold `th`, and the threshold is `th`. */
  predicate WithinThreshold(ss: Session, th: int) {
    ss.client.quota.safetyThreshold == th && 0 <= ss.client.quota.state.requestCount <= th
  }

  /** The limiter stays inside its bounds. */
  predicate LimiterValid(ss: Session) {
    L.Valid(ss.client.limiter)
  }

  /**
   * Whatever the world answers and however the run ends, the day's request count never passes
   * the safety threshold and the governor's delay stays within its bounds.
   */
  lemma RunStaysWithinQuota(world: nat -> G.CallEnv, s: Session, parsed: Result<seq<Tweet>, AP.ParseError>,
                            store: CM.CheckpointFile, batchSize: int, io: T.Io)
    requires WithinThreshold(s, s.client.quota.safetyThreshold) && LimiterValid(s)
    ensures var e := T.Run(Evaluator(world), s, parsed, store, batchSize, io).evaluator;
            WithinThreshold(e, s.client.quota.safetyThreshold) && LimiterValid(e)
  {
    var th := s.client.quota.safetyThreshold;
    var inv := (ss: Session) => WithinThreshold(ss, th) && LimiterValid(ss);
    forall ss: Session, t: Tweet | inv(ss) ensures inv(Evaluator(world)(ss, t).0) {
      G.CallKeepsCountWithinThreshold(ss.client, t, world(ss.calls));
      var call := G.EvaluateTweet(ss.client, t, world(ss.calls));
      assert Evaluator(world)(ss, t).0 == Session(call.client, ss.calls + 1);
      assert L.Valid(G.CallGeminiApi(ss.client.limiter, world(ss.calls).http).0);
    }
    T.RunKeeps(Evaluator(world), inv, s, parsed, store, batchSize, io);
  }

  // A worked shutdown.

  /** Three posts, one batch of three, a threshold of two: the example of the shutdown below. */
  function Posts(): seq<Tweet> {
    [ Tweet(Some("1"), Some("a"), None, None, None),
      Tweet(Some("2"), Some("b"), None, None, None),
      Tweet(Some("3"), Some("c"), None, None, None) ]
  }

  /** A world where every call on day `d` answers a clean verdict after 100 ms. */
  function CleanDay(d: string): nat -> G.CallEnv {
    n => G.CallEnv(d, G.Answered(100, Some(G.ResponseOf(G.Payload(false, Some("ok"), [])))), d, d, true, false)
  }

  /** A fresh session on day `d` whose safety threshold is `th`. */
  function FreshSession(th: int, d: string): Session {
    Session(G.Client(L.NewLimiter(), Q.NewTracker(1000, th, Q.Missing, d)), 0)
  }

  /** One clean call on day `d` with a count below the threshold: the count goes up by one. */
  lemma CleanCall(ss: Session, t: Tweet, d: string)
    requires ss.client.quota.state.currentDate == d
    requires 0 <= ss.client.quota.state.requestCount < ss.client.quota.safetyThreshold
    ensures var (ss', e) := Evaluator(CleanDay(d))(ss, t);
            && e == T.Returned(EvaluationResult(t.idStr, false, Some("ok"), Some([]), None))
            && ss'.calls == ss.calls + 1
            && ss'.client.quota.state == Q.QuotaState(d, ss.client.quota.state.requestCount + 1)
            && ss'.client.quota.safetyThreshold == ss.client.quota.safetyThreshold
  {
    var env := CleanDay(d)(ss.calls);
    var p := G.Payload(false, Some("ok"), []);
    G.ParseRecoversPayload(p, t.idStr);
    assert G.CallGeminiApi(ss.client.limiter, env.http).1 == Ok(Some(G.ResponseOf(p)));
  }

  /** A call on day `d` once the count has reached the threshold ends the process. */
  lemma ExhaustedCall(ss: Session, t: Tweet, d: string)
    requires ss.client.quota.state.currentDate == d
    requires ss.client.quota.state.requestCount >= ss.client.quota.safetyThreshold
    ensures Evaluator(CleanDay(d))(ss, t).1 == T.Halted
  {
    assert Evaluator(CleanDay(d))(ss, t) == Evaluate(CleanDay(d), ss, t);
  }

  /**
   * With a threshold of two, the third post of a single batch of three shuts the process down
   * before the batch ends, so no checkpoint is ever saved: the two evaluations made are lost to
   * a later run, which starts again from the first post.
   */
  lemma ShutdownInsideFirstBatchSavesNothing(d: string, io: T.Io)
    ensures var r := T.Run(Evaluator(CleanDay(d)), FreshSession(2, d), Ok(Posts()), CM.Absent, 3, io);
            && r.status == T.QuotaShutdown
            && r.effects == [] && r.store == CM.Absent
            && |r.results| == 2 && r.evaluator.client.quota.state.requestCount == 2
  {
    var ts := Posts();
    var p0 := T.Start(CM.Absent);
    assert T.Remaining(ts, p0.processed) == ts by {
      assert ts[0].idStr !in p0.processed && ts[1].idStr !in p0.processed && ts[2].idStr !in p0.processed;
      assert ts[1..][1..][1..] == [];
    }
    assert T.Plan(ts, 3) == [ts] by {
      assert T.Batches(ts, 3) == [ts];
    }
    ThirdPostShutsDown(d);
  }

  /** Evaluating the three posts from a fresh session: two clean calls, then the shutdown. */
  lemma ThirdPostShutsDown(d: string)
    ensures var pass := T.EvalAll(Evaluator(CleanDay(d)), FreshSession(2, d), T.Start(CM.Absent), Posts());
            && pass.halted && |pass.progress.results| == 2
            && pass.evaluator.client.quota.state.requestCount == 2
  {
    var eval := Evaluator(CleanDay(d));
    var ts := Posts();
    var s0 := FreshSession(2, d);
    var p0 := T.Start(CM.Absent);
    CleanCall(s0, ts[0], d);
    var (s1, e1) := eval(s0, ts[0]);
    var p1 := T.Record(p0, ts[0], e1);
    CleanCall(s1, ts[1], d);
    var (s2, e2) := eval(s1, ts[1]);
    var p2 := T.Record(p1, ts[1], e2);
    ExhaustedCall(s2, ts[2], d);
    var (s3, e3) := eval(s2, ts[2]);
    assert T.EvalAll(eval, s2, p2, ts[1..][1..]) == T.Pass(s3, p2, true);
    assert T.EvalAll(eval, s1, p1, ts[1..]) == T.Pass(s3, p2, true);
    assert T.EvalAll(eval, s0, p0, ts) == T.Pass(s3, p2, true);
  }
}

=== FILE: quota.dfy ===
/**
 * `DailyQuotaTracker`: the persisted per-day request ledger. "Today" (the date in the provider's
 * reset time zone) is an input to every access; a stale stored date is replaced lazily on access.
 * Each access that may write the state also takes whether the store accepted the write.
 */
module DailyQuotaTracker {

  /** `QuotaState`: the calendar date the count belongs to, and the requests made on it. */
  datatype QuotaState = QuotaState(currentDate: string, requestCount: int)

  /** The backing record: no file yet, a file that does not decode, or a decoded state. */
  datatype QuotaFile = Missing | Unreadable | Holds(state: QuotaState)

  /** The tracker: its configured limits, its in-memory state and the persisted record. */
  datatype Tracker = Tracker(dailyLimit: int, safetyThreshold: int, state: QuotaState, file: QuotaFile)

  /** The outcome of `checkQuota`: carry on, or the threshold is reached and the process shuts down. */
  datatype Verdict = Proceed | Exhausted

  /** `createNewQuotaState`: a zero count for today. */
  function FreshState(today: string): QuotaState {
    QuotaState(today, 0)
  }

  /** `saveQuotaState`: a failed write is logged and swallowed, leaving the old record in place. */
  function Save(file: QuotaFile, state: QuotaState, writable: bool): (r: QuotaFile)
    ensures writable ==> r == Holds(state)
    ensures !writable ==> r == file
  {
    if writable then Holds(state) else file
  }

  /** `loadOrCreateQuotaState`: a decodable record is taken as it is, even from an earlier day. */
  function LoadOrCreate(file: QuotaFile, today: string): (s: QuotaState)
    ensures file.Holds? ==> s == file.state
    ensures !file.Holds? ==> s == QuotaState(today, 0)
  {
    match file
    case Holds(state) => state
    case _ => FreshState(today)
  }

  /** The constructor: limits from configuration, state loaded from the store (never failing). */
  function NewTracker(dailyLimit: int, safetyThreshold: int, file: QuotaFile, today: string): (t: Tracker)
    ensures t.dailyLimit == dailyLimit && t.safetyThreshold == safetyThreshold && t.file == file
    ensures t.state == LoadOrCreate(file, today)
  {
    Tracker(dailyLimit, safetyThreshold, LoadOrCreate(file, today), file)
  }

  /** Limits are fixed at construction. */
  predicate SameLimits(a: Tracker, b: Tracker) {
    a.dailyLimit == b.dailyLimit && a.safetyThreshold == b.safetyThreshold
  }

  /** `resetIfNewDay`: a stored date other than today becomes (today, 0) and is persisted at once. */
  function ResetIfNewDay(t: Tracker, today: string, writable: bool): (r: Tracker)
    ensures SameLimits(r, t)
    ensures r.state.currentDate == today
    ensures t.state.currentDate == today ==> r == t
    ensures t.state.currentDate != today ==>
              r.state.requestCount == 0 && r.file == Save(t.file, r.state, writable)
  {
    if today != t.state.currentDate then
      var s := FreshState(today);
      t.(state := s, file := Save(t.file, s, writable))
    else
      t
  }

  /** A second access on the same day never resets again, whatever happened to the first write. */
  lemma RolloverIdempotent(t: Tracker, today: string, w1: bool, w2: bool)
    ensures ResetIfNewDay(ResetIfNewDay(t, today, w1), today, w2) == ResetIfNewDay(t, today, w1)
  {
  }

  /**
   * `checkQuota`: roll over, then signal exhaustion exactly when the count has reached the
   * safety threshold. The daily limit only appears in the log message; the count is not changed.
   */
  function CheckQuota(t: Tracker, today: string, writable: bool): (r: (Tracker, Verdict))
    ensures r.0 == ResetIfNewDay(t, today, writable)
    ensures r.1 == Exhausted <==> r.0.state.requestCount >= t.safetyThreshold
  {
    var t' := ResetIfNewDay(t, today, writable);
    (t', if t'.state.requestCount >= t'.safetyThreshold then Exhausted else Proceed)
  }

  /** The daily limit never influences the verdict. */
  lemma VerdictIgnoresDailyLimit(t: Tracker, limit: int, today: string, writable: bool)
    ensures CheckQuota(t, today, writable).1 == CheckQuota(t.(dailyLimit := limit), today, writable).1
  {
  }

  /** The counting part of `incrementRequestCount`: roll over, add exactly one, keep the date and persist. */
  function CountOne(t: Tracker, today: string, writable: bool): (r: Tracker)
    ensures SameLimits(r, t)
    ensures r.state == QuotaState(today, ResetIfNewDay(t, today, writable).state.requestCount + 1)
    ensures writable ==> r.file == Holds(r.state)
    ensures !writable ==> r.file == t.file
  {
    var t' := ResetIfNewDay(t, today, writable);
    var s := t'.state.(requestCount := t'.state.requestCount + 1);
    t'.(state := s, file := Save(t'.file, s, writable))
  }

  /**
   * `incrementRequestCount`: count one request on `today`, then log the remaining quota, whose
   * `getRemainingQuota` reads the clock again (`logDate`) and rolls over once more if the day
   * has changed in between, discarding the request just counted.
   */
  function IncrementRequestCount(t: Tracker, today: string, logDate: string, writable: bool): (r: Tracker)
    ensures SameLimits(r, t)
    ensures logDate == today ==> r == CountOne(t, today, writable)
    ensures logDate != today ==> r.state == QuotaState(logDate, 0)
    ensures writable ==> r.file == Holds(r.state)
    ensures !writable ==> r.file == t.file
  {
    GetRemainingQuota(CountOne(t, today, writable), logDate, writable).0
  }

  /** `getRemainingQuota`: how many requests are left before the safety threshold, never negative. */
  function GetRemainingQuota(t: Tracker, today: string, writable: bool): (r: (Tracker, int))
    ensures r.0 == ResetIfNewDay(t, today, writable)
    ensures r.1 >= 0
    ensures r.1 + r.0.state.requestCount >= t.safetyThreshold
    ensures r.1 > 0 ==> r.1 + r.0.state.requestCount == t.safetyThreshold
    ensures r.1 == 0 <==> CheckQuota(t, today, writable).1 == Exhausted
  {
    var t' := ResetIfNewDay(t, today, writable);
    var left := t'.safetyThreshold - t'.state.requestCount;
    (t', if left > 0 then left else 0)
  }

  /** `reset`: today's count back to zero, persisted. */
  function Reset(t: Tracker, today: string, writable: bool): (r: Tracker)
    ensures SameLimits(r, t)
    ensures r.state == QuotaState(today, 0)
    ensures r.file == Save(t.file, r.state, writable)
  {
    var s := FreshState(today);
    t.(state := s, file := Save(t.file, s, writable))
  }

  /** `n` increments on one day with a writable store. */
  function IncrementTimes(t: Tracker, today: string, n: nat): Tracker
    decreases n
  {
    if n == 0 then t else IncrementTimes(IncrementRequestCount(t, today, today, true), today, n - 1)
  }

  /** On a single day the count grows by exactly the number of increments, and the store follows it. */
  lemma {:induction false} IncrementsAccumulate(t: Tracker, today: string, n: nat)
    requires t.state.currentDate == today
    ensures IncrementTimes(t, today, n).state == QuotaState(today, t.state.requestCount + n)
    ensures SameLimits(IncrementTimes(t, today, n), t)
    ensures n > 0 ==> IncrementTimes(t, today, n).file == Holds(IncrementTimes(t, today, n).state)
    decreases n
  {
    if n > 0 {
      IncrementsAccumulate(IncrementRequestCount(t, today, today, true), today, n - 1);
    }
  }

  /** With a 1000 limit and a 950 threshold, 949 requests still pass and the 950th exhausts the day. */
  lemma ThresholdBoundary(file: QuotaFile, today: string)
    requires !file.Holds?
    ensures CheckQuota(IncrementTimes(NewTracker(1000, 950, file, today), today, 949), today, true).1 == Proceed
    ensures CheckQuota(IncrementTimes(NewTracker(1000, 950, file, today), today, 950), today, true).1 == Exhausted
  {
    IncrementsAccumulate(NewTracker(1000, 950, file, today), today, 949);
    IncrementsAccumulate(NewTracker(1000, 950, file, today), today, 950);
  }

  /** Counting past the threshold leaves the remaining quota at zero, never below. */
  lemma RemainingFloorsAtZero(file: QuotaFile, today: string, threshold: nat, extra: nat)
    requires !file.Holds?
    ensures GetRemainingQuota(IncrementTimes(NewTracker(threshold, threshold, file, today), today,
                                             threshold + extra), today, true).1 == 0
  {
    IncrementsAccumulate(NewTracker(threshold, threshold, file, today), today, threshold + extra);
  }

  /**
   * A stored state from an earlier day survives construction, and the first access of the
   * new day replaces it by (today, 0), whatever count it carried.
   */
  lemma StaleStateResetOnFirstAccess(limit: int, threshold: int, stored: QuotaState, today: string, writable: bool)
    requires stored.currentDate != today
    ensures NewTracker(limit, threshold, Holds(stored), today).state == stored
    ensures ResetIfNewDay(NewTracker(limit, threshold, Holds(stored), today), today, writable).state
            == QuotaState(today, 0)
    ensures GetRemainingQuota(NewTracker(limit, threshold, Holds(stored), today), today, writable).1
            == (if threshold > 0 then threshold else 0)
  {
  }

  /**
   * A day boundary between the increment and its log line loses the request: the count is zero
   * for the new day, so the request just made is not charged to either day.
   */
  lemma MidnightAfterIncrementForgetsIt(t: Tracker, today: string, logDate: string, writable: bool)
    requires logDate != today
    ensures IncrementRequestCount(t, today, logDate, writable).state.requestCount == 0
    ensures CountOne(t, today, writable).state == QuotaState(today, ResetIfNewDay(t, today, writable).state.requestCount + 1)
  {
  }
}

=== FILE: ratelimiter.dfy ===
/**
 * `AdaptiveRateLimiter`: the pacing governor. One delay, adjusted from the latency and
 * status of each provider call, and kept between 200 ms and 10 s.
 */
module AdaptiveRateLimiter {

  const MinDelayMs: int := 200
  const MaxDelayMs: int := 10_000
  const InitialDelayMs: int := 1000
  const FastResponseThresholdMs: int := 500
  const SlowResponseThresholdMs: int := 3000
  const SpeedUpAmountMs: int := 100
  const SlowDownAmountMs: int := 500

  /** The governor's whole state: the delay to wait before the next call, in milliseconds. */
  datatype Limiter = Limiter(currentDelayMs: int)

  /** The bounds every reachable delay stays within. */
  predicate Valid(l: Limiter) {
    MinDelayMs <= l.currentDelayMs <= MaxDelayMs
  }

  function Max(a: int, b: int): int { if a >= b then a else b }
  function Min(a: int, b: int): int { if a <= b then a else b }

  /** A fresh governor starts at the conservative initial delay. */
  function NewLimiter(): (l: Limiter)
    ensures Valid(l)
    ensures l.currentDelayMs == 1000
  {
    Limiter(InitialDelayMs)
  }

  /**
   * `recordSuccess`: a fast answer (under 500 ms) speeds up by 100 ms down to the floor, a
   * slow one (over 3000 ms) slows down by 500 ms up to the cap; 500 and 3000 themselves are normal.
   */
  function RecordSuccess(l: Limiter, responseTimeMs: int): (r: Limiter)
    ensures Valid(l) ==> Valid(r)
    ensures responseTimeMs < 500 ==> r.currentDelayMs == Max(200, l.currentDelayMs - 100)
    ensures responseTimeMs > 3000 ==> r.currentDelayMs == Min(10_000, l.currentDelayMs + 500)
    ensures 500 <= responseTimeMs <= 3000 ==> r == l
  {
    if responseTimeMs < FastResponseThresholdMs then
      Limiter(Max(MinDelayMs, l.currentDelayMs - SpeedUpAmountMs))
    else if responseTimeMs > SlowResponseThresholdMs then
      Limiter(Min(MaxDelayMs, l.currentDelayMs + SlowDownAmountMs))
    else
      l
  }

  /** `recordRateLimitHit`: double the delay, capped at 10 s; it never shortens a valid delay. */
  function RecordRateLimitHit(l: Limiter): (r: Limiter)
    ensures Valid(l) ==> Valid(r) && r.currentDelayMs >= l.currentDelayMs
    ensures r.currentDelayMs == Min(10_000, 2 * l.currentDelayMs)
  {
    Limiter(Min(MaxDelayMs, l.currentDelayMs * 2))
  }

  /** `recordServerError`: add 500 ms, capped at 10 s. */
  function RecordServerError(l: Limiter): (r: Limiter)
    ensures Valid(l) ==> Valid(r) && r.currentDelayMs >= l.currentDelayMs
    ensures r.currentDelayMs == Min(10_000, l.currentDelayMs + 500)
  {
    Limiter(Min(MaxDelayMs, l.currentDelayMs + SlowDownAmountMs))
  }

  /** `reset`: back to the initial delay, whatever the state. */
  function Reset(l: Limiter): (r: Limiter)
    ensures r == NewLimiter()
    ensures Valid(r)
  {
    Limiter(InitialDelayMs)
  }

  /**
   * `waitBeforeNextCall`, as the duration it sleeps: the current delay when positive, else nothing.
   * It reads the state and leaves it as it is.
   */
  function WaitBeforeNextCall(l: Limiter): (sleptMs: nat)
    ensures l.currentDelayMs > 0 ==> sleptMs == l.currentDelayMs
    ensures l.currentDelayMs <= 0 ==> sleptMs == 0
    ensures Valid(l) ==> MinDelayMs <= sleptMs <= MaxDelayMs
  {
    if l.currentDelayMs > 0 then l.currentDelayMs else 0
  }

  /** The feedback the governor receives, one per recorded event. */
  datatype Signal = Success(responseTimeMs: int) | RateLimitHit | ServerError | ResetRequest

  function Apply(l: Limiter, s: Signal): Limiter {
    match s
    case Success(t) => RecordSuccess(l, t)
    case RateLimitHit => RecordRateLimitHit(l)
    case ServerError => RecordServerError(l)
    case ResetRequest => Reset(l)
  }

  /** The governor after a whole history of signals; the bounds hold after every one of them. */
  function ApplyAll(l: Limiter, signals: seq<Signal>): (r: Limiter)
    ensures Valid(l) ==> Valid(r)
    decreases |signals|
  {
    if signals == [] then l else ApplyAll(Apply(l, signals[0]), signals[1..])
  }

  /** `n` copies of the same signal. */
  function Repeat(s: Signal, n: nat): (r: seq<Signal>)
    ensures |r| == n
    ensures forall i :: 0 <= i < n ==> r[i] == s
  {
    if n == 0 then [] else [s] + Repeat(s, n - 1)
  }

  /** Each signal is monotone: a longer delay before it never gives a shorter delay after it. */
  lemma ApplyMonotone(a: Limiter, b: Limiter, s: Signal)
    requires a.currentDelayMs <= b.currentDelayMs
    ensures Apply(a, s).currentDelayMs <= Apply(b, s).currentDelayMs
  {
  }

  /** A whole history is monotone in the starting delay. */
  lemma {:induction false} ApplyAllMonotone(a: Limiter, b: Limiter, signals: seq<Signal>)
    requires a.currentDelayMs <= b.currentDelayMs
    ensures ApplyAll(a, signals).currentDelayMs <= ApplyAll(b, signals).currentDelayMs
    decreases |signals|
  {
    if signals != [] {
      ApplyMonotone(a, b, signals[0]);
      ApplyAllMonotone(Apply(a, signals[0]), Apply(b, signals[0]), signals[1..]);
    }
  }

  /** `n` fast answers lower a valid delay by 100 ms each until the 200 ms floor. */
  lemma {:induction false} FastAnswersFloor(l: Limiter, responseTimeMs: int, n: nat)
    requires Valid(l)
    requires responseTimeMs < FastResponseThresholdMs
    ensures ApplyAll(l, Repeat(Success(responseTimeMs), n)).currentDelayMs
            == Max(MinDelayMs, l.currentDelayMs - SpeedUpAmountMs * n)
    decreases n
  {
    if n > 0 {
      var s := Success(responseTimeMs);
      assert Repeat(s, n)[1..] == Repeat(s, n - 1);
      var l' := Apply(l, s);
      FastAnswersFloor(l', responseTimeMs, n - 1);
    }
  }

  /** `n` slow answers raise a valid delay by 500 ms each until the 10 s cap. */
  lemma {:induction false} SlowAnswersCap(l: Limiter, responseTimeMs: int, n: nat)
    requires Valid(l)
    requires responseTimeMs > SlowResponseThresholdMs
    ensures ApplyAll(l, Repeat(Success(responseTimeMs), n)).currentDelayMs
            == Min(MaxDelayMs, l.currentDelayMs + SlowDownAmountMs * n)
    decreases n
  {
    if n > 0 {
      var s := Success(responseTimeMs);
      assert Repeat(s, n)[1..] == Repeat(s, n - 1);
      SlowAnswersCap(Apply(l, s), responseTimeMs, n - 1);
    }
  }

  /** Twenty 100 ms answers from the start floor the delay at 200 ms. */
  lemma TwentyFastAnswersReachFloor()
    ensures ApplyAll(NewLimiter(), Repeat(Success(100), 20)).currentDelayMs == 200
  {
    FastAnswersFloor(NewLimiter(), 100, 20);
  }

  /** Fifty 5 s answers from the start cap the delay at 10 s. */
  lemma FiftySlowAnswersReachCap()
    ensures ApplyAll(NewLimiter(), Repeat(Success(5000), 50)).currentDelayMs == 10_000
  {
    SlowAnswersCap(NewLimiter(), 5000, 50);
  }

  /** The mixed history fast, fast, 429, slow, fast from the start passes through 900, 800, 1600, 2100, 2000. */
  lemma MixedHistory()
    ensures ApplyAll(NewLimiter(), [Success(300)]).currentDelayMs == 900
    ensures ApplyAll(NewLimiter(), [Success(300), Success(400)]).currentDelayMs == 800
    ensures ApplyAll(NewLimiter(), [Success(300), Success(400), RateLimitHit]).currentDelayMs == 1600
    ensures ApplyAll(NewLimiter(), [Success(300), Success(400), RateLimitHit, Success(4000)]).currentDelayMs == 2100
    ensures ApplyAll(NewLimiter(), [Success(300), Success(400), RateLimitHit, Success(4000), Success(300)])
              .currentDelayMs == 2000
  {
    var h := [Success(300), Success(400), RateLimitHit, Success(4000), Success(300)];
    assert h[1..] == [Success(400), RateLimitHit, Success(4000), Success(300)];
  }
}

=== FILE: scheduler.dfy ===
/**
 * `TweetAuditService.run`: the per-post scheduler. It skips posts a checkpoint already covers,
 * evaluates the rest batch by batch, saves a checkpoint after every batch and pauses between
 * batches, then writes the report and removes the checkpoint.
 *
 * The evaluator is a parameter: any state `S` with a step `(S, Tweet) -> (S, Evaluation)`.
 * The clock readings used to stamp checkpoints and whether each write succeeds are inputs.
 */
module TweetAuditService {
  import opened Wrappers
  import opened Model
  import CM = CheckpointManager
  import Csv = CsvWriter
  import AP = ArchiveParser

  /** How one evaluation ends: a result, an exception the loop catches, or the quota shutdown that ends the process. */
  datatype Evaluation = Returned(result: EvaluationResult) | Threw(message: string) | Halted

  const PauseMs: int := 60000
  const ErrorPrefix: string := "Evaluation failed: "
  /** `Integer.MAX_VALUE`, what `(int) Math.ceil` gives for a positive count divided by zero. */
  const IntMax: int := 0x7fff_ffff

  /** The result recorded for a post whose evaluation threw. */
  function ErrorResult(t: Tweet, message: string): (r: EvaluationResult)
    ensures r.tweetId == t.idStr && !r.shouldDelete && r.reason == Some("")
    ensures r.errorMessage == Some(ErrorPrefix + message)
    ensures Csv.Kept(r) && Csv.Status(r) == Csv.Error
  {
    EvaluationResult(t.idStr, false, Some(""), Some([]), Some(ErrorPrefix + message))
  }

  /** What the loop has accumulated: this run's results, every processed id, and the running counts. */
  datatype Progress = Progress(
    results: seq<EvaluationResult>,
    processed: set<Option<string>>,
    flaggedCount: int,
    errorCount: int)

  /** The starting point: the checkpoint's ids and counts when there is one, else nothing. Results always start empty. */
  function StartProgress(loaded: Option<ProcessingCheckpoint>): (p: Progress)
    ensures p.results == []
    ensures loaded.None? ==> p == Progress([], {}, 0, 0)
    ensures loaded.Some? ==>
              p.processed == loaded.value.processedTweetIds &&
              p.flaggedCount == loaded.value.flaggedCount &&
              p.errorCount == loaded.value.errorCount
  {
    match loaded
    case None => Progress([], {}, 0, 0)
    case Some(cp) => Progress([], cp.processedTweetIds, cp.flaggedCount, cp.errorCount)
  }

  /** The posts whose id is not yet processed, in archive order. */
  function Remaining(tweets: seq<Tweet>, processed: set<Option<string>>): (r: seq<Tweet>)
    ensures |r| <= |tweets|
    ensures forall i :: 0 <= i < |r| ==> r[i].idStr !in processed
  {
    if tweets == [] then []
    else (if tweets[0].idStr in processed then [] else [tweets[0]]) + Remaining(tweets[1..], processed)
  }

  /** A post remains exactly when it is in the archive and its id was not processed. */
  lemma {:induction false} RemainingMembers(tweets: seq<Tweet>, processed: set<Option<string>>, t: Tweet)
    ensures t in Remaining(tweets, processed) <==> t in tweets && t.idStr !in processed
  {
    if tweets != [] {
      RemainingMembers(tweets[1..], processed, t);
      assert tweets == [tweets[0]] + tweets[1..];
    }
  }

  /** Skipping commutes with concatenation, so the remaining posts keep their archive order. */
  lemma {:induction false} RemainingAppend(a: seq<Tweet>, b: seq<Tweet>, processed: set<Option<string>>)
    ensures Remaining(a + b, processed) == Remaining(a, processed) + Remaining(b, processed)
  {
    if a == [] {
      assert a + b == b;
    } else {
      assert (a + b)[0] == a[0] && (a + b)[1..] == a[1..] + b;
      RemainingAppend(a[1..], b, processed);
    }
  }

  /** The ceiling of `n / size` for a positive size, counted out one size at a time. */
  function CeilDiv(n: nat, size: nat): (k: nat)
    requires size > 0
    ensures n == 0 <==> k == 0
    decreases n
  {
    if n == 0 then 0
    else if n <= size then 1
    else 1 + CeilDiv(n - size, size)
  }

  /** `CeilDiv` is the ceiling: the least `k` with `n <= k * size`. */
  lemma {:induction false} CeilDivIsCeiling(n: nat, size: nat)
    requires size > 0
    ensures n > 0 ==> (CeilDiv(n, size) - 1) * size < n <= CeilDiv(n, size) * size
    decreases n
  {
    if n > size {
      var k := CeilDiv(n - size, size);
      CeilDivIsCeiling(n - size, size);
      assert (k + 1) * size == k * size + size;
      assert k * size == (k - 1) * size + size;
    }
  }

  /** `(int) Math.ceil((double) n / batchSize)` in Java's arithmetic, for a count `n`. */
  function TotalBatches(n: nat, batchSize: int): (k: int)
    ensures n == 0 ==> k == 0
    ensures batchSize >= 0 && n > 0 ==> k > 0
    ensures batchSize > 0 ==> k == CeilDiv(n, batchSize)
    ensures n > 0 && batchSize == 0 ==> k == IntMax
    ensures batchSize < 0 ==> k <= 0
  {
    if n == 0 then 0
    else if batchSize > 0 then CeilDiv(n, batchSize)
    else if batchSize == 0 then IntMax
    else -(n / -batchSize)
  }

  /** For a positive batch size, the Java count is the ceiling `CeilDiv`. */
  lemma BatchCountMatchesJava(n: nat, size: nat)
    requires size > 0
    ensures TotalBatches(n, size) == CeilDiv(n, size)
    ensures n > 0 ==> 0 < TotalBatches(n, size) && (TotalBatches(n, size) - 1) * size < n <= TotalBatches(n, size) * size
  {
    CeilDivIsCeiling(n, size);
  }

  function Flatten<T>(xss: seq<seq<T>>): seq<T> {
    if xss == [] then [] else xss[0] + Flatten(xss[1..])
  }

  /** `subList(k * size, min((k + 1) * size, n))` for every batch number `k`. */
  function Batches<T>(xs: seq<T>, size: nat): (bs: seq<seq<T>>)
    requires size > 0
    ensures |bs| == CeilDiv(|xs|, size)
    ensures forall i :: 0 <= i < |bs| ==> 1 <= |bs[i]| <= size
    decreases |xs|
  {
    if xs == [] then []
    else if |xs| <= size then [xs]
    else
      var rest := Batches(xs[size..], size);
      [xs[..size]] + rest
  }

  /** Taken together, the batches are exactly the list, in order. */
  lemma {:induction false} BatchesFlatten<T>(xs: seq<T>, size: nat)
    requires size > 0
    ensures Flatten(Batches(xs, size)) == xs
    decreases |xs|
  {
    if xs == [] {
    } else if |xs| <= size {
      assert Flatten([xs]) == xs + [];
    } else {
      var rest := Batches(xs[size..], size);
      BatchesFlatten(xs[size..], size);
      assert Batches(xs, size) == [xs[..size]] + rest;
      assert ([xs[..size]] + rest)[1..] == rest;
      assert xs[..size] + xs[size..] == xs;
    }
  }

  /** Where batch `k` starts: `k * size`, counted out batch by batch. */
  function Offset(k: nat, size: nat): nat {
    if k == 0 then 0 else size + Offset(k - 1, size)
  }

  lemma {:induction false} OffsetIsProduct(k: nat, size: nat)
    ensures Offset(k, size) == k * size
  {
    if k > 0 {
      OffsetIsProduct(k - 1, size);
      assert (k - 1) * size + size == k * size;
    }
  }

  /** The end of the slice starting at `lo`: `lo + size`, or the end of the list. */
  function SliceEnd(lo: nat, size: nat, n: nat): nat {
    if lo + size <= n then lo + size else n
  }

  lemma {:induction false} BatchesAreOffsetSlices<T>(xs: seq<T>, size: nat, k: nat)
    requires size > 0 && k < |Batches(xs, size)|
    ensures Offset(k, size) < |xs|
    ensures Batches(xs, size)[k] == xs[Offset(k, size) .. SliceEnd(Offset(k, size), size, |xs|)]
    decreases |xs|
  {
    if k == 0 {
      FirstBatchIsSlice(xs, size);
    } else {
      BatchesUnfold(xs, size);
      BatchesAreOffsetSlices(xs[size..], size, k - 1);
      LaterBatchIsShiftedSlice(xs, size, k);
    }
  }

  /** The first batch is the slice from 0 up to `size` or the end. */
  lemma FirstBatchIsSlice<T>(xs: seq<T>, size: nat)
    requires size > 0 && 0 < |Batches(xs, size)|
    ensures 0 < |xs|
    ensures Batches(xs, size)[0] == xs[0 .. SliceEnd(0, size, |xs|)]
  {
    if |xs| <= size {
      assert xs[0 .. |xs|] == xs;
    } else {
      BatchesUnfold(xs, size);
    }
  }

  /** Batch `k > 0` is batch `k - 1` of the rest, shifted by one batch. */
  lemma LaterBatchIsShiftedSlice<T>(xs: seq<T>, size: nat, k: nat)
    requires size > 0 && |xs| > size && 0 < k < |Batches(xs, size)|
    requires Offset(k - 1, size) < |xs[size..]|
    requires Batches(xs[size..], size)[k - 1]
               == xs[size..][Offset(k - 1, size) .. SliceEnd(Offset(k - 1, size), size, |xs[size..]|)]
    ensures Offset(k, size) < |xs|
    ensures Batches(xs, size)[k] == xs[Offset(k, size) .. SliceEnd(Offset(k, size), size, |xs|)]
  {
    var lo := Offset(k - 1, size);
    var hi := SliceEnd(lo, size, |xs[size..]|);
    assert Offset(k, size) == size + lo;
    assert SliceEnd(size + lo, size, |xs|) == size + hi;
    BatchesUnfold(xs, size);
    SliceOfSuffix(xs, size, lo, hi);
  }

  /** Past the first batch, batch `k` is batch `k - 1` of the rest of the list. */
  lemma BatchesUnfold<T>(xs: seq<T>, size: nat)
    requires size > 0 && |xs| > size
    ensures |Batches(xs, size)| == 1 + |Batches(xs[size..], size)|
    ensures Batches(xs, size)[0] == xs[..size]
    ensures forall k :: 0 < k < |Batches(xs, size)| ==> Batches(xs, size)[k] == Batches(xs[size..], size)[k - 1]
  {
    assert Batches(xs, size) == [xs[..size]] + Batches(xs[size..], size);
  }

  lemma SliceOfSuffix<T>(xs: seq<T>, a: nat, lo: nat, hi: nat)
    requires a <= |xs| && lo <= hi <= |xs| - a
    ensures xs[a..][lo..hi] == xs[a + lo .. a + hi]
  {
  }

  /** Batch `k` is the slice from `k * size` up to `(k + 1) * size` or the end, whichever comes first. */
  lemma BatchesAreSlices<T>(xs: seq<T>, size: nat, k: nat)
    requires size > 0 && k < |Batches(xs, size)|
    ensures k * size < |xs|
    ensures Batches(xs, size)[k] == xs[k * size .. if k * size + size <= |xs| then k * size + size else |xs|]
  {
    BatchesAreOffsetSlices(xs, size, k);
    OffsetIsProduct(k, size);
  }

  /** Adds one post's outcome: results grow by one, the id is processed, and one count moves. */
  function Record(p: Progress, t: Tweet, e: Evaluation): (p': Progress)
    requires !e.Halted?
    ensures |p'.results| == |p.results| + 1 && p'.results[..|p.results|] == p.results
    ensures p'.processed == p.processed + {t.idStr}
    ensures e.Returned? ==>
              p'.results[|p.results|] == e.result &&
              p'.flaggedCount == p.flaggedCount + (if e.result.shouldDelete then 1 else 0) &&
              p'.errorCount == p.errorCount
    ensures e.Threw? ==>
              p'.results[|p.results|] == ErrorResult(t, e.message) &&
              p'.flaggedCount == p.flaggedCount && p'.errorCount == p.errorCount + 1
  {
    match e
    case Returned(r) =>
      Progress(p.results + [r], p.processed + {t.idStr}, p.flaggedCount + (if r.shouldDelete then 1 else 0), p.errorCount)
    case Threw(m) =>
      Progress(p.results + [ErrorResult(t, m)], p.processed + {t.idStr}, p.flaggedCount, p.errorCount + 1)
  }

  /** Where a run of evaluations got to, and whether the quota shutdown ended it. */
  datatype Pass<S> = Pass(evaluator: S, progress: Progress, halted: bool)

  /** The inner loop: evaluate the posts in order, stopping at the quota shutdown. */
  function EvalAll<S>(eval: (S, Tweet) -> (S, Evaluation), s: S, p: Progress, ts: seq<Tweet>): (r: Pass<S>)
    ensures !r.halted ==> |r.progress.results| == |p.results| + |ts|
    ensures r.halted ==> |r.progress.results| < |p.results| + |ts|
    ensures |p.results| <= |r.progress.results| <= |p.results| + |ts|
    ensures r.progress.results[..|p.results|] == p.results
    decreases |ts|
  {
    if ts == [] then Pass(s, p, false)
    else
      var (s', e) := eval(s, ts[0]);
      if e.Halted? then Pass(s', p, true)
      else
        var p' := Record(p, ts[0], e);
        var r := EvalAll(eval, s', p', ts[1..]);
        assert r.progress.results[..|p.results|] == r.progress.results[..|p'.results|][..|p.results|];
        r
  }

  /** Evaluating two lists one after the other is evaluating their concatenation. */
  lemma {:induction false} EvalAllAppend<S>(eval: (S, Tweet) -> (S, Evaluation), s: S, p: Progress, a: seq<Tweet>, b: seq<Tweet>)
    ensures var first := EvalAll(eval, s, p, a);
            EvalAll(eval, s, p, a + b)
              == if first.halted then first else EvalAll(eval, first.evaluator, first.progress, b)
    decreases |a|
  {
    if a == [] {
      assert a + b == b;
    } else {
      assert (a + b)[0] == a[0] && (a + b)[1..] == a[1..] + b;
      var (s', e) := eval(s, a[0]);
      if !e.Halted? {
        EvalAllAppend(eval, s', Record(p, a[0], e), a[1..], b);
      }
    }
  }

  /** The ids of a list of posts. */
  function Ids(ts: seq<Tweet>): set<Option<string>> {
    set t | t in ts :: t.idStr
  }

  /**
   * Bookkeeping of a pass that was not cut short: every post's id is processed, every post has
   * one result, and each post moved exactly one of the flagged, error or clean tallies.
   */
  lemma {:induction false} EvalAllAccounting<S(!new)>(eval: (S, Tweet) -> (S, Evaluation), s: S, p: Progress, ts: seq<Tweet>)
    requires !EvalAll(eval, s, p, ts).halted
    requires ReturnsNoErrors(eval)
    ensures var q := EvalAll(eval, s, p, ts).progress;
            q.processed == p.processed + Ids(ts)
            && q.flaggedCount - p.flaggedCount == Flagged(q.results[|p.results|..])
            && q.errorCount - p.errorCount == Errored(q.results[|p.results|..])
    decreases |ts|
  {
    var q := EvalAll(eval, s, p, ts).progress;
    EvalAllProcessed(eval, s, p, ts);
    if ts == [] {
      assert q.results[|p.results|..] == [];
    } else {
      var (s', e) := eval(s, ts[0]);
      var p1 := Record(p, ts[0], e);
      EvalAllAccounting(eval, s', p1, ts[1..]);
      TallyFirst(q.results, p.results, p1.results);
      assert e.Threw? ==> !ErrorResult(ts[0], e.message).shouldDelete;
    }
  }

  /** Past a prefix `p` extended by one result to `p1`, the tallies count that result, then the rest. */
  lemma TallyFirst(q: seq<EvaluationResult>, p: seq<EvaluationResult>, p1: seq<EvaluationResult>)
    requires |p1| == |p| + 1 && |p1| <= |q| && q[..|p1|] == p1
    ensures Flagged(q[|p|..]) == (if p1[|p|].shouldDelete then 1 else 0) + Flagged(q[|p1|..])
    ensures Errored(q[|p|..]) == (if p1[|p|].errorMessage.Some? then 1 else 0) + Errored(q[|p1|..])
  {
    var tail := q[|p|..];
    assert tail[0] == q[|p|] == p1[|p|];
    assert tail[1..] == q[|p1|..];
  }

  /** An evaluator whose returned results never carry an error message, as the Gemini client's never do. */
  ghost predicate ReturnsNoErrors<S(!new)>(eval: (S, Tweet) -> (S, Evaluation)) {
    forall s: S, t: Tweet :: eval(s, t).1.Returned? ==> eval(s, t).1.result.errorMessage.None?
  }

  /** How many results carry the deletion verdict. */
  function Flagged(rs: seq<EvaluationResult>): nat {
    if rs == [] then 0 else (if rs[0].shouldDelete then 1 else 0) + Flagged(rs[1..])
  }

  /** How many results carry an error. */
  function Errored(rs: seq<EvaluationResult>): nat {
    if rs == [] then 0 else (if rs[0].errorMessage.Some? then 1 else 0) + Errored(rs[1..])
  }

  // The batch loop and the run.

  /** What a run does to the outside world, in order. */
  datatype Effect =
    | CheckpointSaved(checkpoint: ProcessingCheckpoint)
    | Paused(ms: int)
    | ResultsWritten(csv: string)
    | CheckpointDeleted

  /**
   * The inputs a run cannot compute: the clock at the k-th save, whether the k-th save succeeds,
   * whether the report can be written, and whether the checkpoint can be deleted afterwards.
   */
  datatype Io = Io(clock: nat -> int, checkpointWritable: nat -> bool, reportWritable: bool, checkpointDeletable: bool)

  /** The checkpoint built after a batch: its last post, every processed id, and the running counts. */
  function BuildCheckpoint(batch: seq<Tweet>, p: Progress, totalTweets: nat): (cp: ProcessingCheckpoint)
    requires batch != []
    ensures cp.lastProcessedTweetId == batch[|batch| - 1].idStr
    ensures cp.processedTweetIds == p.processed && cp.totalProcessed == |p.processed|
    ensures cp.totalTweets == totalTweets && cp.flaggedCount == p.flaggedCount && cp.errorCount == p.errorCount
    ensures cp.timestamp.None?
  {
    ProcessingCheckpoint(batch[|batch| - 1].idStr, p.processed, None, |p.processed|, totalTweets,
                         p.flaggedCount, p.errorCount)
  }

  /** Why the batch loop stopped. */
  datatype Stop = AllBatchesDone | QuotaHalt | EmptyBatchFailure | SaveFailure

  datatype Loop<S> = Loop(evaluator: S, progress: Progress, store: CM.CheckpointFile, effects: seq<Effect>, stop: Stop)

  /**
   * The outer loop from batch number `k`: evaluate a batch, save the checkpoint, and pause
   * unless it was the last batch. An empty batch fails when its last post is looked up.
   */
  function RunBatches<S>(eval: (S, Tweet) -> (S, Evaluation), s: S, p: Progress, store: CM.CheckpointFile,
                         batches: seq<seq<Tweet>>, k: nat, totalTweets: nat, io: Io): (r: Loop<S>)
    ensures r.stop == AllBatchesDone ==> |r.effects| == 2 * |batches| - (if batches == [] then 0 else 1)
    decreases |batches|
  {
    if batches == [] then Loop(s, p, store, [], AllBatchesDone)
    else
      var pass := EvalAll(eval, s, p, batches[0]);
      if pass.halted then Loop(pass.evaluator, pass.progress, store, [], QuotaHalt)
      else if batches[0] == [] then Loop(pass.evaluator, pass.progress, store, [], EmptyBatchFailure)
      else
        var cp := BuildCheckpoint(batches[0], pass.progress, totalTweets);
        match CM.SaveCheckpoint(store, cp, io.clock(k), io.checkpointWritable(k))
        case Err(_) => Loop(pass.evaluator, pass.progress, store, [], SaveFailure)
        case Ok(store') =>
          var saved := [CheckpointSaved(cp.(timestamp := Some(io.clock(k))))];
          var pause := if |batches| > 1 then [Paused(PauseMs)] else [];
          var rest := RunBatches(eval, pass.evaluator, pass.progress, store', batches[1..], k + 1, totalTweets, io);
          rest.(effects := saved + pause + rest.effects)
  }

  /** How a run ends. */
  datatype Status = Completed | AlreadyDone | QuotaShutdown | Crashed(crash: Crash)

  /** The exception a failed run ends with. */
  datatype Crash =
    | ArchiveFailed(error: AP.ParseError)
    | CheckpointUnreadable
    | EmptyBatch
    | CheckpointWriteFailed
    | ReportFailed
    | CheckpointDeleteFailed

  /** The end of a run: the evaluator's state, the checkpoint store, the report it wrote if any, and its effects. */
  datatype RunResult<S> = RunResult(
    evaluator: S,
    status: Status,
    store: CM.CheckpointFile,
    report: Option<string>,
    effects: seq<Effect>,
    results: seq<EvaluationResult>)

  /** The batches the loop actually visits: slices for a positive size, one empty batch for zero, none below. */
  function Plan(remaining: seq<Tweet>, batchSize: int): (bs: seq<seq<Tweet>>)
    ensures batchSize > 0 ==> |bs| == CeilDiv(|remaining|, batchSize)
    ensures batchSize > 0 ==> forall i :: 0 <= i < |bs| ==> 1 <= |bs[i]| <= batchSize
    ensures batchSize == 0 ==> bs == [[]]
    ensures batchSize < 0 ==> bs == []
  {
    if batchSize > 0 then Batches(remaining, batchSize)
    else if batchSize == 0 then [[]]
    else []
  }

  /**
   * `run`: parse the archive (its outcome is given), load the checkpoint, skip processed posts,
   * run the batches, then write the report of this run's results and delete the checkpoint.
   */
  function Run<S>(eval: (S, Tweet) -> (S, Evaluation), s: S, parsed: Result<seq<Tweet>, AP.ParseError>,
                  store: CM.CheckpointFile, batchSize: int, io: Io): (r: RunResult<S>)
    ensures parsed.Err? ==> r.status == Crashed(ArchiveFailed(parsed.error)) && r.store == store && r.effects == []
    ensures parsed.Ok? && store.Corrupt? ==> r.status == Crashed(CheckpointUnreadable) && r.effects == []
    ensures r.status == Completed ==> r.store == CM.Absent && r.report.Some?
    ensures r.report.Some? <==> r.status == Completed || r.status == Crashed(CheckpointDeleteFailed)
    ensures r.status == Crashed(CheckpointDeleteFailed) ==> CM.CheckpointExists(r.store) && !io.checkpointDeletable
  {
    match parsed
    case Err(e) => RunResult(s, Crashed(ArchiveFailed(e)), store, None, [], [])
    case Ok(tweets) =>
      match CM.LoadCheckpoint(store)
      case Err(_) => RunResult(s, Crashed(CheckpointUnreadable), store, None, [], [])
      case Ok(loaded) =>
        var start := StartProgress(loaded);
        var remaining := Remaining(tweets, start.processed);
        if remaining == [] then RunResult(s, AlreadyDone, store, None, [], [])
        else
          var loop := RunBatches(eval, s, start, store, Plan(remaining, batchSize), 0, |tweets|, io);
          var results := loop.progress.results;
          match loop.stop
          case QuotaHalt => RunResult(loop.evaluator, QuotaShutdown, loop.store, None, loop.effects, results)
          case EmptyBatchFailure => RunResult(loop.evaluator, Crashed(EmptyBatch), loop.store, None, loop.effects, results)
          case SaveFailure => RunResult(loop.evaluator, Crashed(CheckpointWriteFailed), loop.store, None, loop.effects, results)
          case AllBatchesDone =>
            match Csv.WriteResults(results)
            case Err(_) => RunResult(loop.evaluator, Crashed(ReportFailed), loop.store, None, loop.effects, results)
            case Ok(text) =>
              if !io.reportWritable then RunResult(loop.evaluator, Crashed(ReportFailed), loop.store, None, loop.effects, results)
              else
                match CM.DeleteCheckpoint(loop.store, io.checkpointDeletable)
                case Err(_) => RunResult(loop.evaluator, Crashed(CheckpointDeleteFailed), loop.store, Some(text),
                                         loop.effects + [ResultsWritten(text)], results)
                case Ok(store') => RunResult(loop.evaluator, Completed, store', Some(text),
                                             loop.effects + [ResultsWritten(text), CheckpointDeleted], results)
  }

  // What the loop and the run guarantee.

  /** The checkpoint store as the effects leave it: a save writes the record, a deletion removes it. */
  function Replay(store: CM.CheckpointFile, effects: seq<Effect>): CM.CheckpointFile
    decreases |effects|
  {
    if effects == [] then store
    else
      var next := match effects[0]
        case CheckpointSaved(cp) => CM.Present(cp)
        case CheckpointDeleted => CM.Absent
        case _ => store;
      Replay(next, effects[1..])
  }

  lemma {:induction false} ReplayAppend(store: CM.CheckpointFile, a: seq<Effect>, b: seq<Effect>)
    ensures Replay(store, a + b) == Replay(Replay(store, a), b)
    decreases |a|
  {
    if a == [] {
      assert a + b == b;
    } else {
      assert (a + b)[0] == a[0] && (a + b)[1..] == a[1..] + b;
      var next := match a[0]
        case CheckpointSaved(cp) => CM.Present(cp)
        case CheckpointDeleted => CM.Absent
        case _ => store;
      ReplayAppend(next, a[1..], b);
    }
  }

  /** A save followed by at most one pause leaves the saved record. */
  lemma ReplaySaveThenPause(store: CM.CheckpointFile, cp: ProcessingCheckpoint, pause: seq<Effect>)
    requires pause == [] || pause == [Paused(PauseMs)]
    ensures Replay(store, [CheckpointSaved(cp)] + pause) == CM.Present(cp)
  {
    var e := [CheckpointSaved(cp)] + pause;
    assert e[0] == CheckpointSaved(cp) && e[1..] == pause;
    assert Replay(store, e) == Replay(CM.Present(cp), pause);
    if pause != [] {
      assert pause[1..] == [];
      assert Replay(CM.Present(cp), pause) == Replay(CM.Present(cp), []);
    }
  }

  /** The loop's store is always the replay of its effects: nothing touches the record but the saves. */
  lemma {:induction false} LoopStoreIsReplay<S>(eval: (S, Tweet) -> (S, Evaluation), s: S, p: Progress,
                                                store: CM.CheckpointFile, batches: seq<seq<Tweet>>, k: nat,
                                                totalTweets: nat, io: Io)
    ensures var r := RunBatches(eval, s, p, store, batches, k, totalTweets, io);
            r.store == Replay(store, r.effects) && CheckpointDeleted !in r.effects
    decreases |batches|
  {
    if batches != [] {
      var pass := EvalAll(eval, s, p, batches[0]);
      if !pass.halted && batches[0] != [] {
        var cp := BuildCheckpoint(batches[0], pass.progress, totalTweets);
        var save := CM.SaveCheckpoint(store, cp, io.clock(k), io.checkpointWritable(k));
        if save.Ok? {
          var saved := [CheckpointSaved(cp.(timestamp := Some(io.clock(k))))];
          var pause := if |batches| > 1 then [Paused(PauseMs)] else [];
          var rest := RunBatches(eval, pass.evaluator, pass.progress, save.value, batches[1..], k + 1, totalTweets, io);
          LoopStoreIsReplay(eval, pass.evaluator, pass.progress, save.value, batches[1..], k + 1, totalTweets, io);
          ReplayAppend(store, saved + pause, rest.effects);
          ReplaySaveThenPause(store, cp.(timestamp := Some(io.clock(k))), pause);
        }
      }
    }
  }

  /**
   * Batching is transparent: a loop that ran to its end, or was cut short by the quota, left
   * the evaluator and the tallies exactly where one pass over all its posts would.
   */
  lemma {:induction false} LoopIsOnePass<S>(eval: (S, Tweet) -> (S, Evaluation), s: S, p: Progress,
                                            store: CM.CheckpointFile, batches: seq<seq<Tweet>>, k: nat,
                                            totalTweets: nat, io: Io)
    requires RunBatches(eval, s, p, store, batches, k, totalTweets, io).stop in {AllBatchesDone, QuotaHalt}
    ensures var r := RunBatches(eval, s, p, store, batches, k, totalTweets, io);
            EvalAll(eval, s, p, Flatten(batches)) == Pass(r.evaluator, r.progress, r.stop == QuotaHalt)
    decreases |batches|
  {
    if batches != [] {
      EvalAllAppend(eval, s, p, batches[0], Flatten(batches[1..]));
      var pass := EvalAll(eval, s, p, batches[0]);
      if !pass.halted && batches[0] != [] {
        var cp := BuildCheckpoint(batches[0], pass.progress, totalTweets);
        var save := CM.SaveCheckpoint(store, cp, io.clock(k), io.checkpointWritable(k));
        if save.Ok? {
          LoopIsOnePass(eval, pass.evaluator, pass.progress, save.value, batches[1..], k + 1, totalTweets, io);
        }
      }
    }
  }

  /** How many checkpoints the effects save, and how many pauses they take. */
  function Saves(effects: seq<Effect>): nat {
    if effects == [] then 0 else (if effects[0].CheckpointSaved? then 1 else 0) + Saves(effects[1..])
  }

  function Pauses(effects: seq<Effect>): nat {
    if effects == [] then 0 else (if effects[0].Paused? then 1 else 0) + Pauses(effects[1..])
  }

  lemma {:induction false} CountsAppend(a: seq<Effect>, b: seq<Effect>)
    ensures Saves(a + b) == Saves(a) + Saves(b) && Pauses(a + b) == Pauses(a) + Pauses(b)
    decreases |a|
  {
    if a == [] {
      assert a + b == b;
    } else {
      assert (a + b)[0] == a[0] && (a + b)[1..] == a[1..] + b;
      CountsAppend(a[1..], b);
    }
  }

  /**
   * The first step of a loop that ran to its end: the first batch was evaluated without a
   * shutdown, was not empty, and its checkpoint was saved; the rest of the loop ran to its end.
   */
  lemma DoneLoopStep<S>(eval: (S, Tweet) -> (S, Evaluation), s: S, p: Progress,
                        store: CM.CheckpointFile, batches: seq<seq<Tweet>>, k: nat,
                        totalTweets: nat, io: Io)
    requires batches != []
    requires RunBatches(eval, s, p, store, batches, k, totalTweets, io).stop == AllBatchesDone
    ensures var pass := EvalAll(eval, s, p, batches[0]);
            && !pass.halted && batches[0] != [] && io.checkpointWritable(k)
            && var cp := BuildCheckpoint(batches[0], pass.progress, totalTweets).(timestamp := Some(io.clock(k)));
               var rest := RunBatches(eval, pass.evaluator, pass.progress, CM.Present(cp), batches[1..], k + 1, totalTweets, io);
               && rest.stop == AllBatchesDone
               && RunBatches(eval, s, p, store, batches, k, totalTweets, io).effects
                    == [CheckpointSaved(cp)] + (if |batches| > 1 then [Paused(PauseMs)] else []) + rest.effects
  {
  }

  /**
   * A loop that ran to its end saved one checkpoint per batch and paused between batches only:
   * one pause fewer than batches, none after the last one.
   */
  lemma {:induction false} SavesAndPauses<S>(eval: (S, Tweet) -> (S, Evaluation), s: S, p: Progress,
                                             store: CM.CheckpointFile, batches: seq<seq<Tweet>>, k: nat,
                                             totalTweets: nat, io: Io)
    requires RunBatches(eval, s, p, store, batches, k, totalTweets, io).stop == AllBatchesDone
    ensures var r := RunBatches(eval, s, p, store, batches, k, totalTweets, io);
            Saves(r.effects) == |batches|
            && Pauses(r.effects) == (if batches == [] then 0 else |batches| - 1)
            && (batches != [] ==> r.effects[|r.effects| - 1].CheckpointSaved?)
    decreases |batches|
  {
    if batches != [] {
      DoneLoopStep(eval, s, p, store, batches, k, totalTweets, io);
      var pass := EvalAll(eval, s, p, batches[0]);
      var cp := BuildCheckpoint(batches[0], pass.progress, totalTweets).(timestamp := Some(io.clock(k)));
      var rest := RunBatches(eval, pass.evaluator, pass.progress, CM.Present(cp), batches[1..], k + 1, totalTweets, io);
      SavesAndPauses(eval, pass.evaluator, pass.progress, CM.Present(cp), batches[1..], k + 1, totalTweets, io);
      BatchStepCounts(cp, if |batches| > 1 then [Paused(PauseMs)] else [], rest.effects, |batches| - 1);
    }
  }

  /** One save, then a pause and the effects of `m > 0` more batches, or nothing more when `m == 0`. */
  lemma BatchStepCounts(cp: ProcessingCheckpoint, pause: seq<Effect>, rest: seq<Effect>, m: nat)
    requires m == 0 ==> pause == [] && rest == []
    requires m > 0 ==> pause == [Paused(PauseMs)] && Saves(rest) == m && Pauses(rest) == m - 1
                       && rest != [] && rest[|rest| - 1].CheckpointSaved?
    ensures var e := [CheckpointSaved(cp)] + pause + rest;
            Saves(e) == m + 1 && Pauses(e) == m && e[|e| - 1].CheckpointSaved?
  {
    var saved := [CheckpointSaved(cp)];
    CountsAppend(saved + pause, rest);
    CountsAppend(saved, pause);
    assert Saves(saved) == 1 && Pauses(saved) == 0 by {
      assert saved[1..] == [];
    }
    if m > 0 {
      assert Saves(pause) == 0 && Pauses(pause) == 1 by {
        assert pause[1..] == [];
      }
    } else {
      assert saved + pause + rest == saved;
    }
  }

  /** A checkpoint a run may save: stamped, counting exactly its ids, and against the archive's size. */
  predicate WellFormedCheckpoint(cp: ProcessingCheckpoint, totalTweets: nat) {
    cp.timestamp.Some? && cp.totalProcessed == |cp.processedTweetIds| && cp.totalTweets == totalTweets
  }

  /** Every checkpoint the effects save is well formed and covers the ids in `processed`. */
  ghost predicate SavesCover(effects: seq<Effect>, totalTweets: nat, processed: set<Option<string>>) {
    forall i :: 0 <= i < |effects| && effects[i].CheckpointSaved? ==>
      WellFormedCheckpoint(effects[i].checkpoint, totalTweets) && processed <= effects[i].checkpoint.processedTweetIds
  }

  /** Every saved checkpoint is well formed and covers every id processed before the loop started. */
  lemma {:induction false} SavedCheckpointsWellFormed<S>(eval: (S, Tweet) -> (S, Evaluation), s: S, p: Progress,
                                                         store: CM.CheckpointFile, batches: seq<seq<Tweet>>, k: nat,
                                                         totalTweets: nat, io: Io)
    ensures SavesCover(RunBatches(eval, s, p, store, batches, k, totalTweets, io).effects, totalTweets, p.processed)
    decreases |batches|
  {
    var r := RunBatches(eval, s, p, store, batches, k, totalTweets, io);
    if batches != [] {
      var pass := EvalAll(eval, s, p, batches[0]);
      if !pass.halted && batches[0] != [] {
        var cp := BuildCheckpoint(batches[0], pass.progress, totalTweets);
        var save := CM.SaveCheckpoint(store, cp, io.clock(k), io.checkpointWritable(k));
        if save.Ok? {
          var head := [CheckpointSaved(cp.(timestamp := Some(io.clock(k))))] + (if |batches| > 1 then [Paused(PauseMs)] else []);
          var rest := RunBatches(eval, pass.evaluator, pass.progress, save.value, batches[1..], k + 1, totalTweets, io);
          EvalAllGrowsProcessed(eval, s, p, batches[0]);
          SavedCheckpointsWellFormed(eval, pass.evaluator, pass.progress, save.value, batches[1..], k + 1, totalTweets, io);
          assert SavesCover(rest.effects, totalTweets, pass.progress.processed);
          assert r.effects == head + rest.effects;
          forall i | 0 <= i < |r.effects| && r.effects[i].CheckpointSaved?
            ensures WellFormedCheckpoint(r.effects[i].checkpoint, totalTweets)
            ensures p.processed <= r.effects[i].checkpoint.processedTweetIds
          {
            if i >= |head| {
              assert r.effects[i] == rest.effects[i - |head|];
            } else {
              assert r.effects[i] == head[i];
              assert i == 0;
            }
          }
        }
      }
    }
  }

  /** A pass never forgets a processed id. */
  lemma {:induction false} EvalAllGrowsProcessed<S>(eval: (S, Tweet) -> (S, Evaluation), s: S, p: Progress, ts: seq<Tweet>)
    ensures p.processed <= EvalAll(eval, s, p, ts).progress.processed
    decreases |ts|
  {
    if ts != [] {
      var (s', e) := eval(s, ts[0]);
      if !e.Halted? {
        EvalAllGrowsProcessed(eval, s', Record(p, ts[0], e), ts[1..]);
      }
    }
  }

  /** The run's store is the replay of its effects, and only a completed run deletes the checkpoint. */
  lemma RunStoreIsReplay<S>(eval: (S, Tweet) -> (S, Evaluation), s: S, parsed: Result<seq<Tweet>, AP.ParseError>,
                            store: CM.CheckpointFile, batchSize: int, io: Io)
    ensures var r := Run(eval, s, parsed, store, batchSize, io);
            r.store == Replay(store, r.effects) && (r.status != Completed ==> CheckpointDeleted !in r.effects)
  {
    if parsed.Ok? && !store.Corrupt? {
      var start := StartProgress(CM.LoadCheckpoint(store).value);
      var remaining := Remaining(parsed.value, start.processed);
      if remaining != [] {
        var batches := Plan(remaining, batchSize);
        LoopStoreIsReplay(eval, s, start, store, batches, 0, |parsed.value|, io);
        var loop := RunBatches(eval, s, start, store, batches, 0, |parsed.value|, io);
        var out := Csv.WriteResults(loop.progress.results);
        if loop.stop == AllBatchesDone && out.Ok? && io.reportWritable {
          if CM.DeleteCheckpoint(loop.store, io.checkpointDeletable).Ok? {
            var tail := [ResultsWritten(out.value), CheckpointDeleted];
            ReplayAppend(store, loop.effects, tail);
            assert tail[0].ResultsWritten? && tail[1..] == [CheckpointDeleted] && tail[1..][1..] == [];
            assert Replay(loop.store, tail) == Replay(loop.store, tail[1..]) == CM.Absent;
          } else {
            var tail := [ResultsWritten(out.value)];
            ReplayAppend(store, loop.effects, tail);
            assert tail[1..] == [];
            assert Replay(loop.store, tail) == Replay(loop.store, tail[1..]) == loop.store;
          }
        }
      }
    }
  }

  /** The progress a run starts from when its checkpoint store can be read. */
  function Start(store: CM.CheckpointFile): (p: Progress)
    requires !store.Corrupt?
    ensures p.results == []
    ensures store.Present? ==> p.processed == store.checkpoint.processedTweetIds
    ensures store.Absent? ==> p.processed == {}
  {
    StartProgress(CM.LoadCheckpoint(store).value)
  }

  /**
   * A run finds nothing to do exactly when the checkpoint covers every post of the archive;
   * it then touches nothing.
   */
  lemma AlreadyDoneIffAllProcessed<S>(eval: (S, Tweet) -> (S, Evaluation), s: S, tweets: seq<Tweet>,
                                      store: CM.CheckpointFile, batchSize: int, io: Io)
    requires !store.Corrupt?
    ensures var r := Run(eval, s, Ok(tweets), store, batchSize, io);
            (r.status == AlreadyDone <==> forall t :: t in tweets ==> t.idStr in Start(store).processed)
            && (r.status == AlreadyDone ==> r.effects == [] && r.store == store && r.report.None?)
  {
    var processed := Start(store).processed;
    var remaining := Remaining(tweets, processed);
    if remaining != [] {
      RemainingMembers(tweets, processed, remaining[0]);
    } else {
      forall t | t in tweets ensures t.idStr in processed {
        RemainingMembers(tweets, processed, t);
      }
    }
  }

  /**
   * A completed run with a positive batch size ran its batch loop to the end, then wrote the
   * report of the loop's results and deleted the checkpoint, in that order.
   */
  lemma CompletedRunShape<S>(eval: (S, Tweet) -> (S, Evaluation), s: S, tweets: seq<Tweet>,
                             store: CM.CheckpointFile, batchSize: int, io: Io)
    requires batchSize > 0
    requires Run(eval, s, Ok(tweets), store, batchSize, io).status == Completed
    ensures !store.Corrupt?
    ensures var r := Run(eval, s, Ok(tweets), store, batchSize, io);
            var remaining := Remaining(tweets, Start(store).processed);
            var loop := RunBatches(eval, s, Start(store), store, Batches(remaining, batchSize), 0, |tweets|, io);
            && remaining != [] && loop.stop == AllBatchesDone
            && r.evaluator == loop.evaluator && r.results == loop.progress.results
            && Csv.WriteResults(r.results).Ok? && r.report == Some(Csv.WriteResults(r.results).value)
            && r.effects == loop.effects + [ResultsWritten(r.report.value), CheckpointDeleted]
  {
  }

  /**
   * A completed run with a positive batch size evaluated every remaining post once, in archive
   * order, as one pass, and its report is built from exactly those results.
   */
  lemma CompletedRunIsOnePass<S>(eval: (S, Tweet) -> (S, Evaluation), s: S, tweets: seq<Tweet>,
                                 store: CM.CheckpointFile, batchSize: int, io: Io)
    requires batchSize > 0
    requires Run(eval, s, Ok(tweets), store, batchSize, io).status == Completed
    ensures !store.Corrupt?
    ensures var r := Run(eval, s, Ok(tweets), store, batchSize, io);
            var remaining := Remaining(tweets, Start(store).processed);
            var pass := EvalAll(eval, s, Start(store), remaining);
            && !pass.halted && pass.evaluator == r.evaluator && pass.progress.results == r.results
            && |r.results| == |remaining|
            && r.report == Some(Csv.WriteResults(r.results).value)
  {
    CompletedRunShape(eval, s, tweets, store, batchSize, io);
    var remaining := Remaining(tweets, Start(store).processed);
    var batches := Batches(remaining, batchSize);
    LoopIsOnePass(eval, s, Start(store), store, batches, 0, |tweets|, io);
    BatchesFlatten(remaining, batchSize);
  }

  /**
   * A completed run with a positive batch size saved one checkpoint per batch and paused one
   * time fewer, and its last two effects are writing the report and deleting the checkpoint.
   */
  lemma CompletedRunSavesPerBatch<S>(eval: (S, Tweet) -> (S, Evaluation), s: S, tweets: seq<Tweet>,
                                     store: CM.CheckpointFile, batchSize: int, io: Io)
    requires batchSize > 0
    requires Run(eval, s, Ok(tweets), store, batchSize, io).status == Completed
    ensures var r := Run(eval, s, Ok(tweets), store, batchSize, io);
            var remaining := Remaining(tweets, Start(store).processed);
            && |r.effects| >= 2 && r.effects[|r.effects| - 2..] == [ResultsWritten(r.report.value), CheckpointDeleted]
            && Saves(r.effects) == TotalBatches(|remaining|, batchSize)
            && Pauses(r.effects) == TotalBatches(|remaining|, batchSize) - 1
  {
    CompletedRunShape(eval, s, tweets, store, batchSize, io);
    var r := Run(eval, s, Ok(tweets), store, batchSize, io);
    var remaining := Remaining(tweets, Start(store).processed);
    var batches := Batches(remaining, batchSize);
    var loop := RunBatches(eval, s, Start(store), store, batches, 0, |tweets|, io);
    SavesAndPauses(eval, s, Start(store), store, batches, 0, |tweets|, io);
    BatchCountMatchesJava(|remaining|, batchSize);
    var tail := [ResultsWritten(r.report.value), CheckpointDeleted];
    CountsAppend(loop.effects, tail);
    assert tail[1..][1..] == [];
    assert Saves(tail) == Saves(tail[1..]) == Saves(tail[1..][1..]) == 0;
    assert Pauses(tail) == Pauses(tail[1..]) == Pauses(tail[1..][1..]) == 0;
  }

  /**
   * A run the quota shut down with a positive batch size stopped inside its pass, before the
   * last remaining post; it wrote no report and deleted nothing, so the store holds the last
   * checkpoint it saved, or the one it started with.
   */
  lemma QuotaShutdownStopsEarly<S>(eval: (S, Tweet) -> (S, Evaluation), s: S, tweets: seq<Tweet>,
                                   store: CM.CheckpointFile, batchSize: int, io: Io)
    requires batchSize > 0
    requires Run(eval, s, Ok(tweets), store, batchSize, io).status == QuotaShutdown
    ensures !store.Corrupt?
    ensures var r := Run(eval, s, Ok(tweets), store, batchSize, io);
            var remaining := Remaining(tweets, Start(store).processed);
            var pass := EvalAll(eval, s, Start(store), remaining);
            && pass.halted && pass.evaluator == r.evaluator && pass.progress.results == r.results
            && |r.results| < |remaining|
            && r.report.None? && CheckpointDeleted !in r.effects && r.store == Replay(store, r.effects)
  {
    var remaining := Remaining(tweets, Start(store).processed);
    var batches := Batches(remaining, batchSize);
    LoopIsOnePass(eval, s, Start(store), store, batches, 0, |tweets|, io);
    BatchesFlatten(remaining, batchSize);
    RunStoreIsReplay(eval, s, Ok(tweets), store, batchSize, io);
  }

  /**
   * A batch size of zero makes the first batch empty; looking up its last post throws before
   * anything is evaluated or saved.
   */
  lemma ZeroBatchSizeCrashes<S>(eval: (S, Tweet) -> (S, Evaluation), s: S, tweets: seq<Tweet>,
                                store: CM.CheckpointFile, io: Io)
    requires !store.Corrupt?
    requires Remaining(tweets, Start(store).processed) != []
    ensures TotalBatches(|Remaining(tweets, Start(store).processed)|, 0) == IntMax
    ensures var r := Run(eval, s, Ok(tweets), store, 0, io);
            r.status == Crashed(EmptyBatch) && r.effects == [] && r.store == store && r.results == [] && r.evaluator == s
  {
    var loop := RunBatches(eval, s, Start(store), store, [[]], 0, |tweets|, io);
    assert EvalAll(eval, s, Start(store), []) == Pass(s, Start(store), false);
    assert loop.stop == EmptyBatchFailure;
  }

  /**
   * A negative batch size gives no batches: nothing is evaluated or saved, and the run
   * completes with a report holding only the header.
   */
  lemma NegativeBatchSizeWritesHeaderOnly<S>(eval: (S, Tweet) -> (S, Evaluation), s: S, tweets: seq<Tweet>,
                                             store: CM.CheckpointFile, batchSize: int, io: Io)
    requires batchSize < 0 && !store.Corrupt? && io.reportWritable && io.checkpointDeletable
    requires Remaining(tweets, Start(store).processed) != []
    ensures TotalBatches(|Remaining(tweets, Start(store).processed)|, batchSize) <= 0
    ensures var r := Run(eval, s, Ok(tweets), store, batchSize, io);
            && r.status == Completed && r.results == [] && r.evaluator == s && r.store == CM.Absent
            && r.report == Some(Csv.Header + Csv.Newline)
            && r.effects == [ResultsWritten(Csv.Header + Csv.Newline), CheckpointDeleted]
  {
    var remaining := Remaining(tweets, Start(store).processed);
    NegativeBatchCount(|remaining|, batchSize);
    assert Plan(remaining, batchSize) == [];
    assert RunBatches(eval, s, Start(store), store, [], 0, |tweets|, io) == Loop(s, Start(store), store, [], AllBatchesDone);
    assert Csv.WriteResults([]) == Ok(Csv.Header + Csv.Newline) by {
      assert Csv.FlaggedOrError([]) == [];
      assert Csv.Rows([]) == Ok("");
      assert Csv.Header + Csv.Newline + "" == Csv.Header + Csv.Newline;
    }
  }

  /** With a negative batch size, the Java count of batches is zero or less. */
  lemma NegativeBatchCount(n: nat, batchSize: int)
    requires batchSize < 0
    ensures TotalBatches(n, batchSize) <= 0
  {
  }

  // Runs that cannot fail along the way.

  /** A result the report can render: it carries an error or a criteria list. */
  predicate Renderable(r: EvaluationResult) {
    r.errorMessage.Some? || r.matchedCriteria.Some?
  }

  /** An evaluator that never shuts the process down and whose results can always be rendered. */
  ghost predicate Unfailing<S(!new)>(eval: (S, Tweet) -> (S, Evaluation)) {
    forall s: S, t: Tweet :: !eval(s, t).1.Halted? && (eval(s, t).1.Returned? ==> Renderable(eval(s, t).1.result))
  }

  /** An unfailing evaluator is never cut short, and every result of its pass can be rendered. */
  lemma {:induction false} UnfailingPass<S(!new)>(eval: (S, Tweet) -> (S, Evaluation), s: S, p: Progress, ts: seq<Tweet>)
    requires Unfailing(eval)
    requires forall r :: r in p.results ==> Renderable(r)
    ensures !EvalAll(eval, s, p, ts).halted
    ensures forall r :: r in EvalAll(eval, s, p, ts).progress.results ==> Renderable(r)
    decreases |ts|
  {
    if ts != [] {
      var (s', e) := eval(s, ts[0]);
      var p' := Record(p, ts[0], e);
      assert p'.results == p.results + [p'.results[|p.results|]];
      UnfailingPass(eval, s', p', ts[1..]);
    }
  }

  /** With an unfailing evaluator, writable checkpoints and no empty batch, the loop runs to its end. */
  lemma {:induction false} UnfailingLoopRunsToEnd<S(!new)>(eval: (S, Tweet) -> (S, Evaluation), s: S, p: Progress,
                                                           store: CM.CheckpointFile, batches: seq<seq<Tweet>>, k: nat,
                                                           totalTweets: nat, io: Io)
    requires Unfailing(eval)
    requires forall r :: r in p.results ==> Renderable(r)
    requires forall i :: 0 <= i < |batches| ==> batches[i] != []
    requires forall j :: io.checkpointWritable(j)
    ensures RunBatches(eval, s, p, store, batches, k, totalTweets, io).stop == AllBatchesDone
    decreases |batches|
  {
    if batches != [] {
      UnfailingPass(eval, s, p, batches[0]);
      var pass := EvalAll(eval, s, p, batches[0]);
      var cp := BuildCheckpoint(batches[0], pass.progress, totalTweets);
      var save := CM.SaveCheckpoint(store, cp, io.clock(k), io.checkpointWritable(k));
      UnfailingLoopRunsToEnd(eval, pass.evaluator, pass.progress, save.value, batches[1..], k + 1, totalTweets, io);
    }
  }

  /**
   * A run whose evaluations never shut it down and whose writes all succeed completes, even
   * when every evaluation throws: failures become error rows, not a failed run.
   */
  lemma UnfailingRunCompletes<S(!new)>(eval: (S, Tweet) -> (S, Evaluation), s: S, tweets: seq<Tweet>,
                                       store: CM.CheckpointFile, batchSize: int, io: Io)
    requires Unfailing(eval)
    requires !store.Corrupt? && batchSize > 0 && io.reportWritable && io.checkpointDeletable
    requires forall j :: io.checkpointWritable(j)
    ensures Run(eval, s, Ok(tweets), store, batchSize, io).status in {Completed, AlreadyDone}
  {
    var remaining := Remaining(tweets, Start(store).processed);
    if remaining != [] {
      var batches := Batches(remaining, batchSize);
      UnfailingLoopRunsToEnd(eval, s, Start(store), store, batches, 0, |tweets|, io);
      var loop := RunBatches(eval, s, Start(store), store, batches, 0, |tweets|, io);
      LoopIsOnePass(eval, s, Start(store), store, batches, 0, |tweets|, io);
      BatchesFlatten(remaining, batchSize);
      UnfailingPass(eval, s, Start(store), remaining);
      RenderableReportWrites(loop.progress.results);
    }
  }

  /** Results that all render give a report. */
  lemma RenderableReportWrites(results: seq<EvaluationResult>)
    requires forall r :: r in results ==> Renderable(r)
    ensures Csv.WriteResults(results).Ok?
  {
    var kept := Csv.FlaggedOrError(results);
    Csv.RowsFailIffUnrenderable(kept);
    forall i | 0 <= i < |kept| ensures Renderable(kept[i]) {
      Csv.FlaggedOrErrorMembers(results, kept[i]);
    }
  }

  // Invariants of the evaluator's own state.

  /** Every step of the evaluator keeps `inv`. */
  ghost predicate Keeps<S(!new)>(eval: (S, Tweet) -> (S, Evaluation), inv: S -> bool) {
    forall s: S, t: Tweet :: inv(s) ==> inv(eval(s, t).0)
  }

  lemma {:induction false} PassKeeps<S(!new)>(eval: (S, Tweet) -> (S, Evaluation), inv: S -> bool, s: S, p: Progress, ts: seq<Tweet>)
    requires Keeps(eval, inv) && inv(s)
    ensures inv(EvalAll(eval, s, p, ts).evaluator)
    decreases |ts|
  {
    if ts != [] {
      var (s', e) := eval(s, ts[0]);
      if !e.Halted? {
        PassKeeps(eval, inv, s', Record(p, ts[0], e), ts[1..]);
      }
    }
  }

  lemma {:induction false} LoopKeeps<S(!new)>(eval: (S, Tweet) -> (S, Evaluation), inv: S -> bool, s: S, p: Progress,
                                              store: CM.CheckpointFile, batches: seq<seq<Tweet>>, k: nat,
                                              totalTweets: nat, io: Io)
    requires Keeps(eval, inv) && inv(s)
    ensures inv(RunBatches(eval, s, p, store, batches, k, totalTweets, io).evaluator)
    decreases |batches|
  {
    if batches != [] {
      PassKeeps(eval, inv, s, p, batches[0]);
      var pass := EvalAll(eval, s, p, batches[0]);
      if !pass.halted && batches[0] != [] {
        var cp := BuildCheckpoint(batches[0], pass.progress, totalTweets);
        var save := CM.SaveCheckpoint(store, cp, io.clock(k), io.checkpointWritable(k));
        if save.Ok? {
          LoopKeeps(eval, inv, pass.evaluator, pass.progress, save.value, batches[1..], k + 1, totalTweets, io);
        }
      }
    }
  }

  /** An invariant every evaluation step keeps still holds when the run ends, however it ends. */
  lemma RunKeeps<S(!new)>(eval: (S, Tweet) -> (S, Evaluation), inv: S -> bool, s: S,
                          parsed: Result<seq<Tweet>, AP.ParseError>, store: CM.CheckpointFile, batchSize: int, io: Io)
    requires Keeps(eval, inv) && inv(s)
    ensures inv(Run(eval, s, parsed, store, batchSize, io).evaluator)
  {
    if parsed.Ok? && !store.Corrupt? {
      var start := Start(store);
      var remaining := Remaining(parsed.value, start.processed);
      LoopKeeps(eval, inv, s, start, store, Plan(remaining, batchSize), 0, |parsed.value|, io);
    }
  }

  // What a checkpoint covers.

  lemma IdsAppend(a: seq<Tweet>, b: seq<Tweet>)
    ensures Ids(a + b) == Ids(a) + Ids(b)
  {
    assert forall t :: t in a + b <==> t in a || t in b;
  }

  /** A pass that was not cut short marked exactly the ids of its posts as processed. */
  lemma {:induction false} EvalAllProcessed<S>(eval: (S, Tweet) -> (S, Evaluation), s: S, p: Progress, ts: seq<Tweet>)
    requires !EvalAll(eval, s, p, ts).halted
    ensures EvalAll(eval, s, p, ts).progress.processed == p.processed + Ids(ts)
    decreases |ts|
  {
    if ts == [] {
      assert Ids(ts) == {};
    } else {
      var (s', e) := eval(s, ts[0]);
      EvalAllProcessed(eval, s', Record(p, ts[0], e), ts[1..]);
      assert ts == [ts[0]] + ts[1..];
      IdsAppend([ts[0]], ts[1..]);
      assert Ids([ts[0]]) == {ts[0].idStr};
    }
  }

  lemma FlattenFirst<T>(xss: seq<seq<T>>, j: nat)
    requires j < |xss|
    ensures Flatten(xss[..j + 1]) == xss[0] + Flatten(xss[1..][..j])
  {
    assert xss[..j + 1][0] == xss[0] && xss[..j + 1][1..] == xss[1..][..j];
  }

  /** Every checkpoint the effects save marks `base` plus the posts of the first `j` batches, for some `j >= 1`. */
  ghost predicate SavesWholeBatches(effects: seq<Effect>, base: set<Option<string>>, batches: seq<seq<Tweet>>) {
    forall i :: 0 <= i < |effects| && effects[i].CheckpointSaved? ==>
      exists j :: 1 <= j <= |batches| && effects[i].checkpoint.processedTweetIds == base + Ids(Flatten(batches[..j]))
  }

  /**
   * A checkpoint always covers a whole number of batches from the start, never part of one: a
   * post evaluated in a batch the run did not finish is evaluated again on resumption.
   */
  lemma {:induction false} SavedCheckpointsCoverWholeBatches<S>(eval: (S, Tweet) -> (S, Evaluation), s: S, p: Progress,
                                                                store: CM.CheckpointFile, batches: seq<seq<Tweet>>, k: nat,
                                                                totalTweets: nat, io: Io)
    ensures SavesWholeBatches(RunBatches(eval, s, p, store, batches, k, totalTweets, io).effects, p.processed, batches)
    decreases |batches|
  {
    var r := RunBatches(eval, s, p, store, batches, k, totalTweets, io);
    if batches != [] {
      var pass := EvalAll(eval, s, p, batches[0]);
      if !pass.halted && batches[0] != [] {
        var cp := BuildCheckpoint(batches[0], pass.progress, totalTweets);
        var save := CM.SaveCheckpoint(store, cp, io.clock(k), io.checkpointWritable(k));
        if save.Ok? {
          var pause := if |batches| > 1 then [Paused(PauseMs)] else [];
          var rest := RunBatches(eval, pass.evaluator, pass.progress, save.value, batches[1..], k + 1, totalTweets, io);
          EvalAllProcessed(eval, s, p, batches[0]);
          SavedCheckpointsCoverWholeBatches(eval, pass.evaluator, pass.progress, save.value, batches[1..], k + 1, totalTweets, io);
          SavesWholeBatchesCons(cp.(timestamp := Some(io.clock(k))), pause, rest.effects, p.processed, batches);
        }
      }
    }
  }

  /** A save covering the first batch, then saves covering whole batches after it, cover whole batches. */
  lemma SavesWholeBatchesCons(cp: ProcessingCheckpoint, pause: seq<Effect>, rest: seq<Effect>,
                              base: set<Option<string>>, batches: seq<seq<Tweet>>)
    requires batches != []
    requires cp.processedTweetIds == base + Ids(batches[0])
    requires pause == [] || pause == [Paused(PauseMs)]
    requires SavesWholeBatches(rest, base + Ids(batches[0]), batches[1..])
    ensures SavesWholeBatches([CheckpointSaved(cp)] + pause + rest, base, batches)
  {
    var head := [CheckpointSaved(cp)] + pause;
    var effects := head + rest;
    forall i | 0 <= i < |effects| && effects[i].CheckpointSaved?
      ensures exists j :: 1 <= j <= |batches| && effects[i].checkpoint.processedTweetIds == base + Ids(Flatten(batches[..j]))
    {
      if i >= |head| {
        assert effects[i] == rest[i - |head|];
        var j' :| 1 <= j' <= |batches[1..]|
                  && rest[i - |head|].checkpoint.processedTweetIds == base + Ids(batches[0]) + Ids(Flatten(batches[1..][..j']));
        FlattenFirst(batches, j');
        IdsAppend(batches[0], Flatten(batches[1..][..j']));
        assert effects[i].checkpoint.processedTweetIds == base + Ids(Flatten(batches[..j' + 1]));
      } else {
        assert effects[i] == head[i];
        assert i == 0;
        FlattenFirst(batches, 0);
        assert batches[1..][..0] == [];
        assert Flatten(batches[..1]) == batches[0] + [];
        assert effects[i].checkpoint.processedTweetIds == base + Ids(Flatten(batches[..1]));
      }
    }
  }
}

=== FILE: wrappers.dfy ===
/** Failure-carrying values used where the Java code returns null or throws. */
module Wrappers {

  /** A value that may be absent; `None` stands for a Java `null`. */
  datatype Option<+T> = None | Some(value: T) {

    /** The wrapped value, or `default` when absent. */
    function GetOr(default: T): T {
      match this
      case Some(v) => v
      case None => default
    }
  }

  /** Either a computed value or the error that a Java method would have thrown. */
  datatype Result<+T, +E> = Ok(value: T) | Err(error: E)
}
